=== FILE: README.md ===
# KDP Builder core, modelled in Dafny

KDP Builder makes print-ready planner interiors and covers for Amazon KDP
(Kindle Direct Publishing). This project models its core as pure Dafny
functions over immutable datatypes, one module per source file:

- **Sizes** (`kdp_builder/config/sizes.py`): the trim-size table. Only the
  6" x 9" trim is defined: 432 x 648 pt, 36 pt margins, no bleed.
- **Cover** and **CoverValidator** (`kdp_builder/cover/`): the full cover's
  width, height and spine for a page count and paper stock, and the checks
  a cover PDF must pass.
- **KdpValidator** (`kdp_builder/validator/kdp_validator.py`): the interior
  pre-flight.
  - Checks: encryption, header version, page count, each page's size and
    uniformity, boxes, rotation, annotations, images and fonts.
  - The final `ok` flag and the report.
  - The page loop is a method with loop invariants. The rest of the report
    is stated stage by stage.
- **BlockSchema** and **BlockLibrary** (`kdp_builder/blocks/`): reusable
  layout blocks and the in-memory library of them. The library is a
  sequence in dict insertion order with unique ids. It supports add,
  look-up, search, usage statistics, popularity and quality rankings,
  import and library statistics.
- **BlockComposer** (`kdp_builder/ai/block_composer.py`):
  - the three fixed planner templates;
  - the choice and ranking of relevant blocks;
  - the clean-up of a composition proposed by the language model;
  - the fallback layout used when the model call fails.
- **LayoutGenerator** (`kdp_builder/ai/layout_generator.py`): the gutter
  shift of odd and even pages.
- **BlockRenderer** (`kdp_builder/renderer/block_renderer.py`): where each
  block element is drawn, which elements draw at all, and the bleed box.
  Drawing calls become a list of drawing commands.
- **AiService** (`web/backend/services/ai_service.py`): the layout fix-up
  applied to model output, and the parsing of improvement suggestions.
- **BlockExtractor** (`web/backend/services/block_extractor.py`): finding
  headers, weekly rows and notes boxes in parsed page content, and
  flattening them to editor elements.
- **Thumbnail** (`web/backend/services/thumbnail_generator.py`): the
  page-size estimate used before a thumbnail is drawn.
- **ExportApi** (`web/backend/api/export_api.py`): the output file name, the
  bleed offset, the drawing order, where each element lands, page breaks
  and circle geometry.
- **AiVision** (`web/backend/services/ai_vision.py`): the keyword mapping
  from object-detector class names to element kinds.

Helper modules:

- **Wrappers**: `Option` and `Result`.
- **Seqs**: filtering and flattening of sequences.
- **Text**: lower-casing, strip, split, replace and substring tests, for ASCII characters.
- **StableSort**: a stable insertion sort by a real-valued key, with
  stability and permutation proved. It stands in for Python's `sorted`.

Python's behaviour is written out where it matters:

- Truthiness: an empty tag list or an empty query imposes nothing.
- `dict.get` defaults: missing keys are `Option`s.
- `sorted(..., reverse=True)` becomes a stable sort on the negated key.
- `max` keeps the first maximal element.
- `%` with modulus 2, which agrees with Dafny's `%`.
- Tuple comparison of PDF versions.

Floats are modelled as `real`.

Timestamps, identifiers, the language model's replies, PDF parsing results
and file contents are parameters. The model never reads a clock, a network
or a file.

## Model

| member | source | states |
|---|---|---|
| Sizes.Lookup | kdp_builder/config/sizes.py:4-22 | Only the key "6x9" is known. It is 432 x 648 pt with 36 pt margins on all four sides and no bleed. |
| Cover.SpineInPerPage | kdp_builder/cover/cover_renderer.py:12-16 | Exactly the papers white, cream and color have a spine thickness per page, and it is positive. |
| Cover.ComputeCoverDims | kdp_builder/cover/cover_renderer.py:26-43 | An unknown trim key fails first, then an unknown paper. The computation succeeds exactly when both are known. |
| Cover.CoverLayout | kdp_builder/cover/cover_renderer.py:32-43 | Width minus spine is two trim widths plus two bleeds. Height minus two bleeds is the trim height. Spine is pages times inches per page times 72. |
| Cover.WidthMonotoneInPages | kdp_builder/cover/cover_renderer.py:36-40 | More pages never give a narrower cover or spine. |
| Cover.HeightIgnoresPagesAndPaper | kdp_builder/cover/cover_renderer.py:41 | The cover height depends on neither the page count nor the paper. |
| Cover.SixByNineWhiteExample | kdp_builder/cover/cover_renderer.py:12-43 | A 100-page 6x9 white-paper cover with 9 pt bleed is 898.2144 x 666 pt with a 16.2144 pt spine. |
| CoverValidator.ValidateCover | kdp_builder/cover/cover_validator.py:25-64 | Bad arguments fail with the dimension error. A cover with no pages fails. Otherwise the report echoes the expected dimensions and the first page's size, and `ok` means no error-level issue. |
| CoverValidator.CoverOkIff | kdp_builder/cover/cover_validator.py:30-55 | One error each for not exactly one page, a size more than 0.5 pt off, and encryption. `ok` holds exactly when none of the three applies. |
| KdpValidator.AlmostEqual | kdp_builder/validator/kdp_validator.py:23-24 | True exactly when the two values differ by at most the tolerance, bounds included. |
| KdpValidator.AlmostEqualSymmetric | kdp_builder/validator/kdp_validator.py:23-24 | The tolerance test is symmetric, and a difference equal to the tolerance still passes. |
| KdpValidator.RectInside | kdp_builder/validator/kdp_validator.py:27-36 | True exactly when every side of the inner box lies within the outer box widened by the tolerance. |
| KdpValidator.RectInsideReflexive | kdp_builder/validator/kdp_validator.py:27-36 | Every box lies inside itself. |
| KdpValidator.LowResIff | kdp_builder/validator/kdp_validator.py:194-211 | An image is counted once. It is flagged as low resolution exactly when both pixel sizes are declared and one is under 900. |
| KdpValidator.ImagesIn | kdp_builder/validator/kdp_validator.py:197-202 | No more images are counted than there are XObjects. |
| KdpValidator.LowResIn | kdp_builder/validator/kdp_validator.py:203-209 | Low-resolution images are a subset of the images counted. |
| KdpValidator.NamesWhereExact | kdp_builder/validator/kdp_validator.py:142-157 | A font name is collected exactly when some font of the resources has that base name and the property. |
| KdpValidator.ExaminedPages | kdp_builder/validator/kdp_validator.py:139 | The number of pages whose own fonts the loop examines never exceeds the page count. |
| KdpValidator.FontPassSkipsLastPage | kdp_builder/validator/kdp_validator.py:138-195 | The font pass of each page reads the previous page's resources. The fonts collected are therefore those of every page but the last; a one-page document has its page examined. |
| KdpValidator.SecondPageFontUnchecked | kdp_builder/validator/kdp_validator.py:138-195 | Counterexample: in a two-page document whose page 1 has no fonts, a non-embedded font used only on page 2 is never reported. |
| KdpValidator.SubsetNameIff | kdp_builder/validator/kdp_validator.py:160-163 | A name splits at its first '+'. It is a subset name exactly when the part before is upper-case and at least six characters long. |
| KdpValidator.SlashCountsTowardsSubsetPrefix | kdp_builder/validator/kdp_validator.py:144-163 | The printed name's leading '/' counts towards the six characters, so five capital letters already make a subset name. |
| KdpValidator.LowerCasePrefixIsNotSubset | kdp_builder/validator/kdp_validator.py:160-163 | A prefix with a lower-case letter never makes a subset name. |
| KdpValidator.HeaderIssuesIff | kdp_builder/validator/kdp_validator.py:52-79 | The only error from the header checks is encryption, given exactly for an encrypted document. The above-1.7 warning is given exactly when the version compares above (1, 7) as a tuple. |
| KdpValidator.PageCountIssuesIff | kdp_builder/validator/kdp_validator.py:84-87 | One error below 24 pages, one above 828, none in between. |
| KdpValidator.BoxIssuesIff | kdp_builder/validator/kdp_validator.py:178-191 | The box checks give warnings only. Each is given exactly when its containment fails, and trim-in-bleed needs both boxes. |
| KdpValidator.BoxIssuesShape | kdp_builder/validator/kdp_validator.py:178-191 | Each box issue is a warning about that page's trim or bleed box. |
| KdpValidator.FirstSeen | kdp_builder/validator/kdp_validator.py:118-123 | Page 1's size is known exactly from the second iteration on. |
| KdpValidator.CountPages | kdp_builder/validator/kdp_validator.py:125-175 | No more pages are counted landscape, rotated or annotated than were visited. |
| KdpValidator.CountPagesPositive | kdp_builder/validator/kdp_validator.py:125-175 | One landscape, rotated or annotated page makes its count positive. |
| KdpValidator.CountLowRes | kdp_builder/validator/kdp_validator.py:194-211 | Across pages, low-resolution images never outnumber images. |
| KdpValidator.Visit | kdp_builder/validator/kdp_validator.py:102-215 | One page visit only appends issues, and bumps the landscape and annotation counts exactly for such a page. |
| KdpValidator.VisitIsStep | kdp_builder/validator/kdp_validator.py:102-215 | Visiting page i, with its first-page knowledge and font scope, extends the tally of the pages before it to the tally of the pages up to it. |
| KdpValidator.PageLoop | kdp_builder/validator/kdp_validator.py:90-215 | The loop's tally holds exactly the page checks, property counts and font names defined page by page, with the carried `resources` variable. |
| KdpValidator.ValidatePdf | kdp_builder/validator/kdp_validator.py:39-250 | An unknown trim key fails before anything else. Otherwise the report is the stage-by-stage one: header, count and page issues, `ok` taken from those, then the summary, and the first page's size (0 x 0 when empty). |
| KdpValidator.FirstPageSize | kdp_builder/validator/kdp_validator.py:238-242 | The reported size is page 1's media box, or 0 x 0 for a document without pages. |
| KdpValidator.CheckPageErrorIff | kdp_builder/validator/kdp_validator.py:107-123 | A page's checks give an error exactly when it fails the size check or, after page 1, the uniformity check. |
| KdpValidator.PageIssuesErrorIff | kdp_builder/validator/kdp_validator.py:102-123 | The page loop gives an error exactly when some page fails one of those two checks. |
| KdpValidator.HasErrorConcat | kdp_builder/validator/kdp_validator.py:217 | An issue list has an error exactly when one of its parts has. |
| KdpValidator.OkIff | kdp_builder/validator/kdp_validator.py:217 | `ok` holds exactly when the document is unencrypted, has 24 to 828 pages, and every page has the trim size and page 1's size. Annotations, fonts, images and boxes play no part. |
| KdpValidator.AnnotationErrorKeepsOk | kdp_builder/validator/kdp_validator.py:217-224 | An annotated page is reported as an error yet leaves `ok` true, because `ok` is fixed before the summary. |
| KdpValidator.NonEmbeddedErrorKeepsOk | kdp_builder/validator/kdp_validator.py:217-233 | Likewise, a non-embedded-font error is reported while `ok` stays true. |
| KdpValidator.PresentIff | kdp_builder/validator/kdp_validator.py:219-235 | Each summary line is reported exactly when its condition holds. |
| KdpValidator.SummaryReportsEachClassOnce | kdp_builder/validator/kdp_validator.py:219-235 | The summary gives at most one issue per class, in source order. Each comes with its level and is given exactly when its count or name set is non-empty. |
| KdpValidator.InPageIssues | kdp_builder/validator/kdp_validator.py:102-215 | An issue is in the loop's list exactly when some page's checks give it. |
| KdpValidator.OnlyOwnChecks | kdp_builder/validator/kdp_validator.py:102-191 | An issue naming page j+1 comes only from page j's checks. |
| KdpValidator.CheckPageMentions | kdp_builder/validator/kdp_validator.py:107-191 | A page's checks only mention that page. |
| KdpValidator.CheckPageSize | kdp_builder/validator/kdp_validator.py:107-116 | A page's checks include a size error exactly when its size matches the trim in neither orientation. |
| KdpValidator.CheckPageDiffers | kdp_builder/validator/kdp_validator.py:118-123 | A page's checks include a uniformity error exactly when it is not page 1 and differs from page 1 by more than the tolerance. |
| KdpValidator.SizeMismatchReported | kdp_builder/validator/kdp_validator.py:107-116 | Each page whose size matches the trim in neither orientation gets exactly its own size error, and no other page gets one. |
| KdpValidator.DiffersReported | kdp_builder/validator/kdp_validator.py:118-123 | Page 1 never gets a uniformity error. A later page gets one exactly when it differs from page 1 by more than the tolerance. |
| BlockSchema.CategoryOf | kdp_builder/blocks/block_schema.py:14-31 | A parsed category prints back to the string it was parsed from. |
| BlockSchema.CategoryOfValue | kdp_builder/blocks/block_schema.py:14-31 | Every category parses back from its value. |
| BlockSchema.ComplexityValueRoundTrip | kdp_builder/blocks/block_schema.py:34-37 | Complexity values and parsing are inverse both ways. |
| BlockSchema.CreateBlock | kdp_builder/blocks/block_schema.py:151-200 | A created block carries the given id, name, elements, category and complexity (as parseable values), description and source. Given dimensions and parameters are stored as given. Otherwise it gets the flexible 400 x 100 size and empty parameters. Missing tags become an empty list. It starts with usage 0 and rate 1.0 and has both timestamps. |
| BlockSchema.CreatedBlockConforms | kdp_builder/blocks/block_schema.py:151-200 | A created block satisfies the schema. By default it has the flexible 400 x 100 size, empty tags and parameters, and source "manual". |
| BlockLibrary.IndexOf | kdp_builder/blocks/block_library.py:50-52 | The position found is the first with the id. None means no block has it. |
| BlockLibrary.GetBlock | kdp_builder/blocks/block_library.py:50-52 | The block returned is in the library with the id asked for. None means no block has it. |
| BlockLibrary.AddBlock | kdp_builder/blocks/block_library.py:35-48 | A new id is appended at the end. A known id keeps the library's size. |
| BlockLibrary.AddThenGet | kdp_builder/blocks/block_library.py:35-52 | After adding, the id resolves to the added block and every other id resolves as before. |
| BlockLibrary.AddKeepsUniqueIds | kdp_builder/blocks/block_library.py:35-48 | Adding never creates a second entry for an id. |
| BlockLibrary.SearchBlocks | kdp_builder/blocks/block_library.py:54-100 | The result is the library's blocks at increasing positions, so library order is kept. A position is taken exactly when its block passes every supplied filter. |
| BlockLibrary.SearchIsExact | kdp_builder/blocks/block_library.py:54-100 | A block is returned exactly when it is in the library and passes every supplied filter: category, any shared tag, complexity, and a case-insensitive substring of name or description. |
| BlockLibrary.SearchWithoutFilters | kdp_builder/blocks/block_library.py:54-104 | With no filters, or an empty tag list or query, every block comes back in order. This is also what `get_all_blocks` returns. |
| BlockLibrary.SearchIgnoresQueryCase | kdp_builder/blocks/block_library.py:84-98 | The query's case does not matter. |
| BlockLibrary.UpdateBlockStats | kdp_builder/blocks/block_library.py:110-134 | The library keeps its size. An unknown id changes nothing. |
| BlockLibrary.UpdateBlockStatsEffect | kdp_builder/blocks/block_library.py:110-134 | The block's usage grows by one, and its rate moves 10% of the way towards 1 on success or 0 on failure. Its update time is the timestamp and nothing else about it changes. Other blocks are untouched. |
| BlockLibrary.UpdateKeepsRateInRange | kdp_builder/blocks/block_library.py:121-128 | A rate in [0, 1] stays in [0, 1]. |
| BlockLibrary.PopularBlocks | kdp_builder/blocks/block_library.py:136-143 | Exactly min(limit, library size) blocks for a non-negative limit; a negative limit drops that many from the end, as Python slicing does. The result is the leading part of the library stably sorted by usage, most used first, so usage never increases along it. |
| BlockLibrary.PopularBlocksAreTheMostUsed | kdp_builder/blocks/block_library.py:136-143 | Returned blocks come from the library, and no block left out is used more than one returned. |
| BlockLibrary.PopularBlocksStable | kdp_builder/blocks/block_library.py:138-142 | Blocks with equal usage keep their library order. |
| BlockLibrary.HighQualityBlocks | kdp_builder/blocks/block_library.py:145-150 | Every block returned reaches the threshold. The result is the library's blocks at increasing positions, and a position is taken exactly when its block's rate (missing counts as 0) reaches the threshold. |
| BlockLibrary.HighQualityIsExact | kdp_builder/blocks/block_library.py:145-150 | A block is returned exactly when it is in the library and its rate (missing counts as 0) reaches the threshold. |
| BlockLibrary.LastWithId | kdp_builder/blocks/block_library.py:178-193 | The block found comes from the imported list with that id. None means no imported block has it. |
| BlockLibrary.ImportLibrary | kdp_builder/blocks/block_library.py:178-193 | After an import, every id looks up the last imported block carrying it. Ids not imported keep their old block when merging and are absent otherwise. |
| BlockLibrary.ImportLookup | kdp_builder/blocks/block_library.py:178-193 | After an import, an id names the last imported block with it. Other ids keep their block when merging and are gone otherwise. |
| BlockLibrary.ImportKeepsUniqueIds | kdp_builder/blocks/block_library.py:178-193 | Importing keeps ids unique. |
| BlockLibrary.BumpEffect | kdp_builder/blocks/block_library.py:200-209 | Counting a key raises its count by one, leaves other keys alone, and keeps keys distinct. |
| BlockLibrary.CountByCorrect | kdp_builder/blocks/block_library.py:199-209 | The count of each key is its number of occurrences, keys are distinct, and the counts add up to the number of blocks. |
| BlockLibrary.LibraryStatsOf | kdp_builder/blocks/block_library.py:195-221 | The total is the number of blocks. An empty library has average rate 0 and usage 0. |
| BlockLibrary.StatsCountsAddUp | kdp_builder/blocks/block_library.py:197-209 | Category and complexity counts each add up to the total, and each category is counted as often as blocks carry it. |
| BlockLibrary.AverageRateInRange | kdp_builder/blocks/block_library.py:211-213 | When every stored rate lies in [0, 1], so does the average. |
| BlockComposer.MarginsByParity | kdp_builder/ai/block_composer.py:50-57 | The gutter is added to the left margin on odd pages and to the right on even ones. Consecutive pages alternate. |
| BlockComposer.First | kdp_builder/ai/block_composer.py:61-71 | The first search hit, present exactly when there is one. |
| BlockComposer.PickIsTagged | kdp_builder/ai/block_composer.py:61-71 | A picked block is in the library and carries one of the tags, and no library block before it carries any. Nothing is picked exactly when no block carries any. |
| BlockComposer.PlaceIf | kdp_builder/ai/block_composer.py:70-103 | One placement of the block at the given y when found, none otherwise. |
| BlockComposer.DailyLayout | kdp_builder/ai/block_composer.py:38-108 | A daily page has the given number and at most three placements. |
| BlockComposer.DailyTemplateLayout | kdp_builder/ai/block_composer.py:38-108 | One placement per found block, except that notes are placed only when there is more than 36 pt left below them. The header sits 86 pt below the top edge. The time block's y is the top margin less 70 pt for a header, less 425 pt. The notes block's y is the top margin less 70 and 445 pt for the blocks above it, less 120 pt. Every placement starts at the left margin and spans the content width. |
| BlockComposer.DailyNotesNeedTallPage | kdp_builder/ai/block_composer.py:66-103 | With header and time blocks, notes appear only on pages taller than 707 pt, so never on a 9" page. |
| BlockComposer.EtsyLayout | kdp_builder/ai/block_composer.py:110-234 | A habit or meal page has the given number and at most three placements. |
| BlockComposer.EtsyLinedSection | kdp_builder/ai/block_composer.py:110-234 | One placement per found block; the lined block only while y > 100. Its height equals its y, so its top edge rises above the running y. All placements share the left margin and width. |
| BlockComposer.TemplateFor | kdp_builder/ai/block_composer.py:260-272 | The case-insensitive planner types daily, habit_tracker and meal_planner/meal select their templates. |
| BlockComposer.TemplatePage | kdp_builder/ai/block_composer.py:276-283 | A template page carries the page number it was built for. |
| BlockComposer.TemplatePages | kdp_builder/ai/block_composer.py:274-288 | There are `num_pages` pages (none when not positive), numbered 1 upward. |
| BlockComposer.ComposePlanner | kdp_builder/ai/block_composer.py:236-309 | Template planner types, and a failed model call with relevant blocks, give `num_pages` pages numbered from 1 under the planner type. No relevant blocks or an unparsable reply give an empty composition. A parsed reply keeps its planner type and page count. Without a template, only relevant blocks are ever placed. It fails with `KeyError('description')` exactly when there is no template and one of the first 20 relevant blocks lacks a description, whatever the model's outcome (lines 405-415). |
| BlockComposer.MissingDescriptionRaises | kdp_builder/ai/block_composer.py:405-415 | A relevant block without `description` among the first 20 makes the model path raise before the model is asked, so even a failed call gets no fallback composition. |
| BlockComposer.TemplatePlannerPages | kdp_builder/ai/block_composer.py:236-288 | Template planner types get their template's pages, numbered from 1, whatever the model would say. |
| BlockComposer.ModelPlannerUsesRelevantBlocks | kdp_builder/ai/block_composer.py:290-309 | Other planner types only ever place relevant blocks, whenever they return a composition: no relevant blocks, model failure, an unparsable reply, or a filtered proposal. |
| BlockComposer.CriteriaFor | kdp_builder/ai/block_composer.py:324-354 | Every planner type's criteria include the header category. |
| BlockComposer.ByCategoriesMembers | kdp_builder/ai/block_composer.py:359-362 | A block comes from the category searches exactly when it is in the library with one of the categories. |
| BlockComposer.CandidatesMembers | kdp_builder/ai/block_composer.py:357-367 | A candidate is exactly a library block with a relevant category or, when there are tags, a shared tag. |
| BlockComposer.DedupById | kdp_builder/ai/block_composer.py:369-375 | De-duplication never lengthens the list. |
| BlockComposer.DedupKeepsOrder | kdp_builder/ai/block_composer.py:369-375 | Survivors appear in the order in which their ids first occur in the candidates. |
| BlockComposer.DedupUnique | kdp_builder/ai/block_composer.py:369-375 | De-duplication leaves no id twice. |
| BlockComposer.DedupKeepsIds | kdp_builder/ai/block_composer.py:369-375 | Every id of the input survives. |
| BlockComposer.DedupKeepsFirst | kdp_builder/ai/block_composer.py:369-375 | Each survivor is the first input block with its id. |
| BlockComposer.Rank | kdp_builder/ai/block_composer.py:378 | Ranked blocks are in non-increasing success rate. |
| BlockComposer.RankUnique | kdp_builder/ai/block_composer.py:369-378 | Ranked blocks carry distinct ids. |
| BlockComposer.RankKeepsCandidates | kdp_builder/ai/block_composer.py:369-378 | The ranking is a permutation of the de-duplicated candidates, which cover every candidate id. |
| BlockComposer.RankStable | kdp_builder/ai/block_composer.py:369-378 | Blocks with equal rate keep their order from the de-duplicated list, which is first-occurrence order (`DedupKeepsOrder`). |
| BlockComposer.RankCovers | kdp_builder/ai/block_composer.py:369-380 | The ranked blocks are candidates, and every candidate id is represented. |
| BlockComposer.RelevantBlocks | kdp_builder/ai/block_composer.py:311-380 | The relevant blocks carry distinct ids, come in non-increasing success rate, are all candidates of the planner type's criteria, and cover every candidate id. |
| BlockComposer.FilterComposition | kdp_builder/ai/block_composer.py:558-566 | Filtering keeps every page and its number. |
| BlockComposer.FilterCompositionKeepsOnlyKnown | kdp_builder/ai/block_composer.py:558-564 | After filtering, every placement names a provided block. |
| BlockComposer.FilterCompositionIsExact | kdp_builder/ai/block_composer.py:558-564 | A placement survives exactly when it was proposed on that page and names a provided block. |
| BlockComposer.ContentPlacements | kdp_builder/ai/block_composer.py:614-625 | No more content placements than content blocks. |
| BlockComposer.ContentPlacementsBounds | kdp_builder/ai/block_composer.py:614-625 | Every content placement starts at or above 100 pt and is cut to end no lower than 80 pt. It names the content blocks in order at the margin and content width. |
| BlockComposer.FallbackPages | kdp_builder/ai/block_composer.py:594-641 | There are `num_pages` fallback pages (none when not positive), page i built for number i+1. |
| BlockComposer.FallbackComposition | kdp_builder/ai/block_composer.py:572-646 | The fallback keeps the planner type and has `num_pages` pages numbered from 1. |
| BlockComposer.FallbackLayoutEnds | kdp_builder/ai/block_composer.py:601-636 | The header leads at the top position, the footer closes at y = 40, and at most three content blocks sit between. |
| BlockComposer.FallbackLayoutContent | kdp_builder/ai/block_composer.py:614-625 | The middle placements respect the 100 pt and 80 pt bounds and take the content blocks in order. |
| BlockComposer.FallbackPageShape | kdp_builder/ai/block_composer.py:594-641 | Each page: first header at 60 pt below the top edge, then up to three content blocks, then the first footer at y = 40. |
| BlockComposer.FallbackSplitsByCategory | kdp_builder/ai/block_composer.py:590-592 | Headers, contents and footers are split by category, and no header or footer is placed as content. |
| BlockComposer.FallbackPageUsesOnly | kdp_builder/ai/block_composer.py:594-641 | A fallback page places only the blocks it is handed. |
| BlockComposer.FallbackUsesGivenBlocks | kdp_builder/ai/block_composer.py:572-646 | The fallback places only blocks it was given. |
| LayoutGenerator.ShiftElement | kdp_builder/ai/layout_generator.py:147-153 | A shifted element always has an x. |
| LayoutGenerator.ApplyGutters | kdp_builder/ai/layout_generator.py:138-154 | Gutters keep every page. |
| LayoutGenerator.ApplyGuttersEffect | kdp_builder/ai/layout_generator.py:138-154 | On odd pages (missing number counts as 1) each x moves right by the gutter. On even pages it moves left, clamped at 0. Nothing else changes. |
| LayoutGenerator.EvenPagesStayOnPage | kdp_builder/ai/layout_generator.py:151-153 | Even-page shifts never go below 0, and move by exactly the gutter when there is room. |
| LayoutGenerator.ShiftRoundTrip | kdp_builder/ai/layout_generator.py:147-153 | An even shift undoes an odd shift when the gutter and x are non-negative. |
| LayoutGenerator.PageParity | kdp_builder/ai/layout_generator.py:144-145 | Missing and 1 are odd page numbers; 2 is even. |
| BlockRenderer.Scale | kdp_builder/renderer/block_renderer.py:111-112 | The scale stretches the nominal size to the target size, and is 1 for a non-positive nominal size. |
| BlockRenderer.TextDraw | kdp_builder/renderer/block_renderer.py:176-179 | Text is centred on its box exactly when the box has positive width, and otherwise starts at the box's left edge. |
| BlockRenderer.LineDraw | kdp_builder/renderer/block_renderer.py:203-208 | A line is horizontal across the width when the box is wider than tall, and vertical up the height otherwise. |
| BlockRenderer.CircleDraw | kdp_builder/renderer/block_renderer.py:266-268 | The circle is centred in its box and spans the box's width. |
| BlockRenderer.DrawElement | kdp_builder/renderer/block_renderer.py:114-135 | An element draws at most once. |
| BlockRenderer.DrawElements | kdp_builder/renderer/block_renderer.py:114-135 | A block draws at most one command per element. |
| BlockRenderer.DrawMapped | kdp_builder/renderer/block_renderer.py:117-135 | A mapped element draws at most once. |
| BlockRenderer.DrawElementIff | kdp_builder/renderer/block_renderer.py:126-155 | Exactly the five known element types draw, and text only when not empty or a pure placeholder. |
| BlockRenderer.DrawElementsConcat | kdp_builder/renderer/block_renderer.py:114-135 | Element order is kept in the drawing order. |
| BlockRenderer.UnknownElementsDrawNothing | kdp_builder/renderer/block_renderer.py:126-135 | Unknown element types draw nothing and do not disturb the rest. |
| BlockRenderer.LeadingTextIsDrawn | kdp_builder/renderer/block_renderer.py:150-155 | Text starting with a visible non-brace character is drawn, even when a placeholder follows. |
| BlockRenderer.FullElementFillsPlacement | kdp_builder/renderer/block_renderer.py:106-121 | An element filling its block fills the placement exactly. |
| BlockRenderer.MappedElementStaysInside | kdp_builder/renderer/block_renderer.py:106-121 | An element inside its block stays inside the placement it is drawn into. |
| BlockRenderer.NominalSizeOnlyTranslates | kdp_builder/renderer/block_renderer.py:106-121 | A block drawn at its own size is only moved. |
| BlockRenderer.MissingBlocksAreSkipped | kdp_builder/renderer/block_renderer.py:62-67 | A placement of a missing block draws nothing. |
| BlockRenderer.KnownBlocksAreDrawn | kdp_builder/renderer/block_renderer.py:62-76 | A known block is drawn at the placement (origin by default) at the placement's size (its own by default). |
| BlockRenderer.RenderPlacement | kdp_builder/renderer/block_renderer.py:62-76 | A placement without a block id, or naming a block not in the library, draws nothing. A known block draws at most one command per element. |
| BlockRenderer.RenderPage | kdp_builder/renderer/block_renderer.py:62-76 | Placements draw in order: the drawings of every leading run of placements form a prefix of the page's drawings. |
| BlockRenderer.BleedBox | kdp_builder/renderer/block_renderer.py:302-312 | The bleed box is clipped to the trim page. |
| BlockRenderer.FullPageBleedBoxIsMediaBox | kdp_builder/renderer/block_renderer.py:302-312 | For a media box equal to the trim page, the bleed box is the media box whatever the bleed. |
| BlockRenderer.BleedBoxContainsMedia | kdp_builder/renderer/block_renderer.py:302-312 | The bleed box contains the media box, and each side moves out by the bleed when the page leaves room. |
| BlockRenderer.RenderComposition | kdp_builder/renderer/block_renderer.py:28-84 | An unknown trim fails. Otherwise there is one page per composition page at 432 x 648, with one bleed box per page when requested. |
| BlockRenderer.RenderedBleedBoxesArePage | kdp_builder/renderer/block_renderer.py:290-317 | Every page of a 6x9 rendering gets the whole page as bleed box. |
| BlockRenderer.RenderedPagesFollowPlacements | kdp_builder/renderer/block_renderer.py:57-78 | Each page's drawings are those of its placements, in order. |
| AiService.Clamp | web/backend/services/ai_service.py:309-310 | The result is at least the lower bound. It is at most the upper bound unless the bounds cross. A value within bounds is kept. |
| AiService.ValidateAndFixLayout | web/backend/services/ai_service.py:266-315 | Fixing keeps every element. |
| AiService.FixedPositionsInBounds | web/backend/services/ai_service.py:309-310 | Positions end 36 pt inside the page (or at 36 when the page is too small), and in-bounds positions are kept. |
| AiService.FixedRectanglesAreTickable | web/backend/services/ai_service.py:302-306 | Rectangles end at least 15 pt in each direction. Sides under 15 become 18 and others are kept. |
| AiService.FixedTextWidths | web/backend/services/ai_service.py:291-299 | Text of up to 5 characters wider than 100 becomes 60 wide. Otherwise, text of up to 15 characters wider than 200 becomes 120 wide. All else keeps its width. |
| AiService.FixedFonts | web/backend/services/ai_service.py:287-288 | Only Helvetica-Bold changes, to Helvetica. Kind and text are untouched. |
| AiService.FixElement | web/backend/services/ai_service.py:284-310 | A fixed element keeps its kind, its text and whether it has properties, and always ends with a position at least 36 pt from the left and bottom edges. |
| AiService.FixElementIdempotent | web/backend/services/ai_service.py:285-312 | Fixing twice is fixing once. |
| AiService.StripAll | web/backend/services/ai_service.py:206-207 | Each line is stripped. |
| AiService.PickSuggestions | web/backend/services/ai_service.py:205-211 | At most three suggestions. |
| AiService.PickSuggestionsCorrect | web/backend/services/ai_service.py:205-211 | The picked lines are the first qualifying lines, up to three, in order. |
| AiService.Suggestions | web/backend/services/ai_service.py:198-215 | At most three suggestions. A failed call gives the single apology line. |
| AiService.SuggestionsAreListLines | web/backend/services/ai_service.py:205-211 | Each suggestion is a stripped, non-empty line starting with a digit, '-' or '•'. |
| Text.SplitJoin | web/backend/services/ai_service.py:206 | Splitting the reply at line breaks loses nothing but the breaks: joining the pieces with the separator gives the reply back. |
| AiVision.MapYoloClass | web/backend/services/ai_vision.py:47-56 | Table words decide first, then text words, then the checkbox words other than "cell phone", which "cell" shadows; anything else is a shape. |
| AiVision.CellPhoneMentionsCell | web/backend/services/ai_vision.py:49-53 | A name containing "cell phone" contains the table word "cell". |
| AiVision.CheckboxWordsSplit | web/backend/services/ai_vision.py:53 | The checkbox words are the live ones plus "cell phone". |
| AiVision.MapIgnoresCase | web/backend/services/ai_vision.py:48 | Names with the same lower-case form map alike. |
| AiVision.MapOfLowered | web/backend/services/ai_vision.py:48 | Lower-casing the name first changes nothing. |
| AiVision.TableWordDecides | web/backend/services/ai_vision.py:49-50 | A table word anywhere decides. |
| AiVision.CellPhoneListedAsCheckbox | web/backend/services/ai_vision.py:32-33 | The class table lists "cell phone" as a checkbox. |
| AiVision.CellPhoneIsTable | web/backend/services/ai_vision.py:32-50 | Counterexample: "cell phone" maps to a table, not to the checkbox the class table lists. |
| BlockExtractor.Assign | web/backend/services/block_extractor.py:28-35 | One clustering step keeps the clusters or adds exactly one. |
| BlockExtractor.FirstNear | web/backend/services/block_extractor.py:28-33 | The index found is the first cluster whose mean y is within the tolerance, or -1 when none is. |
| BlockExtractor.AssignJoinsFirstNear | web/backend/services/block_extractor.py:28-35 | An item joins the first near cluster, or opens a new one at the end. |
| BlockExtractor.AssignKeepsItems | web/backend/services/block_extractor.py:28-35 | A step neither loses nor duplicates an item. |
| BlockExtractor.AssignKeepsNonEmpty | web/backend/services/block_extractor.py:28-35 | A step leaves no cluster empty. |
| BlockExtractor.GroupByY | web/backend/services/block_extractor.py:21-36 | No items, no clusters. |
| BlockExtractor.ClusterPartitions | web/backend/services/block_extractor.py:27-36 | The scan's clusters are non-empty and together are a permutation of the items. |
| BlockExtractor.GroupByYPartitions | web/backend/services/block_extractor.py:21-36 | The clusters are non-empty and together are a permutation of the items. |
| BlockExtractor.MaxByWidth | web/backend/services/block_extractor.py:45 | The header candidate is one of the texts, and no text beats it by width and then by height. |
| BlockExtractor.FindHeader | web/backend/services/block_extractor.py:39-45 | There is no header exactly when no text lies in the top quarter. A header found is one of the texts and lies in the top quarter. |
| BlockExtractor.FindHeaderCorrect | web/backend/services/block_extractor.py:39-45 | There is no header exactly when no text is in the top quarter. Otherwise the header is the widest top-quarter text, ties going to the higher one. |
| BlockExtractor.BestLabelFrom | web/backend/services/block_extractor.py:59-70 | The label scan keeps the fitting text with the smallest gap, provided the gap is at most 80. |
| BlockExtractor.BestLabelCorrect | web/backend/services/block_extractor.py:59-74 | A label found fits its box and has the smallest gap, at most 80. Among equally close texts the first wins, because every fitting text before it is strictly further. None means no fitting text is within 80. |
| BlockExtractor.BestLabelFromFirst | web/backend/services/block_extractor.py:62-70 | When the scan replaces its starting choice, it ends on a text whose every fitting predecessor is strictly further away, below the starting gap. |
| BlockExtractor.Labels | web/backend/services/block_extractor.py:59-74 | At most one label per box. |
| BlockExtractor.Leftmost | web/backend/services/block_extractor.py:56-57 | A row keeps at most seven boxes. |
| BlockExtractor.LeftmostCorrect | web/backend/services/block_extractor.py:56-57 | The seven leftmost boxes, left to right, taken from the row. No box left behind lies further left. |
| BlockExtractor.RowsFrom | web/backend/services/block_extractor.py:53-80 | Every row found has seven boxes and at most seven labels, on the given page. |
| BlockExtractor.RowsFromFilter | web/backend/services/block_extractor.py:50-80 | The rows are those of the clusters with at least seven boxes, one each, in cluster order, each built from its cluster's seven leftmost boxes and their labels. |
| BlockExtractor.RowsFromCorrect | web/backend/services/block_extractor.py:50-80 | Row k comes from a cluster at increasing position k. A cluster is used exactly when it has at least seven boxes, so the row count is the number of such clusters. |
| BlockExtractor.RowsFromMembers | web/backend/services/block_extractor.py:50-80 | A row is produced exactly when some cluster of at least seven boxes yields it. |
| BlockExtractor.FindWeeklyRows | web/backend/services/block_extractor.py:46-81 | Day-sized boxes are clustered by y with tolerance 25. There is one row per cluster of at least seven boxes, in cluster order, made of that cluster's seven leftmost boxes and their labels. Each row has seven boxes and at most seven labels, on the given page. |
| BlockExtractor.FindWeeklyRowsCorrect | web/backend/services/block_extractor.py:46-81 | The row count is the number of clusters of at least seven day boxes, and a row is returned exactly when such a cluster yields it. |
| BlockExtractor.WeeklyRowsUseDayBoxes | web/backend/services/block_extractor.py:48-81 | Weekly rows use only day-sized rectangles of the input. |
| BlockExtractor.FirstLabel | web/backend/services/block_extractor.py:87-93 | The notes label is the first qualifying text, and none means no text qualifies. |
| BlockExtractor.NotesFor | web/backend/services/block_extractor.py:84-97 | One notes block per big rectangle, in order, with its first qualifying label. |
| BlockExtractor.FindNotes | web/backend/services/block_extractor.py:84-97 | Notes blocks are on the given page. |
| BlockExtractor.FindNotesCorrect | web/backend/services/block_extractor.py:84-97 | There is one notes block per rectangle of at least 200 x 100, labelled by its first qualifying text. |
| BlockExtractor.MapOutline | web/backend/services/block_extractor.py:110-135 | Every rectangle becomes its outline. |
| BlockExtractor.MapLabels | web/backend/services/block_extractor.py:110-121 | Every label gets its font defaults with a 14 pt size. |
| BlockExtractor.FontDefaultsFillOnly | web/backend/services/block_extractor.py:103-121 | Font defaults fill missing family, size and colour only. Nothing else changes, and filling twice is filling once. |
| BlockExtractor.BlockElementsShape | web/backend/services/block_extractor.py:100-136 | A header flattens to its text with a 36 pt default. A notes box flattens to its outline, then its label when present. |
| BlockExtractor.WeeklyRowElements | web/backend/services/block_extractor.py:110-121 | A weekly row flattens to its outlined boxes, then its labels with a 14 pt default. |
| BlockExtractor.FlattenBlocks | web/backend/services/block_extractor.py:100-136 | An element is in the flattened list exactly when it is an element of one of the blocks. |
| BlockExtractor.FlattenBlocksConcat | web/backend/services/block_extractor.py:100-136 | Flattening works block by block, in order. |
| BlockExtractor.PageBlocks | web/backend/services/block_extractor.py:147-167 | A page's blocks are tagged with its index, 0 when missing. |
| BlockExtractor.Assemble | web/backend/services/block_extractor.py:152-167 | The header comes first when present, then rows, then notes, all on the page. |
| BlockExtractor.ExtractBlocks | web/backend/services/block_extractor.py:139-178 | Extraction fails exactly when there are no pages. |
| BlockExtractor.ExtractBlocksPageByPage | web/backend/services/block_extractor.py:147-170 | Blocks and elements accumulate page by page, in order. |
| Thumbnail.Peak | web/backend/services/thumbnail_generator.py:20-25 | The running maximum is non-negative and bounds every value. |
| Thumbnail.PeakAttained | web/backend/services/thumbnail_generator.py:20-25 | The running maximum is 0 or one of the values. |
| Thumbnail.EstimatePageSize | web/backend/services/thumbnail_generator.py:16-63 | The estimate is at least 432 x 648, and exactly that with nothing to measure. |
| Thumbnail.MeasuredBoxIsCovered | web/backend/services/thumbnail_generator.py:22-63 | Every measured box ends inside the estimate. |
| Thumbnail.CountedElementsAreCovered | web/backend/services/thumbnail_generator.py:27-37 | Every rectangle, text or line element ends inside the estimate. |
| Thumbnail.BlockBoxesAreCovered | web/backend/services/thumbnail_generator.py:39-61 | Every box a block contributes ends inside the estimate. |
| Thumbnail.RecognisedBlocksAreCovered | web/backend/services/thumbnail_generator.py:39-61 | Each block type's own geometry is covered. A labeled line counts with height 0. Other types count only through their rect. |
| Thumbnail.EstimateIsAttained | web/backend/services/thumbnail_generator.py:63 | Each side of the estimate is the 6" x 9" floor or the edge of a measured box. |
| Thumbnail.IgnoredElementsDoNotCount | web/backend/services/thumbnail_generator.py:34-37 | Elements of other types change nothing. |
| Thumbnail.OtherBlocksCountOnlyTheirRect | web/backend/services/thumbnail_generator.py:58-61 | An unrecognised block counts only through its rect, and not at all without one. |
| ExportApi.ExportFilename | web/backend/api/export_api.py:136 | The file name is the name with spaces replaced by '_', then '_', the id ("None" when missing) and ".pdf". |
| ExportApi.FilenameNameRoundTrip | web/backend/api/export_api.py:136 | A name without underscores can be read back from the file name. |
| ExportApi.Offset | web/backend/api/export_api.py:140-149 | The offset is the bleed when bleed is included, and 0 otherwise. |
| ExportApi.PageExtent | web/backend/api/export_api.py:140-149 | The page is the design extent plus the offset on both sides. |
| ExportApi.DrawingOrder | web/backend/api/export_api.py:157 | The drawing order is a permutation sorted by z index. |
| ExportApi.DrawingOrderIsStable | web/backend/api/export_api.py:157 | The order is non-decreasing in z, and equal z indices keep page order. |
| ExportApi.Shift | web/backend/api/export_api.py:162-164 | A shift moves x and y by the offset and changes nothing else. |
| ExportApi.ShiftAll | web/backend/api/export_api.py:160-166 | Each element is shifted by the offset. |
| ExportApi.ExportPage | web/backend/api/export_api.py:155-170 | A page keeps its element count, and a break follows exactly when its number is below the page count. |
| ExportApi.ExportToPdf | web/backend/api/export_api.py:132-173 | The export has its file name, the offset on both axes, and the page grown by twice the offset. It has one page per design page. |
| ExportApi.ExportedElementsAreShiftedOriginals | web/backend/api/export_api.py:155-166 | Shifting back recovers each page's drawing order, a permutation of its elements, with sizes unchanged. |
| ExportApi.NoBleedKeepsDesign | web/backend/api/export_api.py:145-149 | Without bleed, the design size is kept and nothing moves. |
| ExportApi.PageBreaksBetweenNumberedPages | web/backend/api/export_api.py:168-170 | With pages numbered 1 to n, a break follows every page but the last. |
| ExportApi.CircleGeometry | web/backend/api/export_api.py:98-100 | The circle is centred in its box, with half the shorter side as radius. |
| ExportApi.CircleFitsBox | web/backend/api/export_api.py:98-100 | The circle stays within a box of non-negative size. |

## Left out

- `kdp_validator.py` has no content-stream interpretation, no print-DPI estimate and no bleed detection. It counts image XObjects and flags those under 900 px (lines 193-215), and it compares each page with the trim size directly (lines 107-116). The model adds nothing beyond that.
- PDF reading and writing (pypdf, reportlab) is not modelled. The validators receive the document as a datatype of page boxes, rotation, annotation flags and resource dictionaries. The renderers produce drawing commands.
- Canvas styling is not modelled: fonts, colours, line weights and fills in `block_renderer.py`, `export_api.py:_render_element` and `thumbnail_generator.render_thumbnail`. It does not affect geometry.
- `generate_cover` (`cover_renderer.py:46-103`) only draws, so it is not modelled.
- Language-model and network calls are parameters: the composer's outcome, the suggestion reply and the object detector's class names. This covers `_build_composition_prompt`, `generate_layout` and `ollama` calls.
- JSON text handling is not modelled: the regex and fence clean-up in `_parse_composition` (`block_composer.py:540-556`) and `_extract_json` in `ai_service.py`. The model receives the parsed composition, or "unparsable".
- The statistics update after an AI composition (`block_composer.py:466-471`) is not modelled. It is `update_block_stats` with success, which is modelled on its own.
- Exceptions other than a JSON decode error that reach `_fallback_composition` are collapsed into "call failed".
- Storage is not modelled: `load_all_blocks`, `_save_block`, `export_library`, reading the import file, and the extractor's `_load_pages` and file writes. The library is an in-memory sequence in insertion order.
- `get_all_blocks` and `get_blocks_by_category` are not separate members. The first is the library itself. The second is `SearchBlocks` with only a category, covered by `BlockLibrary.SearchIsExact`.
- `BlockComposer.get_library_stats` only delegates to the library's statistics, so it has no model of its own.
- `uuid4()` and `utcnow()` become parameters of `CreateBlock` and `UpdateBlockStats`.
- Floats are reals, so the model has no rounding.
- String operations (`lower`, `strip`, `isdigit`, `isupper`) know only the ASCII letters, digits and whitespace. Whitespace is what Python's `isspace` accepts in ASCII, including the separators 0x1C to 0x1F. Non-ASCII whitespace, such as U+00A0, and non-ASCII letters and digits are treated as ordinary characters.
- Exceptions raised for missing keys are not modelled, e.g. a block without `dimensions` in the renderer, or a malformed page dictionary. The model's records carry every key the code indexes directly except `description`, which the schema does not require. Its one direct index, in the composer's model catalogue (`block_composer.py:412`), is modelled as `ComposePlanner`'s failure.
- Blocks without a `category` or `complexity` key cannot be represented, so the statistics' "unknown" bucket has no model. The schema requires both keys.
- The "could not determine encryption status" and "could not read PDF version header" warnings are not modelled (`cover_validator.py:50-51`, `kdp_validator.py:55-56,78-79`). The same goes for the silently ignored exceptions in the page loop. Encryption and version are plain inputs.
- The version is an optional (major, minor) pair, so the string form of `pdf_header.version` is not modelled.
- `_flatten_blocks_to_elements` shares the text's `properties` dict when filling font defaults. The model builds a fresh record instead. The parser always sets `fontSize`, `fontFamily` and `color` on texts, so the defaults and the sharing never take effect on its output.
- `render_composition_to_pdf` reads `page_number` without using it. The model omits it.
- The mapping dict in `_map_yolo_class_to_our` is never consulted. It is kept as a constant to state the "cell phone" discrepancy.
- `export_to_pdf`'s HTTP error wrapping and `download_pdf` are not modelled.
- The element list passed to `_validate_and_fix_layout` is mutated in place. The model returns fixed copies.
- BlockComposer.ModelPlannerUsesRelevantBlocks: speaks only of a returned composition. The `KeyError('description')` path returns none, and `ComposePlanner` states exactly when it happens.
- KdpValidator.SubsetNameIff, SlashCountsTowardsSubsetPrefix and LowerCasePrefixIsNotSubset only concern prefixes without '+'. A name's part before its first '+' never contains one.

=== FILE: ai_service.dfy ===
/** Clean-up of model output in the web back end: the fix-ups applied to
    generated layout elements and the parsing of improvement suggestions. */
module AiService {
  import opened Wrappers
  import Text
  import Seqs

  /** The `properties` object of an element: only the keys the fix-ups
      read. */
  datatype Props = Props(fontFamily: Option<string>, text: Option<string>)

  datatype AiElement = AiElement(kind: Option<string>, x: Option<real>, y: Option<real>,
                                 width: Option<real>, height: Option<real>, properties: Option<Props>)

  const PageMargin: real := 36.0

  /** `max(lo, min(v, hi))` */
  function Clamp(v: real, lo: real, hi: real): (r: real)
    ensures r >= lo
    ensures r <= hi || r == lo
    ensures lo <= v <= hi ==> r == v
  {
    var m := if v <= hi then v else hi;
    if lo >= m then lo else m
  }

  /** Helvetica-Bold is replaced by Helvetica; elements without
      `properties` are left alone. */
  function FixFont(p: Option<Props>): Option<Props> {
    if p.Some? && p.value.fontFamily == Some("Helvetica-Bold") then Some(p.value.(fontFamily := Some("Helvetica"))) else p
  }

  /** The text of an element, `""` when absent. */
  function TextOf(e: AiElement): string {
    if e.properties.Some? then e.properties.value.text.GetOr("") else ""
  }

  /** Short labels get a narrower box: a missing width counts as 300. */
  function FixTextWidth(e: AiElement): Option<real> {
    var n := |TextOf(e)|;
    var w := e.width.GetOr(300.0);
    if n <= 5 && w > 100.0 then Some(60.0)
    else if n <= 15 && w > 200.0 then Some(120.0)
    else e.width
  }

  /** Rectangles narrower or lower than 15 pt (missing counts as 0) are
      grown to 18 pt so they can be ticked. */
  function MinSide(v: Option<real>): Option<real> {
    if v.GetOr(0.0) < 15.0 then Some(18.0) else v
  }

  /** One step of `_validate_and_fix_layout`: the element keeps its kind and
      text and ends with a position no closer than 36 pt to the left and
      bottom edges. */
  function FixElement(e: AiElement, pageWidth: real, pageHeight: real): (r: AiElement)
    ensures r.kind == e.kind && TextOf(r) == TextOf(e)
    ensures r.x.Some? && r.x.value >= PageMargin && r.y.Some? && r.y.value >= PageMargin
    ensures r.properties.Some? == e.properties.Some?
  {
    var e1 := e.(properties := FixFont(e.properties));
    var e2 := if e1.kind == Some("text") then e1.(width := FixTextWidth(e1)) else e1;
    var e3 := if e2.kind == Some("rectangle") then e2.(width := MinSide(e2.width), height := MinSide(e2.height)) else e2;
    e3.(x := Some(Clamp(e3.x.GetOr(0.0), PageMargin, pageWidth - PageMargin)),
        y := Some(Clamp(e3.y.GetOr(0.0), PageMargin, pageHeight - PageMargin)))
  }

  /** `_validate_and_fix_layout` */
  function ValidateAndFixLayout(elements: seq<AiElement>, pageWidth: real, pageHeight: real): (r: seq<AiElement>)
    ensures |r| == |elements|
  {
    seq(|elements|, i requires 0 <= i < |elements| => FixElement(elements[i], pageWidth, pageHeight))
  }

  /** Positions end inside the page less its 36 pt margins (or at 36 when
      the page is narrower than two margins), and positions already inside
      are kept. */
  lemma FixedPositionsInBounds(e: AiElement, pageWidth: real, pageHeight: real)
    ensures var r := FixElement(e, pageWidth, pageHeight);
            && r.x.Some? && r.y.Some?
            && 36.0 <= r.x.value && (r.x.value <= pageWidth - 36.0 || r.x.value == 36.0)
            && 36.0 <= r.y.value && (r.y.value <= pageHeight - 36.0 || r.y.value == 36.0)
            && (e.x.Some? && 36.0 <= e.x.value <= pageWidth - 36.0 ==> r.x == e.x)
            && (e.y.Some? && 36.0 <= e.y.value <= pageHeight - 36.0 ==> r.y == e.y)
  {
  }

  /** Rectangles end at least 15 pt in each direction, and a side already
      that big is kept. */
  lemma FixedRectanglesAreTickable(e: AiElement, pageWidth: real, pageHeight: real)
    requires e.kind == Some("rectangle")
    ensures var r := FixElement(e, pageWidth, pageHeight);
            && r.width.Some? && r.width.value >= 15.0 && r.height.Some? && r.height.value >= 15.0
            && (e.width.Some? && e.width.value >= 15.0 ==> r.width == e.width)
            && (e.width.GetOr(0.0) < 15.0 ==> r.width == Some(18.0))
            && (e.height.GetOr(0.0) < 15.0 ==> r.height == Some(18.0))
  {
  }

  /** The width rules for text: at most 5 characters and wider than 100
      gives 60; otherwise at most 15 characters and wider than 200 gives
      120; anything else keeps its width. */
  lemma FixedTextWidths(e: AiElement, pageWidth: real, pageHeight: real)
    requires e.kind == Some("text")
    ensures var r := FixElement(e, pageWidth, pageHeight);
            var n := |TextOf(e)|;
            var w := e.width.GetOr(300.0);
            && (n <= 5 && w > 100.0 ==> r.width == Some(60.0))
            && (!(n <= 5 && w > 100.0) && n <= 15 && w > 200.0 ==> r.width == Some(120.0))
            && (!(n <= 5 && w > 100.0) && !(n <= 15 && w > 200.0) ==> r.width == e.width)
  {
    assert TextOf(e.(properties := FixFont(e.properties))) == TextOf(e);
  }

  /** Only the font name Helvetica-Bold changes, to Helvetica; the kind,
      the text and the other properties are untouched. */
  lemma FixedFonts(e: AiElement, pageWidth: real, pageHeight: real)
    ensures var r := FixElement(e, pageWidth, pageHeight);
            && r.kind == e.kind
            && r.properties.Some? == e.properties.Some?
            && (e.properties.Some? ==>
                  && r.properties.value.text == e.properties.value.text
                  && r.properties.value.fontFamily == (if e.properties.value.fontFamily == Some("Helvetica-Bold")
                                                       then Some("Helvetica") else e.properties.value.fontFamily))
  {
  }

  /** Fixing twice is fixing once: no rule fires on its own output. */
  lemma FixElementIdempotent(e: AiElement, pageWidth: real, pageHeight: real)
    ensures FixElement(FixElement(e, pageWidth, pageHeight), pageWidth, pageHeight) == FixElement(e, pageWidth, pageHeight)
  {
    var r := FixElement(e, pageWidth, pageHeight);
    assert TextOf(r) == TextOf(e);
  }

  // ---- suggest_improvements ----

  /** A stripped line counts when it starts with a digit, '-' or '•'. */
  predicate IsSuggestion(line: string) {
    |line| > 0 && (Text.IsDigit(line[0]) || line[0] == '-' || line[0] == '•')
  }

  function StripAll(lines: seq<string>): (r: seq<string>)
    ensures |r| == |lines|
    ensures forall i :: 0 <= i < |r| ==> r[i] == Text.Strip(lines[i])
  {
    if |lines| == 0 then []
    else
      var rest := StripAll(lines[1..]);
      assert forall i :: 1 <= i < |lines| ==> lines[i] == lines[1..][i - 1];
      [Text.Strip(lines[0])] + rest
  }

  /** A line with no whitespace at either end. */
  predicate Stripped(line: string) {
    |line| > 0 ==> !Text.IsSpace(line[0]) && !Text.IsSpace(line[|line| - 1])
  }

  const Unavailable: string := "Unable to generate suggestions at this time"

  /** The first three suggestion lines among `lines`. */
  function PickSuggestions(lines: seq<string>): (r: seq<string>)
    ensures |r| <= 3
  {
    Seqs.SliceTo(Seqs.Filter(lines, IsSuggestion), 3)
  }

  /** The suggestion list built from the model's reply; `None` stands for a
      failed call, which yields the single apology line. */
  function Suggestions(reply: Option<string>): (r: seq<string>)
    ensures |r| <= 3
    ensures reply.None? ==> r == [Unavailable]
  {
    if reply.None? then [Unavailable]
    else PickSuggestions(StripAll(Text.Split(reply.value, '\n')))
  }

  /** The picked lines are the first (up to three) lines that qualify, in
      order. */
  lemma PickSuggestionsCorrect(lines: seq<string>)
    ensures var r := PickSuggestions(lines);
            var all := Seqs.Filter(lines, IsSuggestion);
            && r <= all
            && |r| == (if |all| < 3 then |all| else 3)
            && (forall i :: 0 <= i < |r| ==> IsSuggestion(r[i]))
            && (forall s :: s in r ==> s in lines)
  {
    var all := Seqs.Filter(lines, IsSuggestion);
    var r := PickSuggestions(lines);
    forall s | s in r ensures s in lines {
      Seqs.FilterMembers(lines, IsSuggestion, s);
    }
  }

  /** Each suggestion is a stripped, non-empty line of the reply that
      starts with a digit, '-' or '•'. */
  lemma SuggestionsAreListLines(reply: string)
    ensures forall s :: s in Suggestions(Some(reply)) ==> IsSuggestion(s) && Stripped(s)
  {
    var lines := StripAll(Text.Split(reply, '\n'));
    var r := PickSuggestions(lines);
    assert Suggestions(Some(reply)) == r;
    PickSuggestionsCorrect(lines);
    forall s | s in r
      ensures IsSuggestion(s) && Stripped(s)
    {
      StrippedLines(Text.Split(reply, '\n'), s);
    }
  }

  lemma StrippedLines(raw: seq<string>, s: string)
    requires s in StripAll(raw)
    ensures Stripped(s)
  {
    var i :| 0 <= i < |raw| && StripAll(raw)[i] == s;
    assert s == Text.Strip(raw[i]);
  }
}

=== FILE: ai_vision.dfy ===
/** The keyword mapping from object-detector class names to the handful of
    element kinds the extractor understands. */
module AiVision {
  import Text

  datatype Kind = Table | TextRegion | Checkbox | Shape {
    function Name(): string {
      match this
      case Table => "table"
      case TextRegion => "text_region"
      case Checkbox => "checkbox"
      case Shape => "shape"
    }
  }

  /** `any(w in s for w in words)` */
  predicate MentionsAny(s: string, words: seq<string>) {
    exists k :: 0 <= k < |words| && Text.Contains(s, words[k])
  }

  const TableWords: seq<string> := ["table", "cell"]
  const TextWords: seq<string> := ["book", "laptop", "tv"]
  /** The keywords checked for a checkbox, in the order written. */
  const CheckboxWords: seq<string> := ["remote", "mouse", "keyboard", "cell phone", "traffic light"]
  /** The same list without "cell phone", which can never decide. */
  const LiveCheckboxWords: seq<string> := ["remote", "mouse", "keyboard", "traffic light"]

  /** The class table written next to the heuristic; the heuristic never
      reads it. */
  const YoloMapping: map<string, string> := map[
    "cell phone" := "checkbox",
    "remote" := "checkbox",
    "mouse" := "checkbox",
    "keyboard" := "checkbox",
    "traffic light" := "checkbox",
    "book" := "text_region",
    "laptop" := "text_region",
    "tv" := "text_region",
    "dining table" := "table",
    "table" := "table",
    "chair" := "shape",
    "couch" := "shape",
    "bed" := "shape"
  ]

  /** A name containing "cell phone" already contains "cell", a table
      word. */
  lemma CellPhoneMentionsCell(s: string)
    ensures Text.Contains(s, "cell phone") ==> MentionsAny(s, TableWords)
  {
    if Text.Contains(s, "cell phone") {
      var i :| 0 <= i <= |s| - 10 && Text.OccursAt(s, "cell phone", i);
      assert s[i..i + 4] == s[i..i + 10][..4];
      assert Text.OccursAt(s, TableWords[1], i);
    }
  }

  /** The checkbox keywords are the live ones plus "cell phone". */
  lemma CheckboxWordsSplit(s: string)
    ensures MentionsAny(s, CheckboxWords)
        <==> MentionsAny(s, LiveCheckboxWords) || Text.Contains(s, "cell phone")
  {
    if MentionsAny(s, CheckboxWords) {
      var k :| 0 <= k < |CheckboxWords| && Text.Contains(s, CheckboxWords[k]);
      if k != 3 {
        assert Text.Contains(s, LiveCheckboxWords[if k < 3 then k else 3]);
      }
    }
    if MentionsAny(s, LiveCheckboxWords) {
      var k :| 0 <= k < |LiveCheckboxWords| && Text.Contains(s, LiveCheckboxWords[k]);
      assert Text.Contains(s, CheckboxWords[if k < 3 then k else 4]);
    }
    if Text.Contains(s, "cell phone") {
      assert Text.Contains(s, CheckboxWords[3]);
    }
  }

  /** `_map_yolo_class_to_our`: the first keyword group found in the
      lower-cased name decides, table words first; the "cell phone"
      checkbox keyword is shadowed by "cell" and never decides. */
  function MapYoloClass(clsName: string): (r: Kind)
    ensures var s := Text.Lower(clsName);
      && (r == Table <==> MentionsAny(s, TableWords))
      && (r == TextRegion <==> !MentionsAny(s, TableWords) && MentionsAny(s, TextWords))
      && (r == Checkbox <==> !MentionsAny(s, TableWords) && !MentionsAny(s, TextWords)
                             && MentionsAny(s, LiveCheckboxWords))
      && (r == Shape <==> !MentionsAny(s, TableWords) && !MentionsAny(s, TextWords)
                          && !MentionsAny(s, LiveCheckboxWords))
  {
    var lowered := Text.Lower(clsName);
    CellPhoneMentionsCell(lowered);
    CheckboxWordsSplit(lowered);
    if MentionsAny(lowered, TableWords) then Table
    else if MentionsAny(lowered, TextWords) then TextRegion
    else if MentionsAny(lowered, CheckboxWords) then Checkbox
    else Shape
  }

  /** Matching ignores case: names with the same lower-case form map alike. */
  lemma MapIgnoresCase(a: string, b: string)
    requires Text.Lower(a) == Text.Lower(b)
    ensures MapYoloClass(a) == MapYoloClass(b)
  {
  }

  /** Lower-casing the name first changes nothing. */
  lemma MapOfLowered(a: string)
    ensures MapYoloClass(Text.Lower(a)) == MapYoloClass(a)
  {
    Text.LowerIdempotent(a);
  }

  /** A table word anywhere in the name decides, whatever else it holds. */
  lemma TableWordDecides(clsName: string)
    requires MentionsAny(Text.Lower(clsName), TableWords)
    ensures MapYoloClass(clsName) == Table
  {
  }

  lemma CellPhoneIsLowerCase()
    ensures Text.Lower("cell phone") == "cell phone"
  {
    Text.LowerOfLowerCase("cell phone");
  }

  lemma CellPhoneListedAsCheckbox()
    ensures YoloMapping["cell phone"] == "checkbox"
  {
  }

  /** "cell phone" maps to a table, not to the checkbox the class table
      lists for it. */
  lemma CellPhoneIsTable()
    ensures MapYoloClass("cell phone") == Table
  {
    CellPhoneIsLowerCase();
    CellPhoneMentionsCell("cell phone");
    assert Text.OccursAt("cell phone", "cell phone", 0);
    TableWordDecides("cell phone");
  }
}

=== FILE: block_composer.dfy ===
/** Page composition from library blocks: the fixed templates for daily,
    habit-tracker and meal planners, the choice of relevant blocks for the
    other planner types, the clean-up of a composition proposed by the
    language model, and the fallback layout used when the model fails.
    Placements use PDF coordinates: `y` is the bottom edge. */
module BlockComposer {
  import opened Wrappers
  import opened BlockSchema
  import opened BlockLibrary
  import Text
  import Seqs
  import StableSort

  /** One block put on a page at `(x, y)` with the given size. */
  datatype Placement = Placement(blockId: string, x: real, y: real, width: real, height: real)

  datatype PagePlan = PagePlan(pageNumber: int, blocks: seq<Placement>)

  datatype Composition = Composition(plannerType: Option<string>, pages: seq<PagePlan>)

  const Margin: real := 36.0

  /** Python's `page_num % 2 == 1`; Dafny's `%` agrees with Python's for a
      positive modulus. */
  predicate IsOdd(pageNum: int) { pageNum % 2 == 1 }

  /** The gutter goes on the left of odd pages and on the right of even ones. */
  function LeftMargin(gutter: real, pageNum: int): real {
    if IsOdd(pageNum) then gutter + Margin else Margin
  }

  function RightMargin(gutter: real, pageNum: int): real {
    if IsOdd(pageNum) then Margin else gutter + Margin
  }

  lemma MarginsByParity(gutter: real, pageNum: int)
    ensures IsOdd(pageNum) ==> LeftMargin(gutter, pageNum) == gutter + 36.0 && RightMargin(gutter, pageNum) == 36.0
    ensures !IsOdd(pageNum) ==> LeftMargin(gutter, pageNum) == 36.0 && RightMargin(gutter, pageNum) == gutter + 36.0
    ensures LeftMargin(gutter, pageNum) + RightMargin(gutter, pageNum) == gutter + 72.0
    ensures IsOdd(pageNum) != IsOdd(pageNum + 1)
  {
  }

  /** The first search hit, as `blocks[0]` after `if blocks:`. */
  function First(bs: seq<Block>): (r: Option<Block>)
    ensures r.Some? <==> |bs| > 0
    ensures r.Some? ==> r.value == bs[0]
  {
    if |bs| > 0 then Some(bs[0]) else None
  }

  /** The first library block (in library order) tagged with any of `tags`. */
  function Pick(lib: Library, tags: seq<string>): Option<Block> {
    First(SearchBlocks(lib, tags := Some(tags)))
  }

  /** A picked block comes from the library and carries one of the tags,
      and no library block before it carries any of them. */
  lemma PickIsTagged(lib: Library, tags: seq<string>)
    requires |tags| > 0
    ensures Pick(lib, tags).Some? ==> Pick(lib, tags).value in lib && TagsOverlap(tags, Pick(lib, tags).value.tags.GetOr([]))
    ensures Pick(lib, tags).Some? ==>
              exists i :: 0 <= i < |lib| && lib[i] == Pick(lib, tags).value
                          && forall j :: 0 <= j < i ==> !TagsOverlap(tags, lib[j].tags.GetOr([]))
    ensures Pick(lib, tags).None? <==> forall b :: b in lib ==> !TagsOverlap(tags, b.tags.GetOr([]))
  {
    var hits := SearchBlocks(lib, tags := Some(tags));
    if hits != [] {
      SearchIsExact(lib, None, Some(tags), None, None, hits[0]);
      var ix := Seqs.Positions(lib, MatchesAll(None, Some(tags), None, None));
      forall j | 0 <= j < ix[0] ensures !TagsOverlap(tags, lib[j].tags.GetOr([])) {
        assert j !in ix by {
          forall k | 0 <= k < |ix| ensures ix[k] != j {
            assert k == 0 || ix[0] < ix[k];
          }
        }
      }
      assert lib[ix[0]] == hits[0];
    } else {
      forall b | b in lib ensures !TagsOverlap(tags, b.tags.GetOr([])) {
        SearchIsExact(lib, None, Some(tags), None, None, b);
      }
    }
  }

  /** A placement for `b` when it was found, nothing otherwise. */
  function PlaceIf(b: Option<Block>, x: real, y: real, width: real, height: real): (r: seq<Placement>)
    ensures |r| == if b.Some? then 1 else 0
    ensures b.Some? ==> r[0].blockId == b.value.id && r[0].y == y
  {
    if b.Some? then [Placement(b.value.id, x, y, width, height)] else []
  }

  // ---- daily planner template ----

  const DailyHeaderTags: seq<string> := ["daily", "header", "professional"]
  const DailyTimeTags: seq<string> := ["schedule", "hourly", "professional"]
  const DailyNotesTags: seq<string> := ["notes", "professional"]

  /** The running `current_y` after the header and the time block. */
  function DailyNotesTop(pageHeight: real, hasHeader: bool, hasTime: bool): real {
    pageHeight - Margin - (if hasHeader then 70.0 else 0.0) - (if hasTime then 445.0 else 0.0)
  }

  /** The geometry of `_create_daily_planner_template` once the three
      library searches are done: a 50 pt header, a 425 pt time block and a
      120 pt notes block stacked from the top margin down, each spanning the
      content width. */
  function DailyLayout(header: Option<Block>, time: Option<Block>, notes: Option<Block>,
                       pageWidth: real, pageHeight: real, gutter: real, pageNum: int): (r: PagePlan)
    ensures r.pageNumber == pageNum
    ensures |r.blocks| <= 3
  {
    var left := LeftMargin(gutter, pageNum);
    var width := pageWidth - left - RightMargin(gutter, pageNum);
    var top := pageHeight - Margin;
    var y1 := top - (if header.Some? then 70.0 else 0.0);
    var y2 := DailyNotesTop(pageHeight, header.Some?, time.Some?);
    PagePlan(pageNum,
      PlaceIf(header, left, top - 50.0, width, 50.0)
      + PlaceIf(time, left, y1 - 425.0, width, 425.0)
      + PlaceIf(if y2 - 120.0 > Margin then notes else None, left, y2 - 120.0, width, 120.0))
  }

  /** `_create_daily_planner_template` */
  function DailyTemplate(lib: Library, pageWidth: real, pageHeight: real, gutter: real, pageNum: int): (r: PagePlan) {
    DailyLayout(Pick(lib, DailyHeaderTags), Pick(lib, DailyTimeTags), Pick(lib, DailyNotesTags),
                pageWidth, pageHeight, gutter, pageNum)
  }

  /** The notes block appears exactly when one exists and still fits above
      the bottom margin after the header and time block. The header sits
      50 pt below the top margin, the time block 425 pt below the point
      70 pt under the header's top, and the notes block 120 pt below the
      point a further 445 pt down; every placement starts at the left
      margin and spans the content width. */
  lemma DailyTemplateLayout(header: Option<Block>, time: Option<Block>, notes: Option<Block>,
                            pageWidth: real, pageHeight: real, gutter: real, pageNum: int)
    ensures var r := DailyLayout(header, time, notes, pageWidth, pageHeight, gutter, pageNum);
            var y2 := DailyNotesTop(pageHeight, header.Some?, time.Some?);
            && |r.blocks| == (if header.Some? then 1 else 0) + (if time.Some? then 1 else 0)
                             + (if notes.Some? && y2 - 120.0 > 36.0 then 1 else 0)
            && (header.Some? ==> r.blocks[0] == Placement(header.value.id, LeftMargin(gutter, pageNum), pageHeight - 86.0,
                                                          pageWidth - gutter - 72.0, 50.0))
            && (time.Some? ==> r.blocks[if header.Some? then 1 else 0]
                                 == Placement(time.value.id, LeftMargin(gutter, pageNum),
                                              pageHeight - 36.0 - (if header.Some? then 70.0 else 0.0) - 425.0,
                                              pageWidth - gutter - 72.0, 425.0))
            && (notes.Some? && y2 - 120.0 > 36.0 ==>
                  r.blocks[|r.blocks| - 1]
                    == Placement(notes.value.id, LeftMargin(gutter, pageNum),
                                 pageHeight - 36.0 - (if header.Some? then 70.0 else 0.0) - (if time.Some? then 445.0 else 0.0) - 120.0,
                                 pageWidth - gutter - 72.0, 120.0))
            && forall i :: 0 <= i < |r.blocks| ==>
                 r.blocks[i].x == LeftMargin(gutter, pageNum) && r.blocks[i].width == pageWidth - gutter - 72.0
  {
  }

  /** With a header and a time block, the notes block needs a page taller
      than 707 pt, so a 648 pt (9 inch) page never gets one. */
  lemma DailyNotesNeedTallPage(header: Option<Block>, time: Option<Block>, notes: Option<Block>,
                               pageWidth: real, pageHeight: real, gutter: real, pageNum: int)
    requires header.Some? && time.Some?
    ensures |DailyLayout(header, time, notes, pageWidth, pageHeight, gutter, pageNum).blocks| == 3
        <==> notes.Some? && pageHeight > 707.0
  {
    DailyTemplateLayout(header, time, notes, pageWidth, pageHeight, gutter, pageNum);
  }

  // ---- Etsy-style templates ----

  /** The three-part layout shared by the habit-tracker and meal-planner
      templates: a header, a grid, and a lined section for what is left. */
  datatype EtsySpec = EtsySpec(headerTags: seq<string>, headerHeight: real, headerStep: real,
                               gridTags: seq<string>, gridHeight: real, gridStep: real)

  const HabitSpec: EtsySpec := EtsySpec(["etsy", "header", "large"], 80.0, 100.0, ["etsy", "checkbox", "grid"], 180.0, 200.0)
  const MealSpec: EtsySpec := EtsySpec(["etsy", "header", "title"], 100.0, 120.0, ["etsy", "meal", "planner"], 200.0, 220.0)
  const LinedTags: seq<string> := ["etsy", "lines"]

  /** `current_y` when the lined section is considered. */
  function EtsyLinedTop(spec: EtsySpec, pageHeight: real, hasHeader: bool, hasGrid: bool): real {
    pageHeight - Margin - (if hasHeader then spec.headerStep else 0.0) - (if hasGrid then spec.gridStep else 0.0)
  }

  /** The geometry of `_create_habit_tracker_template` and
      `_create_meal_planner_template` once the searches are done. Their
      content width always subtracts 36 pt on the right, even on even pages,
      where the daily template subtracts the gutter as well. */
  function EtsyLayout(spec: EtsySpec, header: Option<Block>, grid: Option<Block>, lined: Option<Block>,
                      pageWidth: real, pageHeight: real, gutter: real, pageNum: int): (r: PagePlan)
    ensures r.pageNumber == pageNum
    ensures |r.blocks| <= 3
  {
    var left := LeftMargin(gutter, pageNum);
    var width := pageWidth - left - Margin;
    var top := pageHeight - Margin;
    var y1 := top - (if header.Some? then spec.headerStep else 0.0);
    var y2 := EtsyLinedTop(spec, pageHeight, header.Some?, grid.Some?);
    PagePlan(pageNum,
      PlaceIf(header, left, top - spec.headerHeight, width, spec.headerHeight)
      + PlaceIf(grid, left, y1 - spec.gridHeight, width, spec.gridHeight)
      + PlaceIf(if y2 > 100.0 then lined else None, left, y2 - 50.0, width, y2 - 50.0))
  }

  function EtsyTemplate(spec: EtsySpec, lib: Library, pageWidth: real, pageHeight: real, gutter: real, pageNum: int): PagePlan {
    EtsyLayout(spec, Pick(lib, spec.headerTags), Pick(lib, spec.gridTags), Pick(lib, LinedTags),
               pageWidth, pageHeight, gutter, pageNum)
  }

  /** The lined section is added exactly when a lined block exists and
      `current_y > 100`; its bottom and its height are both `current_y - 50`,
      so its top edge, `2 * current_y - 100`, lies above `current_y`. */
  lemma EtsyLinedSection(spec: EtsySpec, header: Option<Block>, grid: Option<Block>, lined: Option<Block>,
                         pageWidth: real, pageHeight: real, gutter: real, pageNum: int)
    ensures var r := EtsyLayout(spec, header, grid, lined, pageWidth, pageHeight, gutter, pageNum);
            var y2 := EtsyLinedTop(spec, pageHeight, header.Some?, grid.Some?);
            var placed := lined.Some? && y2 > 100.0;
            && |r.blocks| == (if header.Some? then 1 else 0) + (if grid.Some? then 1 else 0) + (if placed then 1 else 0)
            && (placed ==> var l := r.blocks[|r.blocks| - 1];
                           l.blockId == lined.value.id && l.y == y2 - 50.0 && l.height == y2 - 50.0 && l.y + l.height > y2)
            && forall i :: 0 <= i < |r.blocks| ==>
                 r.blocks[i].x == LeftMargin(gutter, pageNum) && r.blocks[i].width == pageWidth - LeftMargin(gutter, pageNum) - 36.0
  {
  }

  // ---- compose_planner ----

  datatype TemplateKind = DailyTemplateKind | HabitTemplateKind | MealTemplateKind

  /** The planner types served by a template, compared in lower case. */
  function TemplateFor(plannerType: string): (r: Option<TemplateKind>)
    ensures r == Some(DailyTemplateKind) <==> Text.Lower(plannerType) == "daily"
    ensures r == Some(HabitTemplateKind) <==> Text.Lower(plannerType) == "habit_tracker"
    ensures r == Some(MealTemplateKind) <==> Text.Lower(plannerType) in ["meal_planner", "meal"]
  {
    var t := Text.Lower(plannerType);
    if t == "daily" then Some(DailyTemplateKind)
    else if t == "habit_tracker" then Some(HabitTemplateKind)
    else if t in ["meal_planner", "meal"] then Some(MealTemplateKind)
    else None
  }

  function TemplatePage(kind: TemplateKind, lib: Library, pageWidth: real, pageHeight: real, gutter: real, pageNum: int): (r: PagePlan)
    ensures r.pageNumber == pageNum
  {
    match kind
    case DailyTemplateKind => DailyTemplate(lib, pageWidth, pageHeight, gutter, pageNum)
    case HabitTemplateKind => EtsyTemplate(HabitSpec, lib, pageWidth, pageHeight, gutter, pageNum)
    case MealTemplateKind => EtsyTemplate(MealSpec, lib, pageWidth, pageHeight, gutter, pageNum)
  }

  /** `for page_num in range(1, num_pages + 1)` */
  function TemplatePages(kind: TemplateKind, lib: Library, numPages: int, pageWidth: real, pageHeight: real, gutter: real): (r: seq<PagePlan>)
    ensures |r| == if numPages > 0 then numPages else 0
    ensures forall i :: 0 <= i < |r| ==> r[i].pageNumber == i + 1
  {
    var n := if numPages > 0 then numPages else 0;
    seq(n, i requires 0 <= i < n => TemplatePage(kind, lib, pageWidth, pageHeight, gutter, i + 1))
  }

  /** What the language-model call produced: a failure of the call itself,
      a reply that is not JSON, or the parsed composition. */
  datatype AiOutcome = CallFailed | Unparsable | Parsed(composition: Composition)

  /** `_generate_composition_with_ai` builds the catalogue sent to the model
      from the first 20 relevant blocks, indexing `block["description"]`
      before its `try`. It can do so only when each of them has one. */
  predicate CatalogReadable(blocks: seq<Block>) {
    forall i :: 0 <= i < |blocks| && i < 20 ==> blocks[i].description.Some?
  }

  /** `compose_planner`. For planner types without a template the composition
      comes from the language model, whose outcome is a parameter here. A
      relevant block without a description among the first 20 raises
      `KeyError('description')` whatever the model does; that is the failure. */
  function ComposePlanner(lib: Library, plannerType: string, ai: AiOutcome, numPages: int := 4,
                          pageWidth: real := 432.0, pageHeight: real := 648.0, gutter: real := 36.0): (r: Result<Composition, string>)
    ensures r.Failure? <==> TemplateFor(plannerType).None? && |RelevantBlocks(lib, plannerType)| > 0
                             && !CatalogReadable(RelevantBlocks(lib, plannerType))
    ensures r.Failure? ==> r.error == "description"
    ensures TemplateFor(plannerType).Some? || (ai.CallFailed? && |RelevantBlocks(lib, plannerType)| > 0 && CatalogReadable(RelevantBlocks(lib, plannerType))) ==>
              && r.Success?
              && r.value.plannerType == Some(plannerType)
              && |r.value.pages| == (if numPages > 0 then numPages else 0)
              && forall i :: 0 <= i < |r.value.pages| ==> r.value.pages[i].pageNumber == i + 1
    ensures TemplateFor(plannerType).None? && |RelevantBlocks(lib, plannerType)| == 0 ==>
              r == Success(Composition(None, []))
    ensures TemplateFor(plannerType).None? && ai.Unparsable? && CatalogReadable(RelevantBlocks(lib, plannerType)) ==>
              r == Success(Composition(None, []))
    ensures TemplateFor(plannerType).None? && |RelevantBlocks(lib, plannerType)| > 0 && ai.Parsed? && CatalogReadable(RelevantBlocks(lib, plannerType)) ==>
              r.Success? && r.value.plannerType == ai.composition.plannerType && |r.value.pages| == |ai.composition.pages|
    ensures TemplateFor(plannerType).None? && r.Success? ==>
              forall i, j :: 0 <= i < |r.value.pages| && 0 <= j < |r.value.pages[i].blocks| ==>
                r.value.pages[i].blocks[j].blockId in IdsOf(RelevantBlocks(lib, plannerType))
  {
    match TemplateFor(plannerType)
    case Some(kind) => Success(Composition(Some(plannerType), TemplatePages(kind, lib, numPages, pageWidth, pageHeight, gutter)))
    case None =>
      var blocks := RelevantBlocks(lib, plannerType);
      if |blocks| == 0 then Success(Composition(None, []))
      else if !CatalogReadable(blocks) then Failure("description")
      else match ai
        case CallFailed =>
          FallbackUsesGivenBlocks(plannerType, numPages, blocks, pageWidth, pageHeight, gutter);
          Success(FallbackComposition(plannerType, numPages, blocks, pageWidth, pageHeight, gutter))
        case Unparsable => Success(Composition(None, []))
        case Parsed(c) =>
          FilterCompositionKeepsOnlyKnown(c, blocks);
          Success(FilterComposition(c, blocks))
  }

  /** Template planner types get pages numbered 1 to `num_pages` from their
      template, whatever the model would say. */
  lemma TemplatePlannerPages(lib: Library, plannerType: string, ai: AiOutcome, numPages: int,
                             pageWidth: real, pageHeight: real, gutter: real)
    requires TemplateFor(plannerType).Some?
    ensures var r := ComposePlanner(lib, plannerType, ai, numPages, pageWidth, pageHeight, gutter);
            && r.Success?
            && r.value.pages == TemplatePages(TemplateFor(plannerType).value, lib, numPages, pageWidth, pageHeight, gutter)
            && |r.value.pages| == (if numPages > 0 then numPages else 0)
            && forall i :: 0 <= i < |r.value.pages| ==> r.value.pages[i].pageNumber == i + 1
  {
    var kind := TemplateFor(plannerType).value;
    var r := ComposePlanner(lib, plannerType, ai, numPages, pageWidth, pageHeight, gutter);
    assert r.value.pages == TemplatePages(kind, lib, numPages, pageWidth, pageHeight, gutter);
  }

  /** Other planner types only ever use placements of relevant blocks. */
  lemma ModelPlannerUsesRelevantBlocks(lib: Library, plannerType: string, ai: AiOutcome, numPages: int,
                                       pageWidth: real, pageHeight: real, gutter: real)
    requires TemplateFor(plannerType).None?
    ensures var r := ComposePlanner(lib, plannerType, ai, numPages, pageWidth, pageHeight, gutter);
            r.Success? ==>
              forall i, j :: 0 <= i < |r.value.pages| && 0 <= j < |r.value.pages[i].blocks| ==>
                r.value.pages[i].blocks[j].blockId in IdsOf(RelevantBlocks(lib, plannerType))
  {
    var blocks := RelevantBlocks(lib, plannerType);
    if |blocks| > 0 && CatalogReadable(blocks) {
      match ai
      case CallFailed => FallbackUsesGivenBlocks(plannerType, numPages, blocks, pageWidth, pageHeight, gutter);
      case Unparsable =>
      case Parsed(c) => FilterCompositionKeepsOnlyKnown(c, blocks);
    }
  }

  /** A relevant block without a description makes the model path raise
      before the model is asked, so even a failed call gets no fallback. */
  lemma MissingDescriptionRaises(lib: Library, plannerType: string, ai: AiOutcome, numPages: int,
                                 pageWidth: real, pageHeight: real, gutter: real, k: nat)
    requires TemplateFor(plannerType).None?
    requires k < |RelevantBlocks(lib, plannerType)| && k < 20
    requires RelevantBlocks(lib, plannerType)[k].description.None?
    ensures ComposePlanner(lib, plannerType, ai, numPages, pageWidth, pageHeight, gutter) == Failure("description")
  {
    assert !CatalogReadable(RelevantBlocks(lib, plannerType));
  }

  // ---- relevant blocks ----

  datatype Criteria = Criteria(categories: seq<Category>, tags: seq<string>)

  const AllCategories: seq<Category> := [
    Category.Header, Footer, Calendar, Category.HabitTracker, WeeklyPlanner, MonthlyPlanner, GoalTracker,
    NoteSection, Checklist, TimeBlock, Grid, Lined, DotGrid, Divider, TextBox, QuoteBox]

  /** The relevance map of `_get_relevant_blocks`; unknown types take every
      category and no tags. */
  function CriteriaFor(plannerType: string): (r: Criteria)
    ensures Category.Header in r.categories
  {
    var t := Text.Lower(plannerType);
    if t == "daily" then Criteria([Category.Header, TimeBlock, Checklist, NoteSection, Category.HabitTracker], ["daily", "tasks", "schedule", "notes"])
    else if t == "weekly" then Criteria([Category.Header, WeeklyPlanner, GoalTracker, Category.HabitTracker], ["weekly", "overview", "goals"])
    else if t == "monthly" then Criteria([Category.Header, MonthlyPlanner, Calendar, GoalTracker], ["monthly", "calendar", "goals"])
    else if t == "habit_tracker" then Criteria([Category.Header, Category.HabitTracker, GoalTracker], ["habit", "tracker", "daily", "weekly"])
    else if t == "goal_tracker" then Criteria([Category.Header, GoalTracker, Checklist], ["goals", "progress", "tracker"])
    else Criteria(AllCategories, [])
  }

  /** One search per category, then one by tags when there are tags. */
  function Candidates(lib: Library, c: Criteria): seq<Block> {
    ByCategories(lib, c.categories) + (if |c.tags| > 0 then SearchBlocks(lib, tags := Some(c.tags)) else [])
  }

  function ByCategories(lib: Library, cats: seq<Category>): seq<Block> {
    if |cats| == 0 then [] else ByCategories(lib, cats[..|cats| - 1]) + SearchBlocks(lib, category := Some(cats[|cats| - 1]))
  }

  lemma {:induction false} ByCategoriesMembers(lib: Library, cats: seq<Category>, b: Block)
    ensures b in ByCategories(lib, cats) <==> b in lib && exists c :: c in cats && b.category == c.Value()
    decreases |cats|
  {
    if |cats| > 0 {
      var init := cats[..|cats| - 1];
      var last := cats[|cats| - 1];
      ByCategoriesMembers(lib, init, b);
      SearchByCategory(lib, last, b);
      assert ByCategories(lib, cats) == ByCategories(lib, init) + SearchBlocks(lib, category := Some(last));
      assert cats == init + [last];
      CategoryInSnoc(b, init, last);
    }
  }

  /** The search by one category finds exactly the library's blocks of it. */
  lemma SearchByCategory(lib: Library, cat: Category, b: Block)
    ensures b in SearchBlocks(lib, category := Some(cat)) <==> b in lib && b.category == cat.Value()
  {
    SearchIsExact(lib, Some(cat), None, None, None, b);
  }

  /** A category list with one more entry adds exactly that category. */
  lemma CategoryInSnoc(b: Block, init: seq<Category>, last: Category)
    ensures (exists c :: c in init + [last] && b.category == c.Value())
            <==> (exists c :: c in init && b.category == c.Value()) || b.category == last.Value()
  {
    if b.category == last.Value() {
      assert last in init + [last];
    }
    if exists c :: c in init + [last] && b.category == c.Value() {
      var c :| c in init + [last] && b.category == c.Value();
      assert c in init || c == last;
    }
    if exists c :: c in init && b.category == c.Value() {
      var c :| c in init && b.category == c.Value();
      assert c in init + [last];
    }
  }

  /** A library block is a candidate exactly when its category is one of the
      criteria's or it carries one of the criteria's tags. */
  lemma CandidatesMembers(lib: Library, c: Criteria, b: Block)
    ensures b in Candidates(lib, c) <==> b in lib && ((exists k :: k in c.categories && b.category == k.Value())
                                                       || (|c.tags| > 0 && TagsOverlap(c.tags, b.tags.GetOr([]))))
  {
    ByCategoriesMembers(lib, c.categories, b);
    if |c.tags| > 0 {
      SearchIsExact(lib, None, Some(c.tags), None, None, b);
    }
  }

  function IdsOf(bs: seq<Block>): set<string> {
    set i | 0 <= i < |bs| :: bs[i].id
  }

  /** Keeps the first block seen for each id, in order. */
  function DedupById(bs: seq<Block>): (r: seq<Block>)
    ensures |r| <= |bs|
  {
    if |bs| == 0 then []
    else
      var d := DedupById(bs[..|bs| - 1]);
      if bs[|bs| - 1].id in IdsOf(d) then d else d + [bs[|bs| - 1]]
  }

  /** No id appears twice in the result. */
  lemma {:induction false} DedupUnique(bs: seq<Block>)
    ensures UniqueIds(DedupById(bs))
    decreases |bs|
  {
    if |bs| > 0 {
      var x := bs[|bs| - 1];
      var d := DedupById(bs[..|bs| - 1]);
      DedupUnique(bs[..|bs| - 1]);
      if x.id !in IdsOf(d) {
        var r := d + [x];
        forall i, j | 0 <= i < j < |r| ensures r[i].id != r[j].id {
          if j == |d| { assert r[i].id in IdsOf(d); }
        }
      }
    }
  }

  /** Every id of the input survives. */
  lemma {:induction false} DedupKeepsIds(bs: seq<Block>)
    ensures IdsOf(DedupById(bs)) == IdsOf(bs)
    decreases |bs|
  {
    if |bs| > 0 {
      var init := bs[..|bs| - 1];
      var x := bs[|bs| - 1];
      DedupKeepsIds(init);
      IdsSnoc(init, x);
      if x.id !in IdsOf(DedupById(init)) {
        IdsSnoc(DedupById(init), x);
      }
      assert init + [x] == bs;
    }
  }

  /** Each survivor is the first block of the input carrying its id. */
  lemma {:induction false} DedupKeepsFirst(bs: seq<Block>)
    ensures forall j :: 0 <= j < |DedupById(bs)| ==> GetBlock(bs, DedupById(bs)[j].id) == Some(DedupById(bs)[j])
    decreases |bs|
  {
    if |bs| > 0 {
      var init := bs[..|bs| - 1];
      var x := bs[|bs| - 1];
      var d := DedupById(init);
      DedupKeepsFirst(init);
      assert init + [x] == bs;
      forall j | 0 <= j < |d| ensures GetBlock(bs, d[j].id) == Some(d[j]) {
        assert GetBlock(init, d[j].id).Some?;
        FirstIdSurvivesSnoc(init, x, d[j].id);
      }
      if x.id !in IdsOf(d) {
        DedupKeepsIds(init);
        IndexOfFirst(bs, x.id, |init|);
      }
    }
  }

  /** Survivors keep the order in which their ids first occur in the input. */
  lemma {:induction false} DedupKeepsOrder(bs: seq<Block>)
    ensures FirstOccurrenceOrder(DedupById(bs), bs)
    decreases |bs|
  {
    if |bs| > 0 {
      var init := bs[..|bs| - 1];
      var x := bs[|bs| - 1];
      var d := DedupById(init);
      DedupKeepsOrder(init);
      assert init + [x] == bs;
      SurvivorsLookAlike(init, x, bs, d);
      OrderTransfers(d, init, bs);
      if x.id !in IdsOf(d) {
        DedupKeepsIds(init);
        IndexOfFirst(bs, x.id, |init|);
        SnocKeepsOrder(d, x, bs, |init|);
      }
    }
  }

  /** Appending a block does not move the first occurrence of a survivor's id. */
  lemma SurvivorsLookAlike(init: seq<Block>, x: Block, bs: seq<Block>, d: seq<Block>)
    requires bs == init + [x] && d == DedupById(init)
    ensures forall i :: 0 <= i < |d| ==> IndexOf(init, d[i].id).Some? && IndexOf(bs, d[i].id) == IndexOf(init, d[i].id)
  {
    DedupKeepsIds(init);
    forall i | 0 <= i < |d|
      ensures IndexOf(init, d[i].id).Some? && IndexOf(bs, d[i].id) == IndexOf(init, d[i].id)
    {
      assert d[i].id in IdsOf(init);
      var k :| 0 <= k < |init| && init[k].id == d[i].id;
      assert HasId(init, d[i].id);
      var k0 := IndexOf(init, d[i].id).value;
      assert forall j :: 0 <= j < k0 ==> bs[j] == init[j];
      IndexOfFirst(bs, d[i].id, k0);
    }
  }

  /** When the survivors' ids first occur at the same positions in `bs` as in
      `init`, their order carries over. */
  lemma OrderTransfers(d: seq<Block>, init: seq<Block>, bs: seq<Block>)
    requires FirstOccurrenceOrder(d, init)
    requires forall i :: 0 <= i < |d| ==> IndexOf(bs, d[i].id) == IndexOf(init, d[i].id)
    ensures FirstOccurrenceOrder(d, bs)
    ensures forall i :: 0 <= i < |d| && IndexOf(init, d[i].id).Some? ==> IndexOf(bs, d[i].id).value < |init|
  {
    forall i, j | 0 <= i < j < |d|
      ensures FirstOccursBefore(bs, d[i].id, d[j].id)
    {
      assert FirstOccursBefore(init, d[i].id, d[j].id);
      assert IndexOf(bs, d[i].id) == IndexOf(init, d[i].id);
      assert IndexOf(bs, d[j].id) == IndexOf(init, d[j].id);
    }
    forall i | 0 <= i < |d| && IndexOf(init, d[i].id).Some?
      ensures IndexOf(bs, d[i].id).value < |init|
    {
      assert IndexOf(bs, d[i].id) == IndexOf(init, d[i].id);
    }
  }

  /** Each element's id first occurs in `bs` before the next element's. */
  predicate FirstOccurrenceOrder(r: seq<Block>, bs: seq<Block>) {
    forall i, j :: 0 <= i < j < |r| ==> FirstOccursBefore(bs, r[i].id, r[j].id)
  }

  /** Both ids occur in `bs`, and `a` first occurs before `b` does. */
  predicate FirstOccursBefore(bs: seq<Block>, a: string, b: string) {
    IndexOf(bs, a).Some? && IndexOf(bs, b).Some? && IndexOf(bs, a).value < IndexOf(bs, b).value
  }

  lemma SnocKeepsOrder(d: seq<Block>, x: Block, bs: seq<Block>, n: nat)
    requires FirstOccurrenceOrder(d, bs)
    requires forall i :: 0 <= i < |d| ==> IndexOf(bs, d[i].id).Some? && IndexOf(bs, d[i].id).value < n
    requires IndexOf(bs, x.id) == Some(n)
    ensures FirstOccurrenceOrder(d + [x], bs)
  {
    var r := d + [x];
    forall i, j | 0 <= i < j < |r|
      ensures FirstOccursBefore(bs, r[i].id, r[j].id)
    {
      assert r[i] == d[i];
      if j < |d| { assert r[j] == d[j]; }
    }
  }

  lemma IdsSnoc(bs: seq<Block>, x: Block)
    ensures IdsOf(bs + [x]) == IdsOf(bs) + {x.id}
  {
    var s := bs + [x];
    forall id | id in IdsOf(s) ensures id in IdsOf(bs) + {x.id} {
      var i :| 0 <= i < |s| && s[i].id == id;
      if i < |bs| { assert s[i] == bs[i]; }
    }
    forall id | id in IdsOf(bs) ensures id in IdsOf(s) {
      var i :| 0 <= i < |bs| && bs[i].id == id;
      assert s[i] == bs[i];
    }
    assert s[|bs|] == x;
  }

  /** Appending a block keeps the lookup of an id already present. */
  lemma FirstIdSurvivesSnoc(bs: seq<Block>, x: Block, id: string)
    requires HasId(bs, id)
    ensures GetBlock(bs + [x], id) == GetBlock(bs, id)
  {
    var k := IndexOf(bs, id).value;
    IndexOfFirst(bs + [x], id, k);
  }

  /** Success rate as the ranking sees it, negated for a descending sort. */
  function NegRate(b: Block): real {
    -b.successRate.GetOr(0.0)
  }

  /** De-duplicate by id (first kept), then sort stably by success rate,
      highest first. */
  function Rank(cands: seq<Block>): (r: seq<Block>)
    ensures forall i, j :: 0 <= i < j < |r| ==> r[i].successRate.GetOr(0.0) >= r[j].successRate.GetOr(0.0)
  {
    var r := StableSort.SortBy(DedupById(cands), NegRate);
    assert StableSort.SortedBy(r, NegRate);
    r
  }

  /** `_get_relevant_blocks`: one block per candidate id, taken from the
      candidates, best success rate first. */
  function RelevantBlocks(lib: Library, plannerType: string): (r: seq<Block>)
    ensures UniqueIds(r)
    ensures forall i, j :: 0 <= i < j < |r| ==> r[i].successRate.GetOr(0.0) >= r[j].successRate.GetOr(0.0)
    ensures forall i :: 0 <= i < |r| ==> r[i] in Candidates(lib, CriteriaFor(plannerType))
    ensures IdsOf(r) == IdsOf(Candidates(lib, CriteriaFor(plannerType)))
  {
    var cands := Candidates(lib, CriteriaFor(plannerType));
    RankUnique(cands);
    RankCovers(cands);
    Rank(cands)
  }

  /** Ranking keeps only candidates and keeps every candidate id. */
  lemma RankCovers(cands: seq<Block>)
    ensures forall i :: 0 <= i < |Rank(cands)| ==> Rank(cands)[i] in cands
    ensures IdsOf(Rank(cands)) == IdsOf(cands)
  {
    var d := DedupById(cands);
    var r := Rank(cands);
    DedupKeepsIds(cands);
    SameElementsSameIds(r, d);
    DedupMembers(cands);
  }

  /** Survivors of de-duplication are candidates. */
  lemma DedupMembers(bs: seq<Block>)
    ensures forall k :: 0 <= k < |DedupById(bs)| ==> DedupById(bs)[k] in bs
  {
    DedupKeepsFirst(bs);
  }

  /** Two arrangements of the same blocks share their elements and ids. */
  lemma SameElementsSameIds(a: seq<Block>, b: seq<Block>)
    requires multiset(a) == multiset(b)
    ensures forall i :: 0 <= i < |a| ==> a[i] in b
    ensures IdsOf(a) == IdsOf(b)
  {
    forall i | 0 <= i < |a| ensures a[i] in b {
      assert a[i] in multiset(b);
    }
    forall id | id in IdsOf(b) ensures id in IdsOf(a) {
      var k :| 0 <= k < |b| && b[k].id == id;
      assert b[k] in multiset(a);
      var i :| 0 <= i < |a| && a[i] == b[k];
    }
  }

  lemma UniqueIdsAsNoDup(s: seq<Block>)
    ensures UniqueIds(s) <==> StableSort.NoDupBy(s, (b: Block) => b.id)
  {
  }

  /** The ranked blocks carry distinct ids. */
  lemma RankUnique(cands: seq<Block>)
    ensures UniqueIds(Rank(cands))
  {
    var d := DedupById(cands);
    DedupUnique(cands);
    UniqueIdsAsNoDup(d);
    StableSort.SortKeepsNoDup(d, NegRate, (b: Block) => b.id);
    UniqueIdsAsNoDup(Rank(cands));
  }

  /** The ranked blocks are the candidates with later duplicates of an id
      dropped, and every candidate id is represented. */
  lemma RankKeepsCandidates(cands: seq<Block>)
    ensures multiset(Rank(cands)) == multiset(DedupById(cands))
    ensures IdsOf(DedupById(cands)) == IdsOf(cands)
  {
    DedupKeepsIds(cands);
  }

  /** Blocks with equal success rate keep their candidate order. */
  lemma RankStable(cands: seq<Block>, rate: real)
    ensures StableSort.WithKey(Rank(cands), NegRate, rate) == StableSort.WithKey(DedupById(cands), NegRate, rate)
  {
    StableSort.SortIsStable(DedupById(cands), NegRate, rate);
  }

  // ---- cleaning the model's composition ----

  /** `_parse_composition`'s check: only placements naming a provided block
      survive, in their order; the pages themselves are all kept. */
  function FilterComposition(c: Composition, blocks: seq<Block>): (r: Composition)
    ensures r.plannerType == c.plannerType && |r.pages| == |c.pages|
    ensures forall i :: 0 <= i < |r.pages| ==> r.pages[i].pageNumber == c.pages[i].pageNumber
  {
    var ids := IdsOf(blocks);
    Composition(c.plannerType, seq(|c.pages|, i requires 0 <= i < |c.pages| =>
      c.pages[i].(blocks := Seqs.Filter(c.pages[i].blocks, (p: Placement) => p.blockId in ids))))
  }

  lemma FilterCompositionKeepsOnlyKnown(c: Composition, blocks: seq<Block>)
    ensures var r := FilterComposition(c, blocks);
            forall i, j :: 0 <= i < |r.pages| && 0 <= j < |r.pages[i].blocks| ==> r.pages[i].blocks[j].blockId in IdsOf(blocks)
  {
  }

  /** A placement survives exactly when it was proposed and names a
      provided block. */
  lemma FilterCompositionIsExact(c: Composition, blocks: seq<Block>, i: nat, p: Placement)
    requires i < |c.pages|
    ensures p in FilterComposition(c, blocks).pages[i].blocks <==> p in c.pages[i].blocks && p.blockId in IdsOf(blocks)
  {
    Seqs.FilterMembers(c.pages[i].blocks, (q: Placement) => q.blockId in IdsOf(blocks), p);
  }

  // ---- fallback composition ----

  predicate IsHeader(b: Block) { b.category == "header" }
  predicate IsFooter(b: Block) { b.category == "footer" }
  predicate IsContent(b: Block) { b.category != "header" && b.category != "footer" }

  /** The content loop: at most the given blocks, stopping once `current_y`
      drops below 100; each block is cut to `current_y - 80`. */
  function ContentPlacements(cbs: seq<Block>, currentY: real, left: real, width: real): (r: seq<Placement>)
    ensures |r| <= |cbs|
  {
    if |cbs| == 0 || currentY < 100.0 then []
    else
      var h := cbs[0].dimensions.height;
      [Placement(cbs[0].id, left, currentY, width, if h <= currentY - 80.0 then h else currentY - 80.0)]
      + ContentPlacements(cbs[1..], currentY - h - 20.0, left, width)
  }

  /** Every content placement starts at or above 100 and reaches no lower
      than 80 pt short of its own `y`; each names one of the blocks, in order. */
  lemma {:induction false} ContentPlacementsBounds(cbs: seq<Block>, currentY: real, left: real, width: real)
    ensures var r := ContentPlacements(cbs, currentY, left, width);
            forall i :: 0 <= i < |r| ==> r[i].y >= 100.0 && r[i].height <= r[i].y - 80.0
                                         && r[i].blockId == cbs[i].id && r[i].x == left && r[i].width == width
    decreases |cbs|
  {
    if |cbs| > 0 && currentY >= 100.0 {
      var h := cbs[0].dimensions.height;
      ContentPlacementsBounds(cbs[1..], currentY - h - 20.0, left, width);
    }
  }

  /** The placements of one fallback page once its margins are known: the
      first header at `top`, up to three content blocks below it, and the
      first footer at 40 pt. */
  function FallbackLayout(header: Option<Block>, contents: seq<Block>, footer: Option<Block>,
                          left: real, width: real, top: real): seq<Placement>
  {
    var y := if header.Some? then top - header.value.dimensions.height - 20.0 else top;
    PlaceIf(header, left, top, width, if header.Some? then header.value.dimensions.height else 0.0)
    + ContentPlacements(Seqs.SliceTo(contents, 3), y, left, width)
    + PlaceIf(footer, left, 40.0, width, if footer.Some? then footer.value.dimensions.height else 0.0)
  }

  function FallbackPage(pageNum: int, headers: seq<Block>, contents: seq<Block>, footers: seq<Block>,
                        pageWidth: real, pageHeight: real, gutter: real): (r: PagePlan)
    ensures r.pageNumber == pageNum
  {
    var left := LeftMargin(gutter, pageNum);
    PagePlan(pageNum, FallbackLayout(First(headers), contents, First(footers), left, pageWidth - left - Margin, pageHeight - 60.0))
  }

  function FallbackPages(n: int, headers: seq<Block>, contents: seq<Block>, footers: seq<Block>,
                         pageWidth: real, pageHeight: real, gutter: real): (r: seq<PagePlan>)
    ensures |r| == if n > 0 then n else 0
    ensures forall i :: 0 <= i < |r| ==> r[i] == FallbackPage(i + 1, headers, contents, footers, pageWidth, pageHeight, gutter)
  {
    if n <= 0 then []
    else FallbackPages(n - 1, headers, contents, footers, pageWidth, pageHeight, gutter)
         + [FallbackPage(n, headers, contents, footers, pageWidth, pageHeight, gutter)]
  }

  /** `_fallback_composition` */
  function FallbackComposition(plannerType: string, numPages: int, blocks: seq<Block>,
                               pageWidth: real, pageHeight: real, gutter: real): (r: Composition)
    ensures r.plannerType == Some(plannerType)
    ensures |r.pages| == if numPages > 0 then numPages else 0
    ensures forall i :: 0 <= i < |r.pages| ==> r.pages[i].pageNumber == i + 1
  {
    Composition(Some(plannerType), FallbackPages(numPages, Seqs.Filter(blocks, IsHeader), Seqs.Filter(blocks, IsContent),
                                                 Seqs.Filter(blocks, IsFooter), pageWidth, pageHeight, gutter))
  }

  /** Where the parts of a header, content, footer page sit in its list:
      the content placements keep their bounds and their blocks. */
  lemma ThreeParts(hd: seq<Placement>, mid: seq<Placement>, ft: seq<Placement>, contents: seq<Block>)
    requires |mid| <= |contents|
    requires forall i :: 0 <= i < |mid| ==>
               mid[i].y >= 100.0 && mid[i].height <= mid[i].y - 80.0 && mid[i].blockId == contents[i].id
    ensures var all := hd + mid + ft;
            && (|hd| > 0 ==> all[0] == hd[0])
            && (|ft| > 0 ==> all[|all| - 1] == ft[|ft| - 1])
            && forall i :: |hd| <= i < |hd| + |mid| ==>
                 all[i].y >= 100.0 && all[i].height <= all[i].y - 80.0 && all[i].blockId == contents[i - |hd|].id
  {
    var all := hd + mid + ft;
    forall i | |hd| <= i < |hd| + |mid|
      ensures all[i] == mid[i - |hd|]
    {
    }
  }

  /** The header leads and the footer closes the page; between them sit at
      most three content placements. */
  lemma FallbackLayoutEnds(header: Option<Block>, contents: seq<Block>, footer: Option<Block>,
                           left: real, width: real, top: real)
    ensures var r := FallbackLayout(header, contents, footer, left, width, top);
            var h := if header.Some? then 1 else 0;
            var f := if footer.Some? then 1 else 0;
            && 0 <= |r| - h - f <= 3 && |r| - h - f <= |contents|
            && (h == 1 ==> r[0].blockId == header.value.id && r[0].y == top)
            && (f == 1 ==> r[|r| - 1].blockId == footer.value.id && r[|r| - 1].y == 40.0)
  {
  }

  /** Each content placement starts at or above 100 pt, is cut to reach no
      lower than 80 pt, and places the content blocks in order. */
  lemma FallbackLayoutContent(header: Option<Block>, contents: seq<Block>, footer: Option<Block>,
                              left: real, width: real, top: real)
    ensures var r := FallbackLayout(header, contents, footer, left, width, top);
            var h := if header.Some? then 1 else 0;
            var m := |r| - h - (if footer.Some? then 1 else 0);
            forall i :: h <= i < h + m ==> r[i].y >= 100.0 && r[i].height <= r[i].y - 80.0
                                           && r[i].blockId == contents[i - h].id
  {
    var y := if header.Some? then top - header.value.dimensions.height - 20.0 else top;
    var cut := Seqs.SliceTo(contents, 3);
    var hd := PlaceIf(header, left, top, width, if header.Some? then header.value.dimensions.height else 0.0);
    var mid := ContentPlacements(cut, y, left, width);
    var ft := PlaceIf(footer, left, 40.0, width, if footer.Some? then footer.value.dimensions.height else 0.0);
    ContentPlacementsBounds(cut, y, left, width);
    assert forall i :: 0 <= i < |cut| ==> cut[i] == contents[i];
    ThreeParts(hd, mid, ft, contents);
  }

  /** Each fallback page is: the first header block when there is one, at
      60 pt below the top edge, then at most three content blocks, then the
      first footer block at y = 40 when there is one. */
  lemma FallbackPageShape(pageNum: int, headers: seq<Block>, contents: seq<Block>, footers: seq<Block>,
                          pageWidth: real, pageHeight: real, gutter: real)
    ensures var r := FallbackPage(pageNum, headers, contents, footers, pageWidth, pageHeight, gutter);
            var h := if |headers| > 0 then 1 else 0;
            var f := if |footers| > 0 then 1 else 0;
            var m := |r.blocks| - h - f;
            && 0 <= m <= 3 && m <= |contents|
            && (h == 1 ==> r.blocks[0].blockId == headers[0].id && r.blocks[0].y == pageHeight - 60.0)
            && (f == 1 ==> r.blocks[|r.blocks| - 1].blockId == footers[0].id && r.blocks[|r.blocks| - 1].y == 40.0)
            && (forall i :: h <= i < h + m ==> r.blocks[i].y >= 100.0 && r.blocks[i].height <= r.blocks[i].y - 80.0
                                                && r.blocks[i].blockId == contents[i - h].id)
  {
    var left := LeftMargin(gutter, pageNum);
    FallbackLayoutEnds(First(headers), contents, First(footers), left, pageWidth - left - Margin, pageHeight - 60.0);
    FallbackLayoutContent(First(headers), contents, First(footers), left, pageWidth - left - Margin, pageHeight - 60.0);
  }

  /** The fallback sorts the blocks by category: no header or footer block
      is ever placed as content. */
  lemma FallbackSplitsByCategory(blocks: seq<Block>)
    ensures forall b :: b in Seqs.Filter(blocks, IsHeader) ==> b in blocks && b.category == "header"
    ensures forall b :: b in Seqs.Filter(blocks, IsContent) ==> b in blocks && b.category != "header" && b.category != "footer"
    ensures forall b :: b in Seqs.Filter(blocks, IsFooter) ==> b in blocks && b.category == "footer"
  {
    forall b ensures b in Seqs.Filter(blocks, IsHeader) <==> b in blocks && IsHeader(b) {
      Seqs.FilterMembers(blocks, IsHeader, b);
    }
    forall b ensures b in Seqs.Filter(blocks, IsContent) <==> b in blocks && IsContent(b) {
      Seqs.FilterMembers(blocks, IsContent, b);
    }
    forall b ensures b in Seqs.Filter(blocks, IsFooter) <==> b in blocks && IsFooter(b) {
      Seqs.FilterMembers(blocks, IsFooter, b);
    }
  }

  /** A fallback page places only the header, content and footer blocks
      it is handed. */
  lemma FallbackPageUsesOnly(pageNum: int, headers: seq<Block>, contents: seq<Block>, footers: seq<Block>,
                             pageWidth: real, pageHeight: real, gutter: real, ids: set<string>)
    requires forall i :: 0 <= i < |headers| ==> headers[i].id in ids
    requires forall i :: 0 <= i < |contents| ==> contents[i].id in ids
    requires forall i :: 0 <= i < |footers| ==> footers[i].id in ids
    ensures var p := FallbackPage(pageNum, headers, contents, footers, pageWidth, pageHeight, gutter);
            forall j :: 0 <= j < |p.blocks| ==> p.blocks[j].blockId in ids
  {
    FallbackPageShape(pageNum, headers, contents, footers, pageWidth, pageHeight, gutter);
  }

  lemma FilterIdsWithin(blocks: seq<Block>, p: Block -> bool)
    ensures forall i :: 0 <= i < |Seqs.Filter(blocks, p)| ==> Seqs.Filter(blocks, p)[i].id in IdsOf(blocks)
  {
    var f := Seqs.Filter(blocks, p);
    forall i | 0 <= i < |f| ensures f[i].id in IdsOf(blocks) {
      Seqs.FilterMembers(blocks, p, f[i]);
      var m :| 0 <= m < |blocks| && blocks[m] == f[i];
    }
  }

  /** The fallback only places blocks it was given. */
  lemma FallbackUsesGivenBlocks(plannerType: string, numPages: int, blocks: seq<Block>,
                                pageWidth: real, pageHeight: real, gutter: real)
    ensures var r := FallbackComposition(plannerType, numPages, blocks, pageWidth, pageHeight, gutter);
            forall i, j :: 0 <= i < |r.pages| && 0 <= j < |r.pages[i].blocks| ==> r.pages[i].blocks[j].blockId in IdsOf(blocks)
  {
    var headers := Seqs.Filter(blocks, IsHeader);
    var contents := Seqs.Filter(blocks, IsContent);
    var footers := Seqs.Filter(blocks, IsFooter);
    FilterIdsWithin(blocks, IsHeader);
    FilterIdsWithin(blocks, IsContent);
    FilterIdsWithin(blocks, IsFooter);
    var r := FallbackComposition(plannerType, numPages, blocks, pageWidth, pageHeight, gutter);
    forall i | 0 <= i < |r.pages|
      ensures forall j :: 0 <= j < |r.pages[i].blocks| ==> r.pages[i].blocks[j].blockId in IdsOf(blocks)
    {
      FallbackPageUsesOnly(i + 1, headers, contents, footers, pageWidth, pageHeight, gutter, IdsOf(blocks));
    }
  }
}

=== FILE: block_extractor.dfy ===
/** Heuristic block extraction from an analysed PDF page: elements are
    clustered by vertical position, and headers, rows of seven day boxes
    and notes boxes are recognised and flattened back into editor
    elements. Coordinates are top-left based: a smaller `y` is higher up. */
module BlockExtractor {
  import opened Wrappers
  import Text
  import Seqs
  import StableSort

  /** The `properties` keys the extractor reads or writes. */
  datatype Props = Props(text: Option<string>, fontFamily: Option<string>, fontSize: Option<real>,
                         color: Option<string>, fill: Option<string>, stroke: Option<string>, strokeWidth: Option<real>)

  const NoProps: Props := Props(None, None, None, None, None, None, None)

  /** A parsed page element; the parser always writes the four numbers. */
  datatype Item = Item(kind: string, x: real, y: real, width: real, height: real, props: Props)

  function Y(it: Item): real { it.y }
  function X(it: Item): real { it.x }

  // ---- _group_by_y ----

  function SumY(c: seq<Item>): real {
    if |c| == 0 then 0.0 else SumY(c[..|c| - 1]) + c[|c| - 1].y
  }

  /** The cluster's mean `y`, dividing by `max(1, len)` as the code does. */
  function MeanY(c: seq<Item>): real {
    SumY(c) / (if |c| > 1 then |c| as real else 1.0)
  }

  predicate Near(it: Item, c: seq<Item>, tol: real) {
    var d := it.y - MeanY(c);
    -tol <= d <= tol
  }

  /** One step of the scan: join the first cluster whose mean is within
      `tol`, or open a new cluster. */
  function Assign(clusters: seq<seq<Item>>, it: Item, tol: real): (r: seq<seq<Item>>)
    ensures |r| == |clusters| || |r| == |clusters| + 1
  {
    if |clusters| == 0 then [[it]]
    else if Near(it, clusters[0], tol) then [clusters[0] + [it]] + clusters[1..]
    else [clusters[0]] + Assign(clusters[1..], it, tol)
  }

  /** The index of the first cluster near `it`, or -1 when none is. */
  function FirstNear(clusters: seq<seq<Item>>, it: Item, tol: real): (k: int)
    ensures -1 <= k < |clusters|
    ensures k >= 0 ==> Near(it, clusters[k], tol)
    ensures forall m :: 0 <= m < |clusters| && (k < 0 || m < k) ==> !Near(it, clusters[m], tol)
  {
    if |clusters| == 0 then -1
    else if Near(it, clusters[0], tol) then 0
    else
      var k := FirstNear(clusters[1..], it, tol);
      assert forall m :: 1 <= m < |clusters| ==> clusters[m] == clusters[1..][m - 1];
      if k < 0 then -1 else k + 1
  }

  /** Where an item goes: the first near cluster grows by it, or, when no
      cluster is near, a new cluster is opened at the end; every other
      cluster is unchanged. */
  lemma {:induction false} AssignJoinsFirstNear(clusters: seq<seq<Item>>, it: Item, tol: real)
    ensures var k := FirstNear(clusters, it, tol);
            Assign(clusters, it, tol)
              == if k >= 0 then clusters[k := clusters[k] + [it]] else clusters + [[it]]
    decreases |clusters|
  {
    if |clusters| > 0 && !Near(it, clusters[0], tol) {
      var rest := clusters[1..];
      AssignJoinsFirstNear(rest, it, tol);
      var k := FirstNear(rest, it, tol);
      assert Assign(clusters, it, tol) == [clusters[0]] + Assign(rest, it, tol);
      assert clusters == [clusters[0]] + rest;
      if k >= 0 {
        assert FirstNear(clusters, it, tol) == k + 1;
        ConsUpdate(clusters[0], rest, k, rest[k] + [it]);
      } else {
        assert FirstNear(clusters, it, tol) == -1;
        assert [clusters[0]] + (rest + [[it]]) == clusters + [[it]];
      }
    }
  }

  lemma ConsUpdate<T>(a: T, rest: seq<T>, k: nat, v: T)
    requires k < |rest|
    ensures [a] + rest[k := v] == ([a] + rest)[k + 1 := v]
  {
  }

  /** No item is lost or duplicated. */
  lemma {:induction false} AssignKeepsItems(clusters: seq<seq<Item>>, it: Item, tol: real)
    ensures multiset(Seqs.Flatten(Assign(clusters, it, tol))) == multiset(Seqs.Flatten(clusters)) + multiset{it}
    decreases |clusters|
  {
    if |clusters| > 0 {
      var rest := clusters[1..];
      if !Near(it, clusters[0], tol) {
        AssignKeepsItems(rest, it, tol);
        assert Assign(clusters, it, tol)[1..] == Assign(rest, it, tol);
      }
    }
  }

  /** No cluster is ever empty. */
  lemma {:induction false} AssignKeepsNonEmpty(clusters: seq<seq<Item>>, it: Item, tol: real)
    requires forall k :: 0 <= k < |clusters| ==> |clusters[k]| > 0
    ensures forall k :: 0 <= k < |Assign(clusters, it, tol)| ==> |Assign(clusters, it, tol)[k]| > 0
    decreases |clusters|
  {
    if |clusters| > 0 && !Near(it, clusters[0], tol) {
      var rest := clusters[1..];
      AssignKeepsNonEmpty(rest, it, tol);
      var r := Assign(clusters, it, tol);
      forall k | 0 <= k < |r| ensures |r[k]| > 0 {
        if k > 0 { assert r[k] == Assign(rest, it, tol)[k - 1]; }
      }
    }
  }

  /** The scan over items already in order. */
  function Cluster(items: seq<Item>, tol: real): seq<seq<Item>> {
    if |items| == 0 then [] else Assign(Cluster(items[..|items| - 1], tol), items[|items| - 1], tol)
  }

  /** `_group_by_y`: items in ascending `y` (stable), clustered by scan. */
  function GroupByY(items: seq<Item>, tol: real := 20.0): (r: seq<seq<Item>>)
    ensures |items| == 0 ==> r == []
  {
    if |items| == 0 then [] else Cluster(StableSort.SortBy(items, Y), tol)
  }

  lemma {:induction false} ClusterPartitions(items: seq<Item>, tol: real)
    ensures multiset(Seqs.Flatten(Cluster(items, tol))) == multiset(items)
    ensures forall k :: 0 <= k < |Cluster(items, tol)| ==> |Cluster(items, tol)[k]| > 0
    decreases |items|
  {
    if |items| > 0 {
      var init := items[..|items| - 1];
      ClusterPartitions(init, tol);
      AssignKeepsItems(Cluster(init, tol), items[|items| - 1], tol);
      AssignKeepsNonEmpty(Cluster(init, tol), items[|items| - 1], tol);
      assert items == init + [items[|items| - 1]];
    }
  }

  /** The clusters are non-empty and together hold exactly the input
      items: their concatenation is a permutation of it. */
  lemma GroupByYPartitions(items: seq<Item>, tol: real)
    ensures forall k :: 0 <= k < |GroupByY(items, tol)| ==> |GroupByY(items, tol)[k]| > 0
    ensures multiset(Seqs.Flatten(GroupByY(items, tol))) == multiset(items)
  {
    if |items| > 0 {
      ClusterPartitions(StableSort.SortBy(items, Y), tol);
    }
  }

  // ---- _find_header ----

  /** `max` by `(width, -y)`: wider wins, then higher up; on a full tie
      the earlier candidate stays. */
  predicate Beats(a: Item, b: Item) {
    a.width > b.width || (a.width == b.width && a.y < b.y)
  }

  function MaxByWidth(cands: seq<Item>): (r: Item)
    requires |cands| > 0
    ensures r in cands
    ensures forall i :: 0 <= i < |cands| ==> !Beats(cands[i], r)
  {
    if |cands| == 1 then cands[0]
    else
      var best := MaxByWidth(cands[..|cands| - 1]);
      var last := cands[|cands| - 1];
      assert forall i :: 0 <= i < |cands| - 1 ==> cands[i] == cands[..|cands| - 1][i];
      if Beats(last, best) then last else best
  }

  predicate InTopQuarter(pageH: real, t: Item) { t.y < pageH * 0.25 }

  /** `_find_header` */
  function FindHeader(texts: seq<Item>, pageH: real): (r: Option<Item>)
    ensures r.None? <==> forall t :: t in texts ==> !InTopQuarter(pageH, t)
    ensures r.Some? ==> r.value in texts && InTopQuarter(pageH, r.value)
  {
    var p := t => InTopQuarter(pageH, t);
    var cands := Seqs.Filter(texts, p);
    if |cands| == 0 then
      assert forall t :: t in texts ==> !InTopQuarter(pageH, t) by {
        forall t | t in texts ensures !InTopQuarter(pageH, t) {
          Seqs.FilterMembers(texts, p, t);
        }
      }
      None
    else
      Seqs.FilterMembers(texts, p, MaxByWidth(cands));
      Some(MaxByWidth(cands))
  }

  /** No header without a text in the top quarter; otherwise a text of the
      top quarter that no other such text beats by width, then height. */
  lemma FindHeaderCorrect(texts: seq<Item>, pageH: real)
    ensures FindHeader(texts, pageH).None? <==> forall t :: t in texts ==> !InTopQuarter(pageH, t)
    ensures FindHeader(texts, pageH).Some? ==>
              var h := FindHeader(texts, pageH).value;
              && h in texts && InTopQuarter(pageH, h)
              && forall t :: t in texts && InTopQuarter(pageH, t) ==> t.width <= h.width && (t.width == h.width ==> t.y >= h.y)
  {
    var p := t => InTopQuarter(pageH, t);
    var cands := Seqs.Filter(texts, p);
    forall t ensures t in cands <==> t in texts && InTopQuarter(pageH, t) {
      Seqs.FilterMembers(texts, p, t);
    }
    if |cands| > 0 {
      var h := MaxByWidth(cands);
      forall t | t in texts && InTopQuarter(pageH, t) ensures t.width <= h.width && (t.width == h.width ==> t.y >= h.y) {
        var i :| 0 <= i < |cands| && cands[i] == t;
        assert !Beats(cands[i], h);
      }
    } else {
      forall t | t in texts ensures !InTopQuarter(pageH, t) {
        assert t !in cands;
      }
    }
  }

  // ---- _find_weekly_rows ----

  predicate IsDayBox(r: Item) {
    14.0 <= r.width <= 30.0 && 14.0 <= r.height <= 30.0
  }

  /** A label candidate for box `r`: wholly above it by at least 5 and
      with its centre less than 60 to either side of the box's centre. */
  predicate LabelFits(t: Item, r: Item) {
    var d := (t.x + t.width / 2.0) - (r.x + r.width / 2.0);
    t.y + t.height <= r.y - 5.0 && -60.0 < d < 60.0
  }

  function Dy(t: Item, r: Item): real { r.y - t.y }

  /** The scan over `texts` keeping the fitting text with the strictly
      smallest `dy`, provided `dy <= 80`; `bestDy` starts at `1e9`. */
  function BestLabelFrom(texts: seq<Item>, r: Item, best: Option<Item>, bestDy: real): (res: (Option<Item>, real))
    ensures res.1 <= bestDy
    ensures res == (best, bestDy) || (res.0.Some? && res.0.value in texts && LabelFits(res.0.value, r)
                                      && Dy(res.0.value, r) == res.1 && res.1 <= 80.0)
    ensures forall i :: 0 <= i < |texts| && LabelFits(texts[i], r) && Dy(texts[i], r) <= 80.0 ==> res.1 <= Dy(texts[i], r)
  {
    if |texts| == 0 then (best, bestDy)
    else
      var t := texts[0];
      var dy := Dy(t, r);
      var next := if LabelFits(t, r) && dy < bestDy && dy <= 80.0 then (Some(t), dy) else (best, bestDy);
      var res := BestLabelFrom(texts[1..], r, next.0, next.1);
      assert forall i :: 1 <= i < |texts| ==> texts[i] == texts[1..][i - 1];
      res
  }

  /** Every fitting text before position `i` is strictly further than `dy`. */
  predicate NoneAsCloseBefore(texts: seq<Item>, r: Item, i: int, dy: real) {
    forall j :: 0 <= j < i && j < |texts| && LabelFits(texts[j], r) ==> Dy(texts[j], r) > dy
  }

  /** When the scan replaces its starting choice, it ends on the first text
      reaching the final `dy`: every fitting text before it is strictly
      further away. */
  lemma {:induction false} BestLabelFromFirst(texts: seq<Item>, r: Item, best: Option<Item>, bestDy: real)
    ensures var res := BestLabelFrom(texts, r, best, bestDy);
            res == (best, bestDy)
            || (res.1 < bestDy
                && exists i :: 0 <= i < |texts| && res.0 == Some(texts[i]) && NoneAsCloseBefore(texts, r, i, res.1))
    decreases |texts|
  {
    if |texts| > 0 {
      var t := texts[0];
      var dy := Dy(t, r);
      var next := if LabelFits(t, r) && dy < bestDy && dy <= 80.0 then (Some(t), dy) else (best, bestDy);
      BestLabelFromFirst(texts[1..], r, next.0, next.1);
      BestLabelFirstStep(texts, r, best, bestDy, next);
    }
  }

  /** One step of the scan keeps the first-among-ties property. */
  lemma BestLabelFirstStep(texts: seq<Item>, r: Item, best: Option<Item>, bestDy: real, next: (Option<Item>, real))
    requires |texts| > 0
    requires next == if LabelFits(texts[0], r) && Dy(texts[0], r) < bestDy && Dy(texts[0], r) <= 80.0
                     then (Some(texts[0]), Dy(texts[0], r)) else (best, bestDy)
    requires var res := BestLabelFrom(texts[1..], r, next.0, next.1);
             res == next
             || (res.1 < next.1
                 && exists i :: 0 <= i < |texts[1..]| && res.0 == Some(texts[1..][i]) && NoneAsCloseBefore(texts[1..], r, i, res.1))
    ensures var res := BestLabelFrom(texts, r, best, bestDy);
            res == (best, bestDy)
            || (res.1 < bestDy
                && exists i :: 0 <= i < |texts| && res.0 == Some(texts[i]) && NoneAsCloseBefore(texts, r, i, res.1))
  {
    var res := BestLabelFrom(texts, r, best, bestDy);
    assert res == BestLabelFrom(texts[1..], r, next.0, next.1);
    if res == next {
      if next != (best, bestDy) {
        assert res.0 == Some(texts[0]) && NoneAsCloseBefore(texts, r, 0, res.1);
      }
    } else {
      var i :| 0 <= i < |texts[1..]| && res.0 == Some(texts[1..][i]) && NoneAsCloseBefore(texts[1..], r, i, res.1);
      CloserThanAllBefore(texts, r, i, res.1);
      assert res.0 == Some(texts[i + 1]);
    }
  }

  /** A text closer than every fitting one before it in the tail, and closer
      than the head when the head fits, is closer than all before it. */
  lemma CloserThanAllBefore(texts: seq<Item>, r: Item, i: nat, dy: real)
    requires i + 1 < |texts|
    requires NoneAsCloseBefore(texts[1..], r, i, dy)
    requires LabelFits(texts[0], r) ==> Dy(texts[0], r) > dy
    ensures NoneAsCloseBefore(texts, r, i + 1, dy)
  {
    forall j | 0 < j < i + 1 && LabelFits(texts[j], r) ensures Dy(texts[j], r) > dy {
      assert texts[j] == texts[1..][j - 1];
    }
  }

  function BestLabel(texts: seq<Item>, r: Item): Option<Item> {
    BestLabelFrom(texts, r, None, 1000000000.0).0
  }

  /** A label is a fitting text no more than 80 above the box and no
      fitting text is closer; among equally close texts the first wins.
      There is none only when no fitting text lies within 80. */
  lemma BestLabelCorrect(texts: seq<Item>, r: Item)
    ensures BestLabel(texts, r).Some? ==>
              var t := BestLabel(texts, r).value;
              && t in texts && LabelFits(t, r) && Dy(t, r) <= 80.0
              && forall u :: u in texts && LabelFits(u, r) && Dy(u, r) <= 80.0 ==> Dy(t, r) <= Dy(u, r)
    ensures BestLabel(texts, r).Some? ==>
              exists i :: 0 <= i < |texts| && texts[i] == BestLabel(texts, r).value
                          && forall j :: 0 <= j < i && LabelFits(texts[j], r) ==> Dy(texts[j], r) > Dy(texts[i], r)
    ensures BestLabel(texts, r).None? ==> forall u :: u in texts && LabelFits(u, r) ==> Dy(u, r) > 80.0
  {
    var res := BestLabelFrom(texts, r, None, 1000000000.0);
    BestLabelFromFirst(texts, r, None, 1000000000.0);
    if res.0.None? {
      forall u | u in texts && LabelFits(u, r) ensures Dy(u, r) > 80.0 {
        var i :| 0 <= i < |texts| && texts[i] == u;
      }
    } else {
      forall u | u in texts && LabelFits(u, r) && Dy(u, r) <= 80.0 ensures Dy(res.0.value, r) <= Dy(u, r) {
        var i :| 0 <= i < |texts| && texts[i] == u;
      }
    }
  }

  /** The labels found for the boxes, skipping boxes without one. */
  function Labels(boxes: seq<Item>, texts: seq<Item>): (r: seq<Item>)
    ensures |r| <= |boxes|
  {
    if |boxes| == 0 then []
    else
      var l := BestLabel(texts, boxes[0]);
      (if l.Some? then [l.value] else []) + Labels(boxes[1..], texts)
  }

  /** The seven leftmost boxes of a cluster, left to right. */
  function Leftmost(row: seq<Item>): (r: seq<Item>)
    ensures |r| == if |row| < 7 then |row| else 7
  {
    Seqs.SliceTo(StableSort.SortBy(row, X), 7)
  }

  /** Leftmost takes boxes from the row, in ascending `x`, and no box
      left behind lies further left than a box taken. */
  lemma LeftmostCorrect(row: seq<Item>)
    ensures var sorted := StableSort.SortBy(row, X);
            && multiset(Leftmost(row)) + multiset(sorted[|Leftmost(row)|..]) == multiset(row)
            && (forall i, j :: 0 <= i < j < |Leftmost(row)| ==> Leftmost(row)[i].x <= Leftmost(row)[j].x)
            && (forall i, j :: 0 <= i < |Leftmost(row)| <= j < |sorted| ==> Leftmost(row)[i].x <= sorted[j].x)
  {
    var sorted := StableSort.SortBy(row, X);
    var r := Leftmost(row);
    assert r == sorted[..|r|];
    SortedPrefix(sorted, |r|);
  }

  /** A prefix of a sequence sorted by `x` is sorted and lies left of the
      rest, and together with the rest it holds the same items. */
  lemma SortedPrefix(sorted: seq<Item>, n: nat)
    requires StableSort.SortedBy(sorted, X) && n <= |sorted|
    ensures multiset(sorted[..n]) + multiset(sorted[n..]) == multiset(sorted)
    ensures forall i, j :: 0 <= i < j < n ==> sorted[..n][i].x <= sorted[..n][j].x
    ensures forall i, j :: 0 <= i < n <= j < |sorted| ==> sorted[..n][i].x <= sorted[j].x
  {
    assert sorted == sorted[..n] + sorted[n..];
    forall i, j | 0 <= i < j < |sorted|
      ensures sorted[i].x <= sorted[j].x
    {
      assert X(sorted[i]) <= X(sorted[j]);
    }
  }

  datatype Extracted =
    | HeaderBlock(text: Item, page: int)
    | WeeklyRow(rects: seq<Item>, labels: seq<Item>, page: int)
    | NotesBlock(rect: Item, caption: Option<Item>, page: int)

  /** A cluster holds a week when it has at least seven boxes. */
  predicate HoldsWeek(cluster: seq<Item>) { |cluster| >= 7 }

  /** The row a week-holding cluster yields: its seven leftmost boxes with
      their labels. */
  function RowOf(cluster: seq<Item>, texts: seq<Item>, page: int): Extracted {
    var row7 := Leftmost(cluster);
    WeeklyRow(row7, Labels(row7, texts), page)
  }

  /** The rows of the clustering that hold at least seven boxes. */
  function RowsFrom(clusters: seq<seq<Item>>, texts: seq<Item>, page: int): (r: seq<Extracted>)
    ensures |r| <= |clusters|
    ensures forall i :: 0 <= i < |r| ==> r[i].WeeklyRow? && r[i].page == page && |r[i].rects| == 7 && |r[i].labels| <= 7
  {
    if |clusters| == 0 then []
    else
      var rest := RowsFrom(clusters[1..], texts, page);
      if |clusters[0]| < 7 then rest
      else [RowOf(clusters[0], texts, page)] + rest
  }

  /** The rows are those of the week-holding clusters, one each, in cluster
      order. */
  lemma {:induction false} RowsFromFilter(clusters: seq<seq<Item>>, texts: seq<Item>, page: int)
    ensures var r := RowsFrom(clusters, texts, page);
            var f := Seqs.Filter(clusters, HoldsWeek);
            |r| == |f| && forall k :: 0 <= k < |r| ==> r[k] == RowOf(f[k], texts, page)
    decreases |clusters|
  {
    if |clusters| > 0 {
      var c, tail := clusters[0], clusters[1..];
      RowsFromFilter(tail, texts, page);
      assert clusters == [c] + tail;
      Seqs.FilterConcat([c], tail, HoldsWeek);
      assert [c][..0] == [];
      assert Seqs.Filter([c], HoldsWeek) == if HoldsWeek(c) then [c] else [];
    }
  }

  /** Row `k` comes from the `k`-th week-holding cluster: the clusters used
      sit at increasing positions, and a cluster is used exactly when it has
      at least seven boxes. So there is one row per such cluster. */
  lemma RowsFromCorrect(clusters: seq<seq<Item>>, texts: seq<Item>, page: int)
    ensures var r := RowsFrom(clusters, texts, page);
            var ix := Seqs.Positions(clusters, HoldsWeek);
            && |r| == |ix|
            && (forall k :: 0 <= k < |r| ==> ix[k] < |clusters| && r[k] == RowOf(clusters[ix[k]], texts, page))
            && (forall k, l :: 0 <= k < l < |r| ==> ix[k] < ix[l])
            && (forall i :: 0 <= i < |clusters| ==> (|clusters[i]| >= 7 <==> i in ix))
  {
    RowsFromFilter(clusters, texts, page);
  }

  /** A row is produced for a cluster exactly when it holds at least seven
      boxes. */
  lemma RowsFromMembers(clusters: seq<seq<Item>>, texts: seq<Item>, page: int, x: Extracted)
    ensures x in RowsFrom(clusters, texts, page)
        <==> exists k :: 0 <= k < |clusters| && |clusters[k]| >= 7 && x == RowOf(clusters[k], texts, page)
  {
    var r := RowsFrom(clusters, texts, page);
    var ix := Seqs.Positions(clusters, HoldsWeek);
    RowsFromCorrect(clusters, texts, page);
    if x in r {
      var m :| 0 <= m < |r| && r[m] == x;
      assert ix[m] in ix;
    }
    if exists k :: 0 <= k < |clusters| && |clusters[k]| >= 7 && x == RowOf(clusters[k], texts, page) {
      var k :| 0 <= k < |clusters| && |clusters[k]| >= 7 && x == RowOf(clusters[k], texts, page);
      assert k in ix;
      var m :| 0 <= m < |ix| && ix[m] == k;
      assert r[m] == x;
    }
  }

  /** `_find_weekly_rows`, with the page index the caller attaches. */
  function FindWeeklyRows(rects: seq<Item>, texts: seq<Item>, page: int): (r: seq<Extracted>)
    ensures forall i :: 0 <= i < |r| ==> r[i].WeeklyRow? && r[i].page == page && |r[i].rects| == 7 && |r[i].labels| <= 7
    ensures var clusters := GroupByY(Seqs.Filter(rects, IsDayBox), 25.0);
            var ix := Seqs.Positions(clusters, HoldsWeek);
            |r| == |ix| && forall k :: 0 <= k < |r| ==> ix[k] < |clusters| && r[k] == RowOf(clusters[ix[k]], texts, page)
  {
    var clusters := GroupByY(Seqs.Filter(rects, IsDayBox), 25.0);
    RowsFromCorrect(clusters, texts, page);
    RowsFrom(clusters, texts, page)
  }

  /** The day boxes are clustered into rows by `y` (tolerance 25), and each
      cluster of at least seven boxes yields exactly one weekly row, in
      cluster order. */
  lemma FindWeeklyRowsCorrect(rects: seq<Item>, texts: seq<Item>, page: int, x: Extracted)
    ensures var clusters := GroupByY(Seqs.Filter(rects, IsDayBox), 25.0);
            var r := FindWeeklyRows(rects, texts, page);
            && |r| == |Seqs.Positions(clusters, HoldsWeek)|
            && (x in r <==> exists k :: 0 <= k < |clusters| && |clusters[k]| >= 7 && x == RowOf(clusters[k], texts, page))
  {
    var clusters := GroupByY(Seqs.Filter(rects, IsDayBox), 25.0);
    RowsFromCorrect(clusters, texts, page);
    RowsFromMembers(clusters, texts, page, x);
  }

  /** Every item of `xs` is a day-sized rectangle taken from `rects`. */
  predicate DayBoxesOf(xs: seq<Item>, rects: seq<Item>) {
    forall i :: 0 <= i < |xs| ==> xs[i] in rects && IsDayBox(xs[i])
  }

  lemma DayBoxesSub(xs: seq<Item>, ys: seq<Item>, rects: seq<Item>)
    requires multiset(xs) <= multiset(ys) && DayBoxesOf(ys, rects)
    ensures DayBoxesOf(xs, rects)
  {
    forall i | 0 <= i < |xs| ensures xs[i] in rects && IsDayBox(xs[i]) {
      assert xs[i] in multiset(ys);
      var k :| 0 <= k < |ys| && ys[k] == xs[i];
    }
  }

  lemma LeftmostDayBoxes(row: seq<Item>, rects: seq<Item>)
    requires DayBoxesOf(row, rects)
    ensures DayBoxesOf(Leftmost(row), rects)
  {
    LeftmostCorrect(row);
    DayBoxesSub(Leftmost(row), row, rects);
  }

  /** Rows are built from their cluster's boxes only. */
  lemma {:induction false} RowsUseDayBoxes(clusters: seq<seq<Item>>, texts: seq<Item>, page: int, rects: seq<Item>)
    requires forall k :: 0 <= k < |clusters| ==> DayBoxesOf(clusters[k], rects)
    ensures forall i :: 0 <= i < |RowsFrom(clusters, texts, page)| ==> DayBoxesOf(RowsFrom(clusters, texts, page)[i].rects, rects)
    decreases |clusters|
  {
    if |clusters| > 0 {
      var rest := RowsFrom(clusters[1..], texts, page);
      RowsUseDayBoxes(clusters[1..], texts, page, rects);
      if |clusters[0]| >= 7 {
        var r := RowsFrom(clusters, texts, page);
        LeftmostDayBoxes(clusters[0], rects);
        assert forall i :: 1 <= i < |r| ==> r[i] == rest[i - 1];
      }
    }
  }

  /** Weekly rows hold day-sized rectangles of the input only. */
  lemma WeeklyRowsUseDayBoxes(rects: seq<Item>, texts: seq<Item>, page: int)
    ensures var r := FindWeeklyRows(rects, texts, page);
            forall i :: 0 <= i < |r| ==> DayBoxesOf(r[i].rects, rects)
  {
    var small := Seqs.Filter(rects, IsDayBox);
    var clusters := GroupByY(small, 25.0);
    GroupByYPartitions(small, 25.0);
    assert DayBoxesOf(small, rects) by {
      forall i | 0 <= i < |small| ensures small[i] in rects {
        Seqs.FilterMembers(rects, IsDayBox, small[i]);
      }
    }
    forall k | 0 <= k < |clusters| ensures DayBoxesOf(clusters[k], rects) {
      Seqs.FlattenHolds(clusters, k);
      DayBoxesSub(clusters[k], small, rects);
    }
    RowsUseDayBoxes(clusters, texts, page, rects);
  }

  // ---- _find_notes ----

  predicate IsNotesBox(r: Item) { r.width >= 200.0 && r.height >= 100.0 }

  /** A text mentioning "note" (any case) within 80 vertically of the box
      and starting no more than 40 right of its left edge. */
  predicate IsNotesLabel(t: Item, r: Item) {
    var d := t.y - r.y;
    && Text.Contains(Text.Lower(Text.Strip(t.props.text.GetOr(""))), "note")
    && -80.0 <= d <= 80.0 && t.x <= r.x + 40.0
  }

  function FirstLabel(texts: seq<Item>, r: Item): (res: Option<Item>)
    ensures res.Some? ==> res.value in texts && IsNotesLabel(res.value, r)
    ensures res.None? ==> forall i :: 0 <= i < |texts| ==> !IsNotesLabel(texts[i], r)
  {
    if |texts| == 0 then None
    else if IsNotesLabel(texts[0], r) then Some(texts[0])
    else
      assert forall i :: 1 <= i < |texts| ==> texts[i] == texts[1..][i - 1];
      FirstLabel(texts[1..], r)
  }

  function NotesFor(big: seq<Item>, texts: seq<Item>, page: int): (r: seq<Extracted>)
    ensures |r| == |big|
    ensures forall i :: 0 <= i < |r| ==> r[i] == NotesBlock(big[i], FirstLabel(texts, big[i]), page)
  {
    if |big| == 0 then [] else [NotesBlock(big[0], FirstLabel(texts, big[0]), page)] + NotesFor(big[1..], texts, page)
  }

  /** `_find_notes`: one notes block per big rectangle, in order. */
  function FindNotes(rects: seq<Item>, texts: seq<Item>, page: int): (r: seq<Extracted>)
    ensures OnPage(r, page)
  {
    NotesFor(Seqs.Filter(rects, IsNotesBox), texts, page)
  }

  /** There is one notes block for each rectangle at least 200 by 100,
      and its label, if any, is the first qualifying text. */
  lemma FindNotesCorrect(rects: seq<Item>, texts: seq<Item>, page: int)
    ensures var r := FindNotes(rects, texts, page);
            && |r| == |Seqs.Filter(rects, IsNotesBox)|
            && forall i :: 0 <= i < |r| ==>
                 r[i].NotesBlock? && r[i].rect in rects && IsNotesBox(r[i].rect)
                 && r[i].caption == FirstLabel(texts, r[i].rect)
  {
    var big := Seqs.Filter(rects, IsNotesBox);
    forall i | 0 <= i < |big| ensures big[i] in rects {
      Seqs.FilterMembers(rects, IsNotesBox, big[i]);
    }
  }

  // ---- _flatten_blocks_to_elements ----

  /** Fill in font defaults without overwriting what is there. */
  function WithFontDefaults(t: Item, size: real): (r: Item) {
    var p := t.props;
    t.(props := p.(fontFamily := Some(p.fontFamily.GetOr("Helvetica")),
                   fontSize := Some(p.fontSize.GetOr(size)),
                   color := Some(p.color.GetOr("#2C2C2C"))))
  }

  /** The fixed outline style; the rectangle's other properties are dropped. */
  const OutlineProps: Props := NoProps.(fill := Some("transparent"), stroke := Some("#CCCCCC"), strokeWidth := Some(0.5))

  function Outline(r: Item): Item {
    r.(props := OutlineProps)
  }

  function MapOutline(rs: seq<Item>): (r: seq<Item>)
    ensures |r| == |rs|
    ensures forall i :: 0 <= i < |r| ==> r[i] == Outline(rs[i])
  {
    if |rs| == 0 then [] else [Outline(rs[0])] + MapOutline(rs[1..])
  }

  function MapLabels(ts: seq<Item>): (r: seq<Item>)
    ensures |r| == |ts|
    ensures forall i :: 0 <= i < |r| ==> r[i] == WithFontDefaults(ts[i], 14.0)
  {
    if |ts| == 0 then [] else [WithFontDefaults(ts[0], 14.0)] + MapLabels(ts[1..])
  }

  function BlockElements(b: Extracted): seq<Item> {
    match b
    case HeaderBlock(t, _) => [WithFontDefaults(t, 36.0)]
    case WeeklyRow(rects, labels, _) => MapOutline(rects) + MapLabels(labels)
    case NotesBlock(rect, caption, _) => [Outline(rect)] + (if caption.Some? then [WithFontDefaults(caption.value, 14.0)] else [])
  }

  /** `_flatten_blocks_to_elements` */
  function FlattenBlocks(blocks: seq<Extracted>): (r: seq<Item>)
    ensures forall e :: e in r <==> exists k :: 0 <= k < |blocks| && e in BlockElements(blocks[k])
  {
    if |blocks| == 0 then []
    else
      var rest := FlattenBlocks(blocks[1..]);
      assert forall k :: 1 <= k < |blocks| ==> blocks[k] == blocks[1..][k - 1];
      BlockElements(blocks[0]) + rest
  }

  /** Defaults only fill gaps: a font, size or colour already present is
      kept; geometry and text are untouched; applying them twice changes
      nothing more. */
  lemma FontDefaultsFillOnly(t: Item, size: real)
    ensures var r := WithFontDefaults(t, size);
            && r.(props := t.props) == t
            && r.props.text == t.props.text
            && r.props.fontFamily == Some(if t.props.fontFamily.Some? then t.props.fontFamily.value else "Helvetica")
            && r.props.fontSize == Some(if t.props.fontSize.Some? then t.props.fontSize.value else size)
            && r.props.color == Some(if t.props.color.Some? then t.props.color.value else "#2C2C2C")
            && WithFontDefaults(r, size) == r
  {
  }

  /** A header flattens to its text with a 36 pt default; a notes box to
      its outline, then its label when it has one. */
  lemma BlockElementsShape(b: Extracted)
    ensures b.HeaderBlock? ==> BlockElements(b) == [WithFontDefaults(b.text, 36.0)]
    ensures b.NotesBlock? ==> BlockElements(b)[0] == b.rect.(props := OutlineProps)
                              && |BlockElements(b)| == (if b.caption.Some? then 2 else 1)
  {
  }

  /** A weekly row flattens to its outlined boxes, in order, then its
      labels with a 14 pt default. */
  lemma WeeklyRowElements(b: Extracted)
    requires b.WeeklyRow?
    ensures |BlockElements(b)| == |b.rects| + |b.labels|
    ensures forall i :: 0 <= i < |b.rects| ==> BlockElements(b)[i] == b.rects[i].(props := OutlineProps)
    ensures forall i :: 0 <= i < |b.labels| ==> BlockElements(b)[|b.rects| + i] == WithFontDefaults(b.labels[i], 14.0)
  {
    var outlines, texts := MapOutline(b.rects), MapLabels(b.labels);
    assert BlockElements(b) == outlines + texts;
    forall i | 0 <= i < |b.labels|
      ensures BlockElements(b)[|b.rects| + i] == texts[i]
    {
    }
  }

  lemma {:induction false} FlattenBlocksConcat(a: seq<Extracted>, b: seq<Extracted>)
    ensures FlattenBlocks(a + b) == FlattenBlocks(a) + FlattenBlocks(b)
    decreases |a|
  {
    if |a| == 0 {
      assert a + b == b;
    } else {
      assert (a + b)[1..] == a[1..] + b;
      FlattenBlocksConcat(a[1..], b);
    }
  }

  // ---- extract_blocks ----

  /** One analysed page; `page_index` defaults to 0. */
  datatype AnalysisPage = AnalysisPage(width: real, height: real, elements: seq<Item>, pageIndex: Option<int>)

  predicate IsText(e: Item) { e.kind == "text" }
  predicate IsRect(e: Item) { e.kind == "rectangle" }

  predicate OnPage(bs: seq<Extracted>, page: int) {
    forall i :: 0 <= i < |bs| ==> bs[i].page == page
  }

  /** The blocks of one page: its header, then its weekly rows, then its
      notes boxes, all tagged with the page index (0 when missing). */
  function PageBlocks(p: AnalysisPage): (r: seq<Extracted>)
    ensures OnPage(r, p.pageIndex.GetOr(0))
  {
    var idx := p.pageIndex.GetOr(0);
    var texts := Seqs.Filter(p.elements, IsText);
    var rects := Seqs.Filter(p.elements, IsRect);
    Assemble(FindHeader(texts, p.height), FindWeeklyRows(rects, texts, idx), FindNotes(rects, texts, idx), idx)
  }

  /** Header first, then rows, then notes boxes. */
  function Assemble(header: Option<Item>, rows: seq<Extracted>, notes: seq<Extracted>, idx: int): (r: seq<Extracted>)
    requires OnPage(rows, idx) && OnPage(notes, idx)
    ensures OnPage(r, idx)
    ensures |r| == (if header.Some? then 1 else 0) + |rows| + |notes|
    ensures header.Some? ==> r[0] == HeaderBlock(header.value, idx)
  {
    (if header.Some? then [HeaderBlock(header.value, idx)] else []) + rows + notes
  }

  function AllBlocks(pages: seq<AnalysisPage>): seq<Extracted> {
    if |pages| == 0 then [] else AllBlocks(pages[..|pages| - 1]) + PageBlocks(pages[|pages| - 1])
  }

  datatype Extraction = Extraction(blocks: seq<Extracted>, elements: seq<Item>)

  const NoPagesError: string := "no analysis pages found"

  /** `extract_blocks` after the page files are loaded (reading and
      writing the JSON files is not modelled). */
  function ExtractBlocks(pages: seq<AnalysisPage>): (r: Result<Extraction, string>)
    ensures r.Failure? <==> |pages| == 0
    ensures r.Failure? ==> r.error == NoPagesError
  {
    if |pages| == 0 then Failure(NoPagesError)
    else
      var blocks := AllBlocks(pages);
      Success(Extraction(blocks, FlattenBlocks(blocks)))
  }

  /** The page blocks come page by page in order, and the elements are
      the flattening of the blocks, page by page. */
  lemma ExtractBlocksPageByPage(pages: seq<AnalysisPage>, p: AnalysisPage)
    requires |pages| > 0
    ensures var r := ExtractBlocks(pages + [p]).value;
            && r.blocks == ExtractBlocks(pages).value.blocks + PageBlocks(p)
            && r.elements == ExtractBlocks(pages).value.elements + FlattenBlocks(PageBlocks(p))
  {
    assert (pages + [p])[..|pages|] == pages;
    FlattenBlocksConcat(AllBlocks(pages), PageBlocks(p));
  }
}

=== FILE: block_library.dfy ===
/** The in-memory block library: a map from block id to block, kept in
    insertion order as Python dicts are. A library is the sequence of its
    blocks in that order; replacing a block keeps its place. Saving blocks
    to disk is not part of this model. */
module BlockLibrary {
  import opened Wrappers
  import opened BlockSchema
  import Text
  import Seqs
  import StableSort

  type Library = seq<Block>

  /** A dict has one entry per key. */
  predicate UniqueIds(lib: Library) {
    forall i, j :: 0 <= i < j < |lib| ==> lib[i].id != lib[j].id
  }

  predicate HasId(lib: Library, id: string) {
    exists i :: 0 <= i < |lib| && lib[i].id == id
  }

  /** Position of the first block with this id. */
  function IndexOf(lib: Library, id: string): (r: Option<nat>)
    ensures r.Some? ==> r.value < |lib| && lib[r.value].id == id
    ensures r.Some? ==> forall i :: 0 <= i < r.value ==> lib[i].id != id
    ensures r.None? <==> !HasId(lib, id)
  {
    if |lib| == 0 then None
    else if lib[0].id == id then Some(0)
    else match IndexOf(lib[1..], id)
      case Some(k) => Some(k + 1)
      case None => assert forall i :: 1 <= i < |lib| ==> lib[i] == lib[1..][i - 1]; None
  }

  /** `get_block`: `self.blocks.get(block_id)` */
  function GetBlock(lib: Library, id: string): (r: Option<Block>)
    ensures r.Some? ==> r.value in lib && r.value.id == id
    ensures r.None? <==> !HasId(lib, id)
  {
    match IndexOf(lib, id)
    case Some(i) => Some(lib[i])
    case None => None
  }

  /** `add_block`: `self.blocks[block["id"]] = block`. */
  function AddBlock(lib: Library, b: Block): (r: Library)
    ensures HasId(lib, b.id) ==> |r| == |lib|
    ensures !HasId(lib, b.id) ==> r == lib + [b]
  {
    match IndexOf(lib, b.id)
    case Some(i) => lib[i := b]
    case None => lib + [b]
  }

  /** The first block carrying an id is the one `IndexOf` finds. */
  lemma IndexOfFirst(lib: Library, id: string, k: nat)
    requires k < |lib| && lib[k].id == id
    requires forall j :: 0 <= j < k ==> lib[j].id != id
    ensures IndexOf(lib, id) == Some(k)
  {
    assert HasId(lib, id);
  }

  /** After adding a block, looking up its id yields it; every other id
      resolves as before. */
  lemma AddThenGet(lib: Library, b: Block, id: string)
    ensures GetBlock(AddBlock(lib, b), b.id) == Some(b)
    ensures id != b.id ==> GetBlock(AddBlock(lib, b), id) == GetBlock(lib, id)
  {
    var r := AddBlock(lib, b);
    match IndexOf(lib, b.id)
    case Some(i) =>
      IndexOfFirst(r, b.id, i);
      if id != b.id {
        ReplaceKeepsOtherIds(lib, i, b, id);
      }
    case None =>
      IndexOfFirst(r, b.id, |lib|);
      if id != b.id {
        AppendKeepsOtherIds(lib, b, id);
      }
  }

  /** Overwriting a block with one of another id leaves the lookup of a
      third id alone. */
  lemma ReplaceKeepsOtherIds(lib: Library, i: nat, b: Block, id: string)
    requires i < |lib| && lib[i].id != id && b.id != id
    ensures GetBlock(lib[i := b], id) == GetBlock(lib, id)
  {
    var r := lib[i := b];
    match IndexOf(lib, id)
    case Some(k) => IndexOfFirst(r, id, k);
    case None =>
      assert !HasId(r, id) by {
        forall j | 0 <= j < |r| ensures r[j].id != id {
          if j != i { assert r[j] == lib[j]; }
        }
      }
  }

  /** Appending a block of another id leaves the lookup alone. */
  lemma AppendKeepsOtherIds(lib: Library, b: Block, id: string)
    requires b.id != id
    ensures GetBlock(lib + [b], id) == GetBlock(lib, id)
  {
    var r := lib + [b];
    match IndexOf(lib, id)
    case Some(k) => IndexOfFirst(r, id, k);
    case None =>
      assert !HasId(r, id) by {
        forall j | 0 <= j < |r| ensures r[j].id != id {
          if j < |lib| { assert r[j] == lib[j]; }
        }
      }
  }

  /** Adding never creates a second entry for an id. */
  lemma AddKeepsUniqueIds(lib: Library, b: Block)
    requires UniqueIds(lib)
    ensures UniqueIds(AddBlock(lib, b))
  {
    var r := AddBlock(lib, b);
    match IndexOf(lib, b.id)
    case Some(i) =>
      forall p, q | 0 <= p < q < |r| ensures r[p].id != r[q].id {
        if p == i { assert lib[q].id != lib[i].id; }
        else if q == i { assert lib[p].id != lib[i].id; }
      }
    case None =>
  }

  /** `search_blocks`' test for one block. Python truthiness makes an empty
      tag list or an empty query impose nothing. */
  predicate Matches(b: Block, category: Option<Category>, tags: Option<seq<string>>,
                    complexity: Option<Complexity>, nameQuery: Option<string>)
  {
    && (category.Some? ==> b.category == category.value.Value())
    && (complexity.Some? ==> b.complexity == complexity.value.Value())
    && (tags.Some? && |tags.value| > 0 ==> TagsOverlap(tags.value, b.tags.GetOr([])))
    && (nameQuery.Some? && |nameQuery.value| > 0 ==> TextMatches(b, nameQuery.value))
  }

  predicate TagsOverlap(wanted: seq<string>, have: seq<string>) {
    exists t :: t in wanted && t in have
  }

  /** Case-insensitive substring test on the name or the description. */
  predicate TextMatches(b: Block, query: string) {
    var q := Text.Lower(query);
    Text.Contains(Text.Lower(b.name), q) || Text.Contains(Text.Lower(b.description.GetOr("")), q)
  }

  /** The search condition as a predicate on blocks. */
  function MatchesAll(category: Option<Category>, tags: Option<seq<string>>, complexity: Option<Complexity>,
                      nameQuery: Option<string>): Block -> bool {
    (b: Block) => Matches(b, category, tags, complexity, nameQuery)
  }

  /** `search_blocks`: the matching blocks in library order. The result
      takes the library's blocks at increasing positions, and the positions
      taken are exactly those of the blocks that pass every filter. */
  function SearchBlocks(lib: Library, category: Option<Category> := None, tags: Option<seq<string>> := None,
                        complexity: Option<Complexity> := None, nameQuery: Option<string> := None): (r: Library)
    ensures |r| <= |lib|
    ensures multiset(r) <= multiset(lib)
    ensures var ix := Seqs.Positions(lib, MatchesAll(category, tags, complexity, nameQuery));
            && |ix| == |r|
            && (forall k :: 0 <= k < |r| ==> ix[k] < |lib| && r[k] == lib[ix[k]])
            && (forall k, l :: 0 <= k < l < |r| ==> ix[k] < ix[l])
            && (forall i :: 0 <= i < |lib| ==> (Matches(lib[i], category, tags, complexity, nameQuery) <==> i in ix))
  {
    var keep := MatchesAll(category, tags, complexity, nameQuery);
    Seqs.FilterSubMultiset(lib, keep);
    Seqs.Filter(lib, keep)
  }

  /** A block is returned exactly when it is in the library and passes every
      filter that was supplied. */
  lemma SearchIsExact(lib: Library, category: Option<Category>, tags: Option<seq<string>>,
                      complexity: Option<Complexity>, nameQuery: Option<string>, b: Block)
    ensures b in SearchBlocks(lib, category, tags, complexity, nameQuery)
        <==> b in lib && Matches(b, category, tags, complexity, nameQuery)
  {
    Seqs.FilterMembers(lib, b => Matches(b, category, tags, complexity, nameQuery), b);
  }

  /** Without filters (or with empty tag and query) every block comes back,
      in order. */
  lemma SearchWithoutFilters(lib: Library, tags: Option<seq<string>>, nameQuery: Option<string>)
    requires tags == None || tags == Some([])
    requires nameQuery == None || nameQuery == Some("")
    ensures SearchBlocks(lib, None, tags, None, nameQuery) == lib
  {
    Seqs.FilterAll(lib, b => Matches(b, None, tags, None, nameQuery));
  }

  /** The query is compared in lower case, so its case does not matter. */
  lemma SearchIgnoresQueryCase(lib: Library, category: Option<Category>, tags: Option<seq<string>>,
                               complexity: Option<Complexity>, q: string)
    ensures SearchBlocks(lib, category, tags, complexity, Some(q))
         == SearchBlocks(lib, category, tags, complexity, Some(Text.Lower(q)))
  {
    Text.LowerIdempotent(q);
    assert |Text.Lower(q)| == |q|;
    Seqs.FilterSamePredicate(lib, b => Matches(b, category, tags, complexity, Some(q)),
                             b => Matches(b, category, tags, complexity, Some(Text.Lower(q))));
  }

  /** The bookkeeping `update_block_stats` does to one block. */
  function Touch(b: Block, success: bool, timestamp: string): (r: Block) {
    var rate := b.successRate.GetOr(1.0);
    b.(usageCount := Some(b.usageCount.GetOr(0) + 1),
       successRate := Some(0.1 * (if success then 1.0 else 0.0) + 0.9 * rate),
       updatedAt := Some(timestamp))
  }

  /** `update_block_stats`; the timestamp is what `utcnow()` would give. */
  function UpdateBlockStats(lib: Library, id: string, success: bool, timestamp: string): (r: Library)
    ensures |r| == |lib|
    ensures !HasId(lib, id) ==> r == lib
  {
    match IndexOf(lib, id)
    case Some(i) => lib[i := Touch(lib[i], success, timestamp)]
    case None => lib
  }

  /** The updated block has one more use, a success rate moved a tenth of
      the way towards 1 or 0, and nothing else about it changes; no other
      block changes. */
  lemma UpdateBlockStatsEffect(lib: Library, id: string, success: bool, timestamp: string)
    requires HasId(lib, id)
    ensures var prev := GetBlock(lib, id).value;
            var r := UpdateBlockStats(lib, id, success, timestamp);
            var target := if success then 1.0 else 0.0;
            var before := prev.successRate.GetOr(1.0);
            && GetBlock(r, id).Some?
            && var nu := GetBlock(r, id).value;
            && nu.usageCount == Some(prev.usageCount.GetOr(0) + 1)
            && nu.successRate.Some?
            && nu.successRate.value - target == 0.9 * (before - target)
            && nu.updatedAt == Some(timestamp)
            && nu.(usageCount := prev.usageCount, successRate := prev.successRate, updatedAt := prev.updatedAt) == prev
    ensures var r := UpdateBlockStats(lib, id, success, timestamp);
            forall j :: 0 <= j < |lib| && lib[j].id != id ==> r[j] == lib[j]
  {
    var i := IndexOf(lib, id).value;
    var r := UpdateBlockStats(lib, id, success, timestamp);
    assert r[i] == Touch(lib[i], success, timestamp);
    assert IndexOf(r, id) == Some(i);
  }

  /** The moving average keeps a rate in [0, 1]. */
  lemma UpdateKeepsRateInRange(b: Block, success: bool, timestamp: string)
    requires b.successRate.Some? ==> 0.0 <= b.successRate.value <= 1.0
    ensures var r := Touch(b, success, timestamp).successRate.value; 0.0 <= r <= 1.0
  {
  }

  /** Usage as the popularity sort sees it, negated so that an ascending
      stable sort puts the most used first. */
  function NegUsage(b: Block): real {
    -(b.usageCount.GetOr(0) as real)
  }

  /** `get_popular_blocks`: the library sorted by usage (missing counts as
      0), most used first and ties in library order, cut to `limit`. */
  function PopularBlocks(lib: Library, limit: int := 10): (r: Library)
    ensures limit >= 0 ==> |r| == if limit < |lib| then limit else |lib|
    ensures limit < 0 ==> |r| == if |lib| + limit > 0 then |lib| + limit else 0
    ensures |r| <= |lib|
    ensures r == StableSort.SortBy(lib, NegUsage)[..|r|]
    ensures forall i, j :: 0 <= i < j < |r| ==> r[i].usageCount.GetOr(0) >= r[j].usageCount.GetOr(0)
  {
    var sorted := StableSort.SortBy(lib, NegUsage);
    var r := Seqs.SliceTo(sorted, limit);
    assert forall i :: 0 <= i < |r| ==> r[i] == sorted[i];
    r
  }

  /** What comes back are blocks of the library, and the result is the
      leading part of the whole library in popularity order: nothing left out
      is more popular than anything returned. */
  lemma PopularBlocksAreTheMostUsed(lib: Library, limit: int, b: Block, c: Block)
    requires b in PopularBlocks(lib, limit)
    ensures b in lib
    ensures c in lib && c !in PopularBlocks(lib, limit) ==> c.usageCount.GetOr(0) <= b.usageCount.GetOr(0)
  {
    var sorted := StableSort.SortBy(lib, NegUsage);
    var r := PopularBlocks(lib, limit);
    var i :| 0 <= i < |r| && r[i] == b;
    assert sorted[i] == b;
    SortedMembers(lib, sorted, b);
    if c in lib && c !in r {
      SortedMembers(lib, sorted, c);
      var j :| 0 <= j < |sorted| && sorted[j] == c;
      assert c !in sorted[..|r|];
      assert j >= |r|;
      assert NegUsage(sorted[i]) <= NegUsage(sorted[j]);
    }
  }

  /** Sorting by usage keeps exactly the library's blocks. */
  lemma SortedMembers(lib: Library, sorted: Library, x: Block)
    requires sorted == StableSort.SortBy(lib, NegUsage)
    ensures x in sorted <==> x in lib
  {
    assert x in sorted <==> x in multiset(sorted);
    assert x in lib <==> x in multiset(lib);
  }

  /** Blocks with equal usage keep their library order. */
  lemma PopularBlocksStable(lib: Library, usage: int)
    ensures StableSort.WithKey(StableSort.SortBy(lib, NegUsage), NegUsage, -(usage as real))
         == StableSort.WithKey(lib, NegUsage, -(usage as real))
  {
    StableSort.SortIsStable(lib, NegUsage, -(usage as real));
  }

  /** `get_high_quality_blocks`: blocks whose success rate (missing counts
      as 0) reaches the threshold, in library order. */
  function RateAtLeast(minSuccessRate: real): Block -> bool {
    (b: Block) => b.successRate.GetOr(0.0) >= minSuccessRate
  }

  function HighQualityBlocks(lib: Library, minSuccessRate: real := 0.8): (r: Library)
    ensures forall i :: 0 <= i < |r| ==> r[i].successRate.GetOr(0.0) >= minSuccessRate
    ensures var ix := Seqs.Positions(lib, RateAtLeast(minSuccessRate));
            && |ix| == |r|
            && (forall k :: 0 <= k < |r| ==> ix[k] < |lib| && r[k] == lib[ix[k]])
            && (forall k, l :: 0 <= k < l < |r| ==> ix[k] < ix[l])
            && (forall i :: 0 <= i < |lib| ==> (lib[i].successRate.GetOr(0.0) >= minSuccessRate <==> i in ix))
  {
    Seqs.Filter(lib, RateAtLeast(minSuccessRate))
  }

  lemma HighQualityIsExact(lib: Library, minSuccessRate: real, b: Block)
    ensures b in HighQualityBlocks(lib, minSuccessRate) <==> b in lib && b.successRate.GetOr(0.0) >= minSuccessRate
  {
    Seqs.FilterMembers(lib, (b: Block) => b.successRate.GetOr(0.0) >= minSuccessRate, b);
  }

  /** `import_library`: the blocks of the file are added one by one, to the
      current library when merging and to an empty one otherwise. */
  function ImportLibrary(lib: Library, imported: seq<Block>, merge: bool := true): (r: Library)
    ensures forall id :: GetBlock(r, id) == if LastWithId(imported, id).Some? then LastWithId(imported, id)
                                            else if merge then GetBlock(lib, id) else None
  {
    var r := AddAll(if merge then lib else [], imported);
    assert forall id :: GetBlock(r, id) == if LastWithId(imported, id).Some? then LastWithId(imported, id)
                                          else if merge then GetBlock(lib, id) else None by {
      forall id ensures GetBlock(r, id) == if LastWithId(imported, id).Some? then LastWithId(imported, id)
                                           else if merge then GetBlock(lib, id) else None {
        AddAllLookup(if merge then lib else [], imported, id);
      }
    }
    r
  }

  function AddAll(lib: Library, bs: seq<Block>): Library {
    if |bs| == 0 then lib else AddBlock(AddAll(lib, bs[..|bs| - 1]), bs[|bs| - 1])
  }

  /** The last block of `bs` with this id. */
  function LastWithId(bs: seq<Block>, id: string): (r: Option<Block>)
    ensures r.Some? ==> r.value in bs && r.value.id == id
    ensures r.None? ==> forall i :: 0 <= i < |bs| ==> bs[i].id != id
  {
    if |bs| == 0 then None
    else if bs[|bs| - 1].id == id then Some(bs[|bs| - 1])
    else LastWithId(bs[..|bs| - 1], id)
  }

  lemma {:induction false} AddAllLookup(lib: Library, bs: seq<Block>, id: string)
    ensures GetBlock(AddAll(lib, bs), id) == if LastWithId(bs, id).Some? then LastWithId(bs, id) else GetBlock(lib, id)
    decreases |bs|
  {
    if |bs| > 0 {
      AddAllLookup(lib, bs[..|bs| - 1], id);
      AddThenGet(AddAll(lib, bs[..|bs| - 1]), bs[|bs| - 1], id);
    }
  }

  /** After an import, an id names the last imported block carrying it;
      other ids keep their old block when merging and are gone otherwise. */
  lemma ImportLookup(lib: Library, imported: seq<Block>, merge: bool, id: string)
    ensures var r := ImportLibrary(lib, imported, merge);
            GetBlock(r, id) == if LastWithId(imported, id).Some? then LastWithId(imported, id)
                               else if merge then GetBlock(lib, id) else None
  {
    AddAllLookup(if merge then lib else [], imported, id);
  }

  lemma {:induction false} AddAllKeepsUniqueIds(lib: Library, bs: seq<Block>)
    requires UniqueIds(lib)
    ensures UniqueIds(AddAll(lib, bs))
    decreases |bs|
  {
    if |bs| > 0 {
      AddAllKeepsUniqueIds(lib, bs[..|bs| - 1]);
      AddKeepsUniqueIds(AddAll(lib, bs[..|bs| - 1]), bs[|bs| - 1]);
    }
  }

  /** Importing yields a proper dict again. */
  lemma ImportKeepsUniqueIds(lib: Library, imported: seq<Block>, merge: bool)
    requires UniqueIds(lib)
    ensures UniqueIds(ImportLibrary(lib, imported, merge))
  {
    AddAllKeepsUniqueIds(if merge then lib else [], imported);
  }

  // ---- get_library_stats ----

  /** A counting dict in first-appearance order. */
  type Counts = seq<(string, nat)>

  function CountOf(counts: Counts, k: string): nat {
    if |counts| == 0 then 0
    else if counts[0].0 == k then counts[0].1
    else CountOf(counts[1..], k)
  }

  function Total(counts: Counts): nat {
    if |counts| == 0 then 0 else counts[0].1 + Total(counts[1..])
  }

  predicate DistinctKeys(counts: Counts) {
    forall i, j :: 0 <= i < j < |counts| ==> counts[i].0 != counts[j].0
  }

  /** `counts[k] = counts.get(k, 0) + 1` */
  function Bump(counts: Counts, k: string): (r: Counts)
    ensures |r| >= |counts|
  {
    if |counts| == 0 then [(k, 1)]
    else if counts[0].0 == k then [(k, counts[0].1 + 1)] + counts[1..]
    else [counts[0]] + Bump(counts[1..], k)
  }

  lemma {:induction false} BumpEffect(counts: Counts, k: string, other: string)
    requires DistinctKeys(counts)
    ensures DistinctKeys(Bump(counts, k))
    ensures CountOf(Bump(counts, k), k) == CountOf(counts, k) + 1
    ensures other != k ==> CountOf(Bump(counts, k), other) == CountOf(counts, other)
    ensures Total(Bump(counts, k)) == Total(counts) + 1
    ensures KeySet(Bump(counts, k)) == KeySet(counts) + {k}
    decreases |counts|
  {
    if |counts| > 0 {
      var r := Bump(counts, k);
      KeySetCons(counts);
      KeySetCons(r);
      if counts[0].0 != k {
        BumpEffect(counts[1..], k, other);
        assert r == [counts[0]] + Bump(counts[1..], k);
        DistinctHead(counts);
        DistinctCons(counts[0], Bump(counts[1..], k));
      } else {
        assert r[1..] == counts[1..];
      }
    }
  }

  /** The first key of a counting dict without repeated keys is not among
      the rest. */
  lemma DistinctHead(counts: Counts)
    requires |counts| > 0 && DistinctKeys(counts)
    ensures DistinctKeys(counts[1..]) && counts[0].0 !in KeySet(counts[1..])
  {
    forall j | 0 <= j < |counts[1..]|
      ensures counts[1..][j].0 != counts[0].0
    {
      assert counts[1..][j] == counts[j + 1];
    }
  }

  /** A new key in front of a counting dict keeps its keys distinct. */
  lemma DistinctCons(head: (string, nat), tail: Counts)
    requires DistinctKeys(tail) && head.0 !in KeySet(tail)
    ensures DistinctKeys([head] + tail)
  {
    var r := [head] + tail;
    forall i, j | 0 <= i < j < |r|
      ensures r[i].0 != r[j].0
    {
      if i == 0 {
        assert r[j] == tail[j - 1];
        assert r[j].0 in KeySet(tail);
      } else {
        assert r[i] == tail[i - 1] && r[j] == tail[j - 1];
      }
    }
  }

  /** The keys a counting dict holds. */
  function KeySet(counts: Counts): set<string> {
    set i | 0 <= i < |counts| :: counts[i].0
  }

  lemma KeySetCons(counts: Counts)
    requires |counts| > 0
    ensures KeySet(counts) == {counts[0].0} + KeySet(counts[1..])
  {
    forall x | x in KeySet(counts) ensures x in {counts[0].0} + KeySet(counts[1..]) {
      var i :| 0 <= i < |counts| && counts[i].0 == x;
      if i > 0 { assert counts[1..][i - 1] == counts[i]; }
    }
    forall x | x in KeySet(counts[1..]) ensures x in KeySet(counts) {
      var i :| 0 <= i < |counts[1..]| && counts[1..][i].0 == x;
      assert counts[i + 1].0 == x;
    }
  }

  /** Counting the keys one by one, as the loops over `self.blocks` do. */
  function CountBy(keys: seq<string>): (r: Counts) {
    if |keys| == 0 then [] else Bump(CountBy(keys[..|keys| - 1]), keys[|keys| - 1])
  }

  /** Each key is counted as often as it occurs, no key twice, and the
      counts add up to the number of blocks. */
  lemma {:induction false} CountByCorrect(keys: seq<string>, k: string)
    ensures DistinctKeys(CountBy(keys))
    ensures CountOf(CountBy(keys), k) == multiset(keys)[k]
    ensures Total(CountBy(keys)) == |keys|
    decreases |keys|
  {
    if |keys| > 0 {
      var init := keys[..|keys| - 1];
      CountByCorrect(init, k);
      BumpEffect(CountBy(init), keys[|keys| - 1], k);
      assert keys == init + [keys[|keys| - 1]];
    }
  }

  function CategoryKeys(lib: Library): (r: seq<string>)
    ensures |r| == |lib|
  {
    if |lib| == 0 then [] else CategoryKeys(lib[..|lib| - 1]) + [lib[|lib| - 1].category]
  }

  function ComplexityKeys(lib: Library): (r: seq<string>)
    ensures |r| == |lib|
  {
    if |lib| == 0 then [] else ComplexityKeys(lib[..|lib| - 1]) + [lib[|lib| - 1].complexity]
  }

  /** Sum of success rates, a missing rate counting as 0. */
  function RateSum(lib: Library): real {
    if |lib| == 0 then 0.0 else RateSum(lib[..|lib| - 1]) + lib[|lib| - 1].successRate.GetOr(0.0)
  }

  /** Sum of usage counts, a missing count counting as 0. */
  function UsageSum(lib: Library): int {
    if |lib| == 0 then 0 else UsageSum(lib[..|lib| - 1]) + lib[|lib| - 1].usageCount.GetOr(0)
  }

  datatype LibraryStats = LibraryStats(
    totalBlocks: nat,
    categories: Counts,
    complexity: Counts,
    averageSuccessRate: real,
    totalUsage: int)

  /** `get_library_stats` */
  function LibraryStatsOf(lib: Library): (r: LibraryStats)
    ensures r.totalBlocks == |lib|
    ensures |lib| == 0 ==> r.averageSuccessRate == 0.0 && r.totalUsage == 0
  {
    LibraryStats(|lib|, CountBy(CategoryKeys(lib)), CountBy(ComplexityKeys(lib)),
                 if |lib| > 0 then RateSum(lib) / (|lib| as real) else 0.0,
                 UsageSum(lib))
  }

  /** Category and complexity counts both add up to the number of blocks and
      count each value as often as blocks carry it. */
  lemma StatsCountsAddUp(lib: Library, cat: string)
    ensures Total(LibraryStatsOf(lib).categories) == LibraryStatsOf(lib).totalBlocks
    ensures Total(LibraryStatsOf(lib).complexity) == LibraryStatsOf(lib).totalBlocks
    ensures DistinctKeys(LibraryStatsOf(lib).categories)
    ensures CountOf(LibraryStatsOf(lib).categories, cat) == multiset(CategoryKeys(lib))[cat]
  {
    CountByCorrect(CategoryKeys(lib), cat);
    CountByCorrect(ComplexityKeys(lib), cat);
  }

  lemma {:induction false} RateSumBounds(lib: Library)
    requires forall i :: 0 <= i < |lib| ==> 0.0 <= lib[i].successRate.GetOr(0.0) <= 1.0
    ensures 0.0 <= RateSum(lib) <= |lib| as real
    decreases |lib|
  {
    if |lib| > 0 {
      RateSumBounds(lib[..|lib| - 1]);
    }
  }

  /** When every stored rate lies in [0, 1], so does the average. */
  lemma AverageRateInRange(lib: Library)
    requires forall i :: 0 <= i < |lib| ==> 0.0 <= lib[i].successRate.GetOr(0.0) <= 1.0
    ensures 0.0 <= LibraryStatsOf(lib).averageSuccessRate <= 1.0
  {
    RateSumBounds(lib);
    if |lib| > 0 {
      assert LibraryStatsOf(lib).averageSuccessRate == RateSum(lib) / (|lib| as real);
      ShareInUnitRange(RateSum(lib), |lib| as real);
    }
  }

  lemma ShareInUnitRange(part: real, whole: real)
    requires whole > 0.0 && 0.0 <= part <= whole
    ensures 0.0 <= part / whole <= 1.0
  {
    assert part / whole * whole == part;
  }
}

=== FILE: block_renderer.dfy ===
/** Drawing a block composition: where each block element lands on the
    page, which elements produce a drawing at all, and the bleed box
    written afterwards.  The canvas is replaced by the list of drawing
    commands each page receives, in order; colours, fonts and line weights
    are not modelled. */
module BlockRenderer {
  import opened Wrappers
  import opened BlockSchema
  import BlockLibrary
  import Sizes
  import Text

  /** One placement as read from a composition page; every key may be
      missing. */
  datatype Placement = Placement(blockId: Option<string>, x: Option<real>, y: Option<real>,
                                 width: Option<real>, height: Option<real>)

  /** A box in page coordinates. */
  datatype Frame = Frame(x: real, y: real, width: real, height: real)

  /** The drawing commands the renderer issues. */
  datatype Draw =
    | DrawText(x: real, y: real, content: string, centred: bool)
    | DrawLine(x1: real, y1: real, x2: real, y2: real)
    | DrawRect(frame: Frame)
    | DrawCircle(cx: real, cy: real, radius: real)
    | DrawCheckbox(frame: Frame)

  /** A PDF rectangle given by its left, bottom, right and top edges. */
  datatype PdfBox = PdfBox(left: real, bottom: real, right: real, top: real)

  datatype Rendered = Rendered(pageWidth: real, pageHeight: real, pages: seq<seq<Draw>>, bleedBoxes: seq<PdfBox>)

  const UnknownTrim: string := "unknown trim key"

  // ------------------------------------------------------- coordinate mapping

  /** `target / original if original > 0 else 1.0` */
  function Scale(target: real, original: real): (r: real)
    ensures original > 0.0 ==> r * original == target
    ensures original <= 0.0 ==> r == 1.0
  {
    if original > 0.0 then target / original else 1.0
  }

  /** Where an element of a block lands when the block's origin is put at
      `(xo, yo)` and its size is stretched by `(sx, sy)`. */
  function MapElement(e: BlockElement, xo: real, yo: real, sx: real, sy: real): Frame {
    Frame(xo + e.x * sx, yo + e.y * sy, e.width * sx, e.height * sy)
  }

  // ------------------------------------------------------- per-element drawing

  predicate StartsWith(s: string, prefix: string) { prefix <= s }

  /** A pure template placeholder such as `{{date}}`. */
  predicate IsPlaceholder(content: string) {
    |content| > 0 && Text.Contains(content, "{{") && Text.Contains(content, "}}")
    && StartsWith(Text.Strip(content), "{{")
  }

  /** Text that draws nothing: empty, or only a placeholder. */
  predicate SkipsText(content: string) {
    content == "" || IsPlaceholder(content)
  }

  /** `_render_text`: centred on the box when it has a width. */
  function TextDraw(content: string, f: Frame): (r: Draw)
    ensures r.DrawText? && r.content == content && r.y == f.y
    ensures r.centred <==> f.width > 0.0
    ensures r.centred ==> r.x - f.x == f.x + f.width - r.x
    ensures !r.centred ==> r.x == f.x
  {
    if f.width > 0.0 then DrawText(f.x + f.width / 2.0, f.y, content, true)
    else DrawText(f.x, f.y, content, false)
  }

  /** `_render_line`: horizontal along the width when the box is wider
      than tall, vertical along the height otherwise. */
  function LineDraw(f: Frame): (r: Draw)
    ensures r.DrawLine? && r.x1 == f.x && r.y1 == f.y
    ensures r.y2 == r.y1 <== f.width > f.height
    ensures f.width > f.height ==> r.x2 - r.x1 == f.width
    ensures f.width <= f.height ==> r.x2 == r.x1 && r.y2 - r.y1 == f.height
  {
    if f.width > f.height then DrawLine(f.x, f.y, f.x + f.width, f.y)
    else DrawLine(f.x, f.y, f.x, f.y + f.height)
  }

  /** `_render_circle`: centred in the box, with half the box's width as
      radius, so it spans the box horizontally. */
  function CircleDraw(f: Frame): (r: Draw)
    ensures r.DrawCircle?
    ensures r.cx - r.radius == f.x && r.cx + r.radius == f.x + f.width
    ensures r.cy - f.y == f.y + f.height - r.cy
  {
    DrawCircle(f.x + f.width / 2.0, f.y + f.height / 2.0, f.width / 2.0)
  }

  /** What one element draws once mapped to `f`: nothing for an unknown
      type or for skipped text. */
  function DrawElement(e: BlockElement, f: Frame): (r: seq<Draw>)
    ensures |r| <= 1
  {
    if e.kind == "text" then
      var content := e.content.GetOr("");
      if SkipsText(content) then [] else [TextDraw(content, f)]
    else if e.kind == "line" then [LineDraw(f)]
    else if e.kind == "rectangle" then [DrawRect(f)]
    else if e.kind == "circle" then [CircleDraw(f)]
    else if e.kind == "checkbox" then [DrawCheckbox(f)]
    else []
  }

  predicate Drawable(kind: string) {
    kind == "text" || kind == "line" || kind == "rectangle" || kind == "circle" || kind == "checkbox"
  }

  /** The elements of a block in order, each mapped and drawn. */
  function DrawElements(els: seq<BlockElement>, xo: real, yo: real, sx: real, sy: real): (r: seq<Draw>)
    ensures |r| <= |els|
  {
    if |els| == 0 then []
    else DrawElements(els[..|els| - 1], xo, yo, sx, sy) + DrawMapped(els[|els| - 1], xo, yo, sx, sy)
  }

  function DrawMapped(e: BlockElement, xo: real, yo: real, sx: real, sy: real): (r: seq<Draw>)
    ensures |r| <= 1
  {
    DrawElement(e, MapElement(e, xo, yo, sx, sy))
  }

  /** `_render_block`: the block's nominal size is stretched to the
      placement's size. */
  function RenderBlock(b: Block, xo: real, yo: real, w: real, h: real): seq<Draw> {
    DrawElements(b.elements, xo, yo, Scale(w, b.dimensions.width), Scale(h, b.dimensions.height))
  }

  /** One placement: nothing when its block is not in the library;
      position defaults to the origin and size to the block's own. */
  function RenderPlacement(lib: BlockLibrary.Library, p: Placement): (r: seq<Draw>)
    ensures p.blockId.None? || !BlockLibrary.HasId(lib, p.blockId.value) ==> r == []
    ensures p.blockId.Some? && BlockLibrary.HasId(lib, p.blockId.value) ==>
              |r| <= |BlockLibrary.GetBlock(lib, p.blockId.value).value.elements|
  {
    var found := if p.blockId.Some? then BlockLibrary.GetBlock(lib, p.blockId.value) else None;
    match found
    case None => []
    case Some(b) =>
      RenderBlock(b, p.x.GetOr(0.0), p.y.GetOr(0.0),
                  p.width.GetOr(b.dimensions.width), p.height.GetOr(b.dimensions.height))
  }

  /** A page's drawings, placement by placement: the drawings of every
      leading run of placements come first, in the same order. */
  function RenderPage(lib: BlockLibrary.Library, ps: seq<Placement>): (r: seq<Draw>)
    ensures forall k :: 0 <= k <= |ps| ==> RenderPage(lib, ps[..k]) <= r
  {
    if |ps| == 0 then []
    else
      var init := ps[..|ps| - 1];
      var r := RenderPage(lib, init) + RenderPlacement(lib, ps[|ps| - 1]);
      assert forall k :: 0 <= k < |ps| ==> ps[..k] == init[..k];
      assert forall k :: 0 <= k < |ps| ==> RenderPage(lib, ps[..k]) == RenderPage(lib, init[..k]);
      assert RenderPage(lib, init) <= r;
      assert ps[..|ps|] == ps;
      r
  }

  // ------------------------------------------------------- bleed box

  /** `_add_bleedbox`: the media box widened by `bleed` on every side and
      then clipped to the trim page `[0, w] x [0, h]`. */
  function BleedBox(media: PdfBox, w: real, h: real, bleed: real): (r: PdfBox)
    ensures r.left >= 0.0 && r.bottom >= 0.0 && r.right <= w && r.top <= h
  {
    PdfBox(if 0.0 >= media.left - bleed then 0.0 else media.left - bleed,
           if 0.0 >= media.bottom - bleed then 0.0 else media.bottom - bleed,
           if w <= media.right + bleed then w else media.right + bleed,
           if h <= media.top + bleed then h else media.top + bleed)
  }

  // ------------------------------------------------------- whole composition

  /** `render_composition`: an unknown trim key fails before anything is
      drawn; otherwise each page gets the drawings of its placements, and
      with `setBleedbox` every page (whose media box is the trim page)
      gets a bleed box. */
  function RenderComposition(lib: BlockLibrary.Library, pages: seq<seq<Placement>>,
                             trimKey: string := "6x9", setBleedbox: bool := true,
                             bleed: real := 9.0): (r: Result<Rendered, string>)
    ensures r.Failure? <==> !Sizes.Known(trimKey)
    ensures r.Failure? ==> r.error == UnknownTrim
    ensures r.Success? ==> |r.value.pages| == |pages|
    ensures r.Success? ==> r.value.pageWidth == 432.0 && r.value.pageHeight == 648.0
    ensures r.Success? ==> |r.value.bleedBoxes| == if setBleedbox then |pages| else 0
  {
    match Sizes.Lookup(trimKey)
    case None => Failure(UnknownTrim)
    case Some(conf) =>
      var drawn := seq(|pages|, i requires 0 <= i < |pages| => RenderPage(lib, pages[i]));
      var media := PdfBox(0.0, 0.0, conf.width, conf.height);
      var boxes := if setBleedbox then seq(|pages|, i => BleedBox(media, conf.width, conf.height, bleed)) else [];
      Success(Rendered(conf.width, conf.height, drawn, boxes))
  }

  // ------------------------------------------------------- lemmas

  /** An element filling its block fills the placement exactly. */
  lemma FullElementFillsPlacement(b: Block, e: BlockElement, xo: real, yo: real, w: real, h: real)
    requires b.dimensions.width > 0.0 && b.dimensions.height > 0.0
    requires e.x == 0.0 && e.y == 0.0 && e.width == b.dimensions.width && e.height == b.dimensions.height
    ensures MapElement(e, xo, yo, Scale(w, b.dimensions.width), Scale(h, b.dimensions.height))
            == Frame(xo, yo, w, h)
  {
  }

  /** An element inside its block (with positive nominal size) stays
      inside the placement it is drawn into. */
  lemma MappedElementStaysInside(b: Block, e: BlockElement, xo: real, yo: real, w: real, h: real)
    requires b.dimensions.width > 0.0 && b.dimensions.height > 0.0 && w >= 0.0 && h >= 0.0
    requires 0.0 <= e.x && 0.0 <= e.width && e.x + e.width <= b.dimensions.width
    requires 0.0 <= e.y && 0.0 <= e.height && e.y + e.height <= b.dimensions.height
    ensures var f := MapElement(e, xo, yo, Scale(w, b.dimensions.width), Scale(h, b.dimensions.height));
      xo <= f.x && f.x + f.width <= xo + w && yo <= f.y && f.y + f.height <= yo + h
  {
    var sx := Scale(w, b.dimensions.width);
    var sy := Scale(h, b.dimensions.height);
    assert sx >= 0.0 && sy >= 0.0;
    assert (e.x + e.width) * sx <= b.dimensions.width * sx;
    assert (e.y + e.height) * sy <= b.dimensions.height * sy;
  }

  /** A block drawn at its own size is only moved, not stretched. */
  lemma NominalSizeOnlyTranslates(b: Block, e: BlockElement, xo: real, yo: real)
    ensures MapElement(e, xo, yo, Scale(b.dimensions.width, b.dimensions.width),
                       Scale(b.dimensions.height, b.dimensions.height))
            == Frame(xo + e.x, yo + e.y, e.width, e.height)
  {
  }

  /** Exactly the five known element types draw, and text only when it is
      not skipped. */
  lemma DrawElementIff(e: BlockElement, f: Frame)
    ensures |DrawElement(e, f)| == 1
        <==> Drawable(e.kind) && !(e.kind == "text" && SkipsText(e.content.GetOr("")))
  {
  }

  /** Drawing a block's elements keeps their order: the drawings of a
      prefix come first. */
  lemma {:induction false} DrawElementsConcat(a: seq<BlockElement>, c: seq<BlockElement>,
                                              xo: real, yo: real, sx: real, sy: real)
    ensures DrawElements(a + c, xo, yo, sx, sy) == DrawElements(a, xo, yo, sx, sy) + DrawElements(c, xo, yo, sx, sy)
    decreases |c|
  {
    if |c| == 0 {
      assert a + c == a;
    } else {
      var n := |c| - 1;
      assert (a + c)[..|a + c| - 1] == a + c[..n];
      DrawElementsConcat(a, c[..n], xo, yo, sx, sy);
    }
  }

  /** Elements of unknown types draw nothing and do not disturb the rest. */
  lemma UnknownElementsDrawNothing(a: seq<BlockElement>, e: BlockElement, c: seq<BlockElement>,
                                   xo: real, yo: real, sx: real, sy: real)
    requires !Drawable(e.kind)
    ensures DrawElements(a + [e] + c, xo, yo, sx, sy) == DrawElements(a + c, xo, yo, sx, sy)
  {
    DrawElementIff(e, MapElement(e, xo, yo, sx, sy));
    assert DrawMapped(e, xo, yo, sx, sy) == [];
    assert [e][..0] == [];
    assert DrawElements([e], xo, yo, sx, sy) == [];
    DrawElementsConcat(a + [e], c, xo, yo, sx, sy);
    DrawElementsConcat(a, [e], xo, yo, sx, sy);
    DrawElementsConcat(a, c, xo, yo, sx, sy);
  }

  /** Text whose first character is visible and not a brace is drawn,
      even when a placeholder follows it (`"Date: {{date}}"`). */
  lemma LeadingTextIsDrawn(content: string)
    requires |content| > 0 && !Text.IsSpace(content[0]) && content[0] != '{'
    ensures !SkipsText(content)
  {
    var stripped := Text.Strip(content);
    assert Text.TrimLeft(content) == content;
    if |stripped| > 0 {
      assert stripped[0] == content[0];
    }
  }

  /** A placement whose block is missing from the library adds nothing. */
  lemma MissingBlocksAreSkipped(lib: BlockLibrary.Library, ps: seq<Placement>, p: Placement)
    requires p.blockId.None? || !BlockLibrary.HasId(lib, p.blockId.value)
    ensures RenderPage(lib, ps + [p]) == RenderPage(lib, ps)
  {
    assert (ps + [p])[..|ps|] == ps;
  }

  /** A placement of a known block draws that block at the given spot, at
      its own size unless the placement overrides it. */
  lemma KnownBlocksAreDrawn(lib: BlockLibrary.Library, ps: seq<Placement>, p: Placement, b: Block)
    requires p.blockId.Some? && BlockLibrary.GetBlock(lib, p.blockId.value) == Some(b)
    ensures RenderPage(lib, ps + [p]) == RenderPage(lib, ps)
      + RenderBlock(b, p.x.GetOr(0.0), p.y.GetOr(0.0),
                    p.width.GetOr(b.dimensions.width), p.height.GetOr(b.dimensions.height))
  {
    assert (ps + [p])[..|ps|] == ps;
  }

  /** With the media box equal to the trim page, the clipped bleed box is
      the media box itself whatever the bleed. */
  lemma FullPageBleedBoxIsMediaBox(w: real, h: real, bleed: real)
    requires w >= 0.0 && h >= 0.0 && bleed >= 0.0
    ensures BleedBox(PdfBox(0.0, 0.0, w, h), w, h, bleed) == PdfBox(0.0, 0.0, w, h)
  {
  }

  /** A media box inside the page stays inside its bleed box, and each
      side moves out by exactly `bleed` when the page leaves room. */
  lemma BleedBoxContainsMedia(media: PdfBox, w: real, h: real, bleed: real)
    requires bleed >= 0.0
    requires 0.0 <= media.left && 0.0 <= media.bottom && media.right <= w && media.top <= h
    ensures var r := BleedBox(media, w, h, bleed);
      && r.left <= media.left && r.bottom <= media.bottom && media.right <= r.right && media.top <= r.top
      && (media.left >= bleed ==> r.left == media.left - bleed)
      && (media.right + bleed <= w ==> r.right == media.right + bleed)
  {
  }

  /** Every page of a 6x9 rendering gets the whole page as bleed box. */
  lemma RenderedBleedBoxesArePage(lib: BlockLibrary.Library, pages: seq<seq<Placement>>, bleed: real)
    requires bleed >= 0.0
    ensures var r := RenderComposition(lib, pages, "6x9", true, bleed);
      r.Success? && forall i :: 0 <= i < |r.value.bleedBoxes| ==> r.value.bleedBoxes[i] == PdfBox(0.0, 0.0, 432.0, 648.0)
  {
    FullPageBleedBoxIsMediaBox(432.0, 648.0, bleed);
  }

  /** Each page's drawings are those of its placements, in order. */
  lemma RenderedPagesFollowPlacements(lib: BlockLibrary.Library, pages: seq<seq<Placement>>,
                                      setBleedbox: bool, bleed: real, i: nat)
    requires i < |pages|
    ensures var r := RenderComposition(lib, pages, "6x9", setBleedbox, bleed);
      r.Success? && r.value.pages[i] == RenderPage(lib, pages[i])
  {
  }
}

=== FILE: block_schema.dfy ===
/** Layout blocks: reusable page components with a category, a complexity,
    a nominal size and a list of visual elements. A block is a record here;
    JSON keys that the code reads with a default are `Option`s. */
module BlockSchema {
  import opened Wrappers

  datatype Category =
    | Header | Footer | Calendar | HabitTracker | WeeklyPlanner | MonthlyPlanner
    | GoalTracker | NoteSection | Checklist | TimeBlock | Grid | Lined | DotGrid
    | Divider | TextBox | QuoteBox
  {
    /** The enum's string value, which is what a block stores. */
    function Value(): string {
      match this
      case Header => "header"
      case Footer => "footer"
      case Calendar => "calendar"
      case HabitTracker => "habit_tracker"
      case WeeklyPlanner => "weekly_planner"
      case MonthlyPlanner => "monthly_planner"
      case GoalTracker => "goal_tracker"
      case NoteSection => "note_section"
      case Checklist => "checklist"
      case TimeBlock => "time_block"
      case Grid => "grid"
      case Lined => "lined"
      case DotGrid => "dot_grid"
      case Divider => "divider"
      case TextBox => "text_box"
      case QuoteBox => "quote_box"
    }
  }

  /** `BlockCategory(value)`: the member whose value is `s`, if any. */
  function CategoryOf(s: string): (r: Option<Category>)
    ensures r.Some? ==> r.value.Value() == s
  {
    if s == "header" then Some(Header)
    else if s == "footer" then Some(Footer)
    else if s == "calendar" then Some(Calendar)
    else if s == "habit_tracker" then Some(HabitTracker)
    else if s == "weekly_planner" then Some(WeeklyPlanner)
    else if s == "monthly_planner" then Some(MonthlyPlanner)
    else if s == "goal_tracker" then Some(GoalTracker)
    else if s == "note_section" then Some(NoteSection)
    else if s == "checklist" then Some(Checklist)
    else if s == "time_block" then Some(TimeBlock)
    else if s == "grid" then Some(Grid)
    else if s == "lined" then Some(Lined)
    else if s == "dot_grid" then Some(DotGrid)
    else if s == "divider" then Some(Divider)
    else if s == "text_box" then Some(TextBox)
    else if s == "quote_box" then Some(QuoteBox)
    else None
  }

  /** Every member's value parses back to that member. */
  lemma CategoryOfValue(c: Category)
    ensures CategoryOf(c.Value()) == Some(c)
  {
  }

  datatype Complexity = Simple | Moderate | Complex {
    function Value(): string {
      match this
      case Simple => "simple"
      case Moderate => "moderate"
      case Complex => "complex"
    }
  }

  function ComplexityOf(s: string): Option<Complexity> {
    if s == "simple" then Some(Simple)
    else if s == "moderate" then Some(Moderate)
    else if s == "complex" then Some(Complex)
    else None
  }

  lemma ComplexityValueRoundTrip(c: Complexity, s: string)
    ensures ComplexityOf(c.Value()) == Some(c)
    ensures ComplexityOf(s).Some? ==> ComplexityOf(s).value.Value() == s
  {
  }

  /** Nominal block size in points and whether each side may stretch. */
  datatype Dimensions = Dimensions(width: real, height: real, flexibleWidth: Option<bool>, flexibleHeight: Option<bool>)

  /** One visual element, positioned relative to the block's origin. */
  datatype BlockElement = BlockElement(kind: string, x: real, y: real, width: real, height: real, content: Option<string>)

  datatype Block = Block(
    id: string,
    name: string,
    category: string,
    complexity: string,
    description: Option<string>,
    tags: Option<seq<string>>,
    dimensions: Dimensions,
    elements: seq<BlockElement>,
    parameters: Option<map<string, string>>,
    usageCount: Option<int>,
    successRate: Option<real>,
    createdAt: Option<string>,
    updatedAt: Option<string>,
    source: Option<string>)

  /** The dimensions a block gets when none are given. */
  const DefaultDimensions: Dimensions := Dimensions(400.0, 100.0, Some(true), Some(true))

  /** `create_block`: the identifier and the two timestamps are what
      `uuid4()` and the two `utcnow()` calls would produce, passed in. */
  function CreateBlock(id: string, created: string, updated: string, name: string, category: Category, complexity: Complexity,
                       elements: seq<BlockElement>, description: string := "", tags: Option<seq<string>> := None,
                       dimensions: Option<Dimensions> := None, parameters: Option<map<string, string>> := None,
                       source: string := "manual"): (b: Block)
    ensures b.id == id && b.name == name && b.elements == elements
    ensures CategoryOf(b.category) == Some(category) && ComplexityOf(b.complexity) == Some(complexity)
    ensures b.description == Some(description)
    ensures b.tags == Some(if tags.Some? then tags.value else [])
    ensures b.usageCount == Some(0) && b.successRate == Some(1.0)
    ensures b.createdAt == Some(created) && b.updatedAt == Some(updated)
    ensures dimensions.Some? ==> b.dimensions == dimensions.value
    ensures dimensions.None? ==> b.dimensions.width == 400.0 && b.dimensions.height == 100.0
                                 && b.dimensions.flexibleWidth == Some(true) && b.dimensions.flexibleHeight == Some(true)
    ensures parameters.Some? ==> b.parameters == parameters
    ensures parameters.None? ==> b.parameters == Some(map[])
    ensures b.source == Some(source)
  {
    CategoryOfValue(category);
    ComplexityValueRoundTrip(complexity, "");
    Block(id, name, category.Value(), complexity.Value(), Some(description), Some(tags.GetOr([])),
          dimensions.GetOr(DefaultDimensions), elements, Some(parameters.GetOr(map[])),
          Some(0), Some(1.0), Some(created), Some(updated), Some(source))
  }

  /** What the schema asks of a stored block that the code relies on. */
  predicate Conforms(b: Block) {
    && CategoryOf(b.category).Some?
    && ComplexityOf(b.complexity).Some?
    && (b.usageCount.Some? ==> b.usageCount.value >= 0)
    && (b.successRate.Some? ==> 0.0 <= b.successRate.value <= 1.0)
    && (b.source.Some? ==> b.source.value in ["manual", "extracted", "ai_generated"])
  }

  /** A created block conforms (when its source is one of the three the
      schema allows), starts unused with a perfect rate, and has the
      400 x 100 flexible size and empty tags and parameters unless given. */
  lemma CreatedBlockConforms(id: string, created: string, updated: string, name: string, category: Category, complexity: Complexity,
                             elements: seq<BlockElement>, source: string)
    requires source in ["manual", "extracted", "ai_generated"]
    ensures var b := CreateBlock(id, created, updated, name, category, complexity, elements, source := source);
            && Conforms(b)
            && b.dimensions.width == 400.0 && b.dimensions.height == 100.0
            && b.dimensions.flexibleWidth == Some(true) && b.dimensions.flexibleHeight == Some(true)
            && b.tags == Some([]) && b.parameters == Some(map[])
            && b.source == Some(source)
    ensures CreateBlock(id, created, updated, name, category, complexity, elements).source == Some("manual")
  {
  }
}

=== FILE: cover.dfy ===
/** Cover sizing: a wrap-around cover is two trim panels plus a spine whose
    width grows with the page count at a per-paper rate, plus bleed on the
    outer edges. */
module Cover {
  import opened Wrappers
  import Sizes

  datatype CoverDims = CoverDims(widthPt: real, heightPt: real, spinePt: real)

  /** The `ValueError`s `compute_cover_dims` raises. */
  datatype CoverError = UnknownTrimKey(key: string) | UnknownPaper(paper: string)

  /** Spine inches per page for each paper stock. */
  function SpineInPerPage(paper: string): (r: Option<real>)
    ensures r.Some? <==> paper == "white" || paper == "cream" || paper == "color"
    ensures r.Some? ==> r.value > 0.0
  {
    if paper == "white" then Some(0.002252)
    else if paper == "cream" then Some(0.0025)
    else if paper == "color" then Some(0.002347)
    else None
  }

  /** `compute_cover_dims`: the trim key is checked before the paper. */
  function ComputeCoverDims(trimKey: string, pageCount: int, paper: string, bleedPt: real): (r: Result<CoverDims, CoverError>)
    ensures !Sizes.Known(trimKey) ==> r == Failure(UnknownTrimKey(trimKey))
    ensures Sizes.Known(trimKey) && SpineInPerPage(paper).None? ==> r == Failure(UnknownPaper(paper))
    ensures r.Success? <==> Sizes.Known(trimKey) && SpineInPerPage(paper).Some?
  {
    if trimKey !in Sizes.Table() then Failure(UnknownTrimKey(trimKey))
    else if SpineInPerPage(paper).None? then Failure(UnknownPaper(paper))
    else
      var trim := Sizes.Table()[trimKey];
      var spinePt := pageCount as real * SpineInPerPage(paper).value * Sizes.Inch;
      Success(CoverDims(2.0 * trim.width + spinePt + 2.0 * bleedPt, trim.height + 2.0 * bleedPt, spinePt))
  }

  /** The full width is the two trim panels, the spine and the bleed on
      both outer edges; the height is one trim height plus bleed top and
      bottom, with no spine in it. */
  lemma CoverLayout(trimKey: string, pageCount: int, paper: string, bleedPt: real)
    requires Sizes.Known(trimKey) && SpineInPerPage(paper).Some?
    ensures var d := ComputeCoverDims(trimKey, pageCount, paper, bleedPt).value;
            var trim := Sizes.Table()[trimKey];
            && d.widthPt - d.spinePt == 2.0 * (trim.width + bleedPt)
            && d.heightPt - 2.0 * bleedPt == trim.height
            && d.spinePt == pageCount as real * SpineInPerPage(paper).value * 72.0
  {
  }

  /** More pages never make the cover narrower. */
  lemma WidthMonotoneInPages(trimKey: string, paper: string, bleedPt: real, p: int, q: int)
    requires Sizes.Known(trimKey) && SpineInPerPage(paper).Some?
    requires p <= q
    ensures ComputeCoverDims(trimKey, p, paper, bleedPt).value.widthPt
            <= ComputeCoverDims(trimKey, q, paper, bleedPt).value.widthPt
    ensures ComputeCoverDims(trimKey, p, paper, bleedPt).value.spinePt
            <= ComputeCoverDims(trimKey, q, paper, bleedPt).value.spinePt
  {
    var rate := SpineInPerPage(paper).value;
    assert p as real * rate <= q as real * rate by {
      assert (q as real - p as real) * rate >= 0.0;
    }
  }

  /** The height depends on neither the page count nor the paper. */
  lemma HeightIgnoresPagesAndPaper(trimKey: string, bleedPt: real, p: int, paper1: string, q: int, paper2: string)
    requires Sizes.Known(trimKey)
    requires SpineInPerPage(paper1).Some? && SpineInPerPage(paper2).Some?
    ensures ComputeCoverDims(trimKey, p, paper1, bleedPt).value.heightPt
            == ComputeCoverDims(trimKey, q, paper2, bleedPt).value.heightPt
  {
  }

  /** A 100-page 6x9 book on white paper with 9 pt bleed: the spine is
      100 x 0.002252 in = 16.2144 pt, the width 864 + 16.2144 + 18 pt and
      the height 648 + 18 pt. */
  lemma SixByNineWhiteExample()
    ensures ComputeCoverDims("6x9", 100, "white", 9.0)
            == Success(CoverDims(898.2144, 666.0, 16.2144))
  {
  }
}

=== FILE: cover_validator.dfy ===
/** The cover validator: a single-page check of the cover PDF against the
    dimensions the cover sizing computes. */
module CoverValidator {
  import opened Wrappers
  import opened Levels
  import Cover

  /** What the PDF library exposes of a cover PDF: the encryption flag and
      each page's media-box width and height. */
  datatype CoverPdf = CoverPdf(encrypted: bool, pageSizes: seq<(real, real)>)

  datatype CoverMessage =
    | NotSinglePage(count: nat)
    | SizeMismatch(width: real, height: real, expectedWidth: real, expectedHeight: real)
    | Encrypted

  datatype CoverIssue = CoverIssue(level: Level, message: CoverMessage)

  datatype CoverReport = CoverReport(
    ok: bool,
    widthPt: real,
    heightPt: real,
    expectedWidthPt: real,
    expectedHeightPt: real,
    expectedSpinePt: real,
    issues: seq<CoverIssue>)

  /** Why `validate_cover` raises: the sizing rejected its arguments, or the
      PDF has no page to read (the source indexes page 0 unconditionally). */
  datatype CoverFailure = BadArguments(error: Cover.CoverError) | NoPages

  const Tolerance: real := 0.5

  function Abs(x: real): real {
    if x < 0.0 then -x else x
  }

  predicate SizeOff(w: real, h: real, d: Cover.CoverDims) {
    Abs(w - d.widthPt) > Tolerance || Abs(h - d.heightPt) > Tolerance
  }

  predicate AnyError(issues: seq<CoverIssue>) {
    exists i :: 0 <= i < |issues| && issues[i].level == Error
  }

  /** `validate_cover`: the sizing is computed first, so bad arguments fail
      before the file is looked at; then the page count, the size of page 1
      and the encryption flag are checked in that order. */
  function ValidateCover(pdf: CoverPdf, trimKey: string, pageCount: int, paper: string, bleedPt: real)
    : (r: Result<CoverReport, CoverFailure>)
    ensures Cover.ComputeCoverDims(trimKey, pageCount, paper, bleedPt).Failure? ==>
              r == Failure(BadArguments(Cover.ComputeCoverDims(trimKey, pageCount, paper, bleedPt).error))
    ensures Cover.ComputeCoverDims(trimKey, pageCount, paper, bleedPt).Success? ==>
              (r == Failure(NoPages) <==> |pdf.pageSizes| == 0)
    ensures r.Success? ==>
              var d := Cover.ComputeCoverDims(trimKey, pageCount, paper, bleedPt).value;
              && r.value.expectedWidthPt == d.widthPt
              && r.value.expectedHeightPt == d.heightPt
              && r.value.expectedSpinePt == d.spinePt
              && (r.value.widthPt, r.value.heightPt) == pdf.pageSizes[0]
              && (r.value.ok <==> !AnyError(r.value.issues))
  {
    match Cover.ComputeCoverDims(trimKey, pageCount, paper, bleedPt)
    case Failure(e) => Failure(BadArguments(e))
    case Success(d) =>
      if |pdf.pageSizes| == 0 then Failure(NoPages)
      else
        var (w, h) := pdf.pageSizes[0];
        var issues :=
          (if |pdf.pageSizes| != 1 then [CoverIssue(Error, NotSinglePage(|pdf.pageSizes|))] else [])
          + (if SizeOff(w, h, d) then [CoverIssue(Error, SizeMismatch(w, h, d.widthPt, d.heightPt))] else [])
          + (if pdf.encrypted then [CoverIssue(Error, Encrypted)] else []);
        Success(CoverReport(!AnyError(issues), w, h, d.widthPt, d.heightPt, d.spinePt, issues))
  }

  /** Each check contributes one error exactly when it fails, and the cover
      is ok exactly when it is one unencrypted page within 0.5 pt of the
      expected size. */
  lemma CoverOkIff(pdf: CoverPdf, trimKey: string, pageCount: int, paper: string, bleedPt: real)
    requires ValidateCover(pdf, trimKey, pageCount, paper, bleedPt).Success?
    ensures var rep := ValidateCover(pdf, trimKey, pageCount, paper, bleedPt).value;
            var d := Cover.ComputeCoverDims(trimKey, pageCount, paper, bleedPt).value;
            var (w, h) := pdf.pageSizes[0];
            && (CoverIssue(Error, NotSinglePage(|pdf.pageSizes|)) in rep.issues <==> |pdf.pageSizes| != 1)
            && (CoverIssue(Error, SizeMismatch(w, h, d.widthPt, d.heightPt)) in rep.issues <==> SizeOff(w, h, d))
            && (CoverIssue(Error, Encrypted) in rep.issues <==> pdf.encrypted)
            && (rep.ok <==> |pdf.pageSizes| == 1 && !SizeOff(w, h, d) && !pdf.encrypted)
  {
    var rep := ValidateCover(pdf, trimKey, pageCount, paper, bleedPt).value;
    if rep.issues != [] {
      assert rep.issues[0].level == Error;
    }
  }
}

=== FILE: export_api.dfy ===
/** Exporting a visual-editor design to PDF: the output file name, the page
    size and the offset that makes room for bleed, the order elements are
    drawn in, where each lands, and where page breaks go.  The drawing
    itself is left to the canvas; only the circle geometry it is handed
    is modelled. */
module ExportApi {
  import opened Wrappers
  import Text
  import StableSort

  /** One element of a design page.  Styling properties are not modelled. */
  datatype DesignElement = DesignElement(id: string, kind: string, x: real, y: real,
                                         width: real, height: real, zIndex: int)

  datatype DesignPage = DesignPage(pageNumber: int, elements: seq<DesignElement>)

  /** A design; its id may be missing. */
  datatype Design = Design(id: Option<string>, name: string, pageWidth: real, pageHeight: real,
                           pages: seq<DesignPage>)

  /** One exported page: the elements in drawing order, already moved to
      the output page, and whether a page break follows. */
  datatype ExportedPage = ExportedPage(elements: seq<DesignElement>, pageBreak: bool)

  datatype ExportPlan = ExportPlan(filename: string, pageWidth: real, pageHeight: real,
                                   offsetX: real, offsetY: real, pages: seq<ExportedPage>)

  // ------------------------------------------------------- file name

  /** How Python's f-string prints the optional id. */
  function IdText(id: Option<string>): string {
    if id.Some? then id.value else "None"
  }

  /** `f"{name.replace(' ', '_')}_{id}.pdf"`: the name without spaces, an
      underscore, the id and the extension. */
  function ExportFilename(name: string, id: Option<string>): (r: string)
    ensures |r| == |name| + |IdText(id)| + 5
    ensures ' ' !in r[..|name|]
    ensures forall i :: 0 <= i < |name| && name[i] != ' ' ==> r[i] == name[i]
    ensures r[|name|] == '_' && r[|name| + 1..|r| - 4] == IdText(id) && r[|r| - 4..] == ".pdf"
  {
    Text.ReplaceChar(name, ' ', '_') + "_" + IdText(id) + ".pdf"
  }

  // ------------------------------------------------------- page set-up

  /** The offset that makes room for bleed: the bleed itself, or nothing. */
  function Offset(includeBleed: bool, bleedPt: real): (r: real)
    ensures includeBleed ==> r == bleedPt
    ensures !includeBleed ==> r == 0.0
  {
    if includeBleed then bleedPt else 0.0
  }

  /** The page grows by the offset on both sides. */
  function PageExtent(designExtent: real, includeBleed: bool, bleedPt: real): (r: real)
    ensures r - 2.0 * Offset(includeBleed, bleedPt) == designExtent
  {
    if includeBleed then designExtent + 2.0 * bleedPt else designExtent
  }

  // ------------------------------------------------------- one page

  function ZKey(e: DesignElement): real { e.zIndex as real }

  /** `sorted(page.elements, key=lambda e: e.z_index)` */
  function DrawingOrder(els: seq<DesignElement>): (r: seq<DesignElement>)
    ensures StableSort.SortedBy(r, ZKey)
    ensures multiset(r) == multiset(els)
  {
    StableSort.SortBy(els, ZKey)
  }

  /** A copy of the element moved by `(dx, dy)`. */
  function Shift(e: DesignElement, dx: real, dy: real): (r: DesignElement)
    ensures r.x - e.x == dx && r.y - e.y == dy
    ensures r.(x := e.x, y := e.y) == e
  {
    e.(x := e.x + dx, y := e.y + dy)
  }

  function ShiftAll(els: seq<DesignElement>, dx: real, dy: real): (r: seq<DesignElement>)
    ensures |r| == |els|
    ensures forall i :: 0 <= i < |els| ==> r[i] == Shift(els[i], dx, dy)
  {
    seq(|els|, i requires 0 <= i < |els| => Shift(els[i], dx, dy))
  }

  /** One page: its elements in z order, each moved by the offset, and a
      page break when its number is below the page count. */
  function ExportPage(p: DesignPage, dx: real, dy: real, pageCount: int): (r: ExportedPage)
    ensures r.pageBreak <==> p.pageNumber < pageCount
    ensures |r.elements| == |p.elements|
  {
    ExportedPage(ShiftAll(DrawingOrder(p.elements), dx, dy), p.pageNumber < pageCount)
  }

  /** `export_to_pdf`, up to the canvas calls. */
  function ExportToPdf(design: Design, includeBleed: bool := true, bleedPt: real := 9.0): (r: ExportPlan)
    ensures r.filename == ExportFilename(design.name, design.id)
    ensures r.offsetX == r.offsetY == Offset(includeBleed, bleedPt)
    ensures r.pageWidth - 2.0 * r.offsetX == design.pageWidth
    ensures r.pageHeight - 2.0 * r.offsetY == design.pageHeight
    ensures |r.pages| == |design.pages|
  {
    var off := Offset(includeBleed, bleedPt);
    ExportPlan(ExportFilename(design.name, design.id),
               PageExtent(design.pageWidth, includeBleed, bleedPt),
               PageExtent(design.pageHeight, includeBleed, bleedPt),
               off, off,
               seq(|design.pages|, i requires 0 <= i < |design.pages| =>
                     ExportPage(design.pages[i], off, off, |design.pages|)))
  }

  // ------------------------------------------------------- circle

  /** The circle drawn for an element: centred in its box, with half the
      shorter side as radius. */
  function CircleGeometry(e: DesignElement): (r: (real, real, real))
    ensures r.0 - e.x == e.x + e.width - r.0
    ensures r.1 - e.y == e.y + e.height - r.1
    ensures 2.0 * r.2 == e.width || 2.0 * r.2 == e.height
    ensures 2.0 * r.2 <= e.width && 2.0 * r.2 <= e.height
  {
    var radius := (if e.width <= e.height then e.width else e.height) / 2.0;
    (e.x + e.width / 2.0, e.y + e.height / 2.0, radius)
  }

  // ------------------------------------------------------- lemmas

  /** A name without underscores can be read back from the file name. */
  lemma FilenameNameRoundTrip(name: string, id: Option<string>)
    requires '_' !in name
    ensures Text.ReplaceChar(ExportFilename(name, id)[..|name|], '_', ' ') == name
  {
    var r := ExportFilename(name, id);
    var back := Text.ReplaceChar(r[..|name|], '_', ' ');
    forall i | 0 <= i < |name|
      ensures back[i] == name[i]
    {
      if name[i] == ' ' {
        assert r[i] == '_';
      } else {
        assert r[i] == name[i];
      }
    }
  }

  /** Without bleed the page keeps the design size and nothing moves. */
  lemma NoBleedKeepsDesign(design: Design, bleedPt: real, i: nat, j: nat)
    requires i < |design.pages| && j < |design.pages[i].elements|
    ensures var r := ExportToPdf(design, false, bleedPt);
      && r.pageWidth == design.pageWidth && r.pageHeight == design.pageHeight
      && r.pages[i].elements[j] == DrawingOrder(design.pages[i].elements)[j]
  {
    var r := ExportToPdf(design, false, bleedPt);
    var ordered := DrawingOrder(design.pages[i].elements);
    assert r.pages[i] == ExportPage(design.pages[i], 0.0, 0.0, |design.pages|);
    assert r.pages[i].elements[j] == Shift(ordered[j], 0.0, 0.0);
  }

  /** Moving back by the offset recovers the drawing order, so each page
      draws exactly its own elements, sizes unchanged. */
  lemma ExportedElementsAreShiftedOriginals(design: Design, includeBleed: bool, bleedPt: real, i: nat)
    requires i < |design.pages|
    ensures var r := ExportToPdf(design, includeBleed, bleedPt);
      var out := r.pages[i].elements;
      && ShiftAll(out, -r.offsetX, -r.offsetY) == DrawingOrder(design.pages[i].elements)
      && multiset(ShiftAll(out, -r.offsetX, -r.offsetY)) == multiset(design.pages[i].elements)
      && forall j :: 0 <= j < |out| ==>
           out[j].width == DrawingOrder(design.pages[i].elements)[j].width
           && out[j].height == DrawingOrder(design.pages[i].elements)[j].height
  {
    var r := ExportToPdf(design, includeBleed, bleedPt);
    var off := r.offsetX;
    var ordered := DrawingOrder(design.pages[i].elements);
    assert r.pages[i] == ExportPage(design.pages[i], off, off, |design.pages|);
    var out := r.pages[i].elements;
    assert |out| == |ordered|;
    forall j | 0 <= j < |out|
      ensures Shift(out[j], -off, -off) == ordered[j]
    {
      assert out[j] == Shift(ordered[j], off, off);
    }
  }

  /** Elements are drawn in non-decreasing z order, and elements sharing a
      z index keep their order on the page. */
  lemma DrawingOrderIsStable(els: seq<DesignElement>, z: int)
    ensures forall i, j :: 0 <= i < j < |DrawingOrder(els)| ==>
      DrawingOrder(els)[i].zIndex <= DrawingOrder(els)[j].zIndex
    ensures StableSort.WithKey(DrawingOrder(els), ZKey, z as real) == StableSort.WithKey(els, ZKey, z as real)
  {
    var r := DrawingOrder(els);
    forall i, j | 0 <= i < j < |r|
      ensures r[i].zIndex <= r[j].zIndex
    {
      assert ZKey(r[i]) <= ZKey(r[j]);
    }
    StableSort.SortIsStable(els, ZKey, z as real);
  }

  /** With pages numbered 1, 2, ..., n a break follows every page but the
      last. */
  lemma PageBreaksBetweenNumberedPages(design: Design, includeBleed: bool, bleedPt: real)
    requires forall i :: 0 <= i < |design.pages| ==> design.pages[i].pageNumber == i + 1
    ensures var r := ExportToPdf(design, includeBleed, bleedPt);
      forall i :: 0 <= i < |r.pages| ==> (r.pages[i].pageBreak <==> i < |r.pages| - 1)
  {
    var r := ExportToPdf(design, includeBleed, bleedPt);
    forall i | 0 <= i < |r.pages|
      ensures r.pages[i].pageBreak <==> i < |r.pages| - 1
    {
      assert r.pages[i] == ExportPage(design.pages[i], r.offsetX, r.offsetX, |design.pages|);
    }
  }

  /** The circle stays inside an element box of non-negative size and
      touches its shorter sides. */
  lemma CircleFitsBox(e: DesignElement)
    requires e.width >= 0.0 && e.height >= 0.0
    ensures var c := CircleGeometry(e);
      && e.x <= c.0 - c.2 && c.0 + c.2 <= e.x + e.width
      && e.y <= c.1 - c.2 && c.1 + c.2 <= e.y + e.height
      && c.2 >= 0.0
  {
  }
}

=== FILE: kdp_validator.dfy ===
/** The interior print validator: one sequential pass over an already parsed
    PDF that yields an ordered list of issues and an `ok` flag.

    Parsing is outside the model: a `Document` is what the PDF library
    exposes (encryption flag, header version, and per page the boxes, the
    rotation, whether annotations exist, and the font and XObject resources). */
module KdpValidator {
  import opened Wrappers
  import opened Levels
  import Text
  import Sizes

  /** A PDF rectangle; width and height are `right - left` and `top - bottom`. */
  datatype Rect = Rect(left: real, bottom: real, right: real, top: real) {
    function Width(): real { right - left }
    function Height(): real { top - bottom }
  }

  /** Which font-program entries the font descriptor carries. */
  datatype FontDescriptor = FontDescriptor(fontFile: bool, fontFile2: bool, fontFile3: bool)

  /** A `/Font` resource: its `/BaseFont` name as the library prints it
      (leading slash included), its `/Subtype` name and its descriptor. */
  datatype Font = Font(baseFont: Option<string>, subtype: string, descriptor: Option<FontDescriptor>)

  /** An `/XObject` resource: `/Subtype` name and declared pixel size. */
  datatype XObject = XObject(subtype: string, widthPx: Option<int>, heightPx: Option<int>)

  /** A page's `/Resources` (an absent dictionary is the empty one). */
  datatype Resources = Resources(fonts: seq<Font>, xobjects: seq<XObject>)

  datatype Page = Page(
    mediaBox: Rect,
    trimBox: Option<Rect>,
    bleedBox: Option<Rect>,
    rotation: int,
    hasAnnots: bool,
    resources: Resources)

  datatype Document = Document(encrypted: bool, version: Option<(int, int)>, pages: seq<Page>)

  /** What each issue says; page numbers are 1-based as in the messages. */
  datatype Message =
    | Encrypted
    | HeaderVersion(major: int, minor: int)
    | VersionAbove17
    | PageCountBelowMinimum(count: nat)
    | PageCountAboveMaximum(count: nat)
    | SizeMismatch(page: nat, width: real, height: real, trimKey: string, trimWidth: real, trimHeight: real)
    | DiffersFromFirst(page: nat, firstWidth: real, firstHeight: real)
    | TrimOutsideMedia(page: nat)
    | TrimOutsideBleed(page: nat)
    | BleedOutsideMedia(page: nat)
    | LandscapePages(count: nat)
    | RotatedPages(count: nat)
    | AnnotatedPages(count: nat)
    | ImageObjects(count: nat)
    | SmallImages(count: nat)
    | Type3Fonts(names: set<string>)
    | NonEmbeddedFonts(names: set<string>)
    | SubsetFonts(names: set<string>)

  datatype Issue = Issue(level: Level, message: Message)

  datatype Report = Report(ok: bool, trimKey: string, pageCount: nat, pageSize: (real, real), issues: seq<Issue>)

  /** The `ValueError` raised for a trim key missing from the size table. */
  datatype UnknownTrimKey = UnknownTrimKey(key: string)

  const MinPages: nat := 24
  const MaxPages: nat := 828
  const SmallImagePx: int := 900

  // ---------------------------------------------------------------------
  // Tolerance helpers

  /** `_almost_equal`: inclusive tolerance, 0.5 pt by default. */
  function AlmostEqual(a: real, b: real, tol: real := 0.5): (r: bool)
    ensures r <==> a - b <= tol && b - a <= tol
  {
    (if a - b < 0.0 then b - a else a - b) <= tol
  }

  lemma AlmostEqualSymmetric(a: real, b: real, tol: real)
    requires tol >= 0.0
    ensures AlmostEqual(a, b, tol) == AlmostEqual(b, a, tol)
    ensures AlmostEqual(a, a + tol, tol)
  {
  }

  /** `_rect_inside`: every side of `inner` within `outer` widened by `tol`. */
  function RectInside(inner: Rect, outer: Rect, tol: real := 0.1): (r: bool)
    ensures r <==> outer.left - tol <= inner.left && outer.bottom - tol <= inner.bottom
                   && inner.right <= outer.right + tol && inner.top <= outer.top + tol
  {
    inner.left >= outer.left - tol && inner.bottom >= outer.bottom - tol
    && inner.right <= outer.right + tol && inner.top <= outer.top + tol
  }

  lemma RectInsideReflexive(r: Rect, tol: real)
    requires tol >= 0.0
    ensures RectInside(r, r, tol)
  {
  }

  // ---------------------------------------------------------------------
  // Per-page classification

  /** The size check ignores orientation: either way round matches. */
  predicate SizeMatches(w: real, h: real, tw: real, th: real) {
    (AlmostEqual(w, tw) && AlmostEqual(h, th)) || (AlmostEqual(w, th) && AlmostEqual(h, tw))
  }

  predicate SameSize(p: Page, q: Page) {
    AlmostEqual(p.mediaBox.Width(), q.mediaBox.Width())
    && AlmostEqual(p.mediaBox.Height(), q.mediaBox.Height())
  }

  predicate IsLandscape(p: Page) { p.mediaBox.Width() > p.mediaBox.Height() }

  predicate IsRotated(p: Page) { p.rotation != 0 }

  predicate IsAnnotated(p: Page) { p.hasAnnots }

  /** The page properties the summary counts. */
  datatype PageProperty = Landscape | Rotated | Annotated

  predicate Has(p: Page, prop: PageProperty) {
    match prop
    case Landscape => IsLandscape(p)
    case Rotated => IsRotated(p)
    case Annotated => IsAnnotated(p)
  }

  predicate IsImage(x: XObject) { x.subtype == "/Image" }

  /** The low-resolution guess: an image whose declared width or height is
      under 900 px (both must be declared). */
  predicate IsLowRes(x: XObject) {
    IsImage(x) && x.widthPx.Some? && x.heightPx.Some?
    && (x.widthPx.value < SmallImagePx || x.heightPx.value < SmallImagePx)
  }

  function ImagesIn(xs: seq<XObject>): (r: nat)
    ensures r <= |xs|
  {
    if |xs| == 0 then 0 else ImagesIn(xs[..|xs| - 1]) + (if IsImage(xs[|xs| - 1]) then 1 else 0)
  }

  /** Low-resolution images are a subset of the images counted. */
  function LowResIn(xs: seq<XObject>): (r: nat)
    ensures r <= ImagesIn(xs)
  {
    if |xs| == 0 then 0 else LowResIn(xs[..|xs| - 1]) + (if IsLowRes(xs[|xs| - 1]) then 1 else 0)
  }

  /** A declared image is counted as low resolution exactly when one side
      is under 900 px; an image without both sizes never is. */
  lemma LowResIff(x: XObject)
    requires IsImage(x)
    ensures ImagesIn([x]) == 1
    ensures LowResIn([x]) == 1
            <==> x.widthPx.Some? && x.heightPx.Some? && (x.widthPx.value < 900 || x.heightPx.value < 900)
  {
    assert [x][..0] == [];
  }

  // ---------------------------------------------------------------------
  // Font classification

  /** `str(font.get("/BaseFont"))`: a missing name prints as "None". */
  function BaseName(f: Font): string {
    f.baseFont.GetOr("None")
  }

  predicate IsType3(f: Font) { f.subtype == "/Type3" }

  /** Embedded iff the descriptor has `/FontFile`, `/FontFile2` or `/FontFile3`. */
  predicate IsEmbedded(f: Font) {
    f.descriptor.Some?
    && (f.descriptor.value.fontFile || f.descriptor.value.fontFile2 || f.descriptor.value.fontFile3)
  }

  /** A subset name: it has a '+', and the part before the first '+' is
      upper-case in Python's sense and at least six characters long. */
  predicate IsSubsetName(name: string) {
    '+' in name && Text.IsUpper(Text.Before(name, '+')) && |Text.Before(name, '+')| >= 6
  }

  /** The base names of the fonts in `fonts` that satisfy `p`. */
  function NamesWhere(fonts: seq<Font>, p: Font -> bool): set<string> {
    if |fonts| == 0 then {}
    else NamesWhere(fonts[..|fonts| - 1], p)
         + (if p(fonts[|fonts| - 1]) then {BaseName(fonts[|fonts| - 1])} else {})
  }

  lemma {:induction false} NamesWhereExact(fonts: seq<Font>, p: Font -> bool, name: string)
    ensures name in NamesWhere(fonts, p) <==> exists i :: 0 <= i < |fonts| && p(fonts[i]) && BaseName(fonts[i]) == name
    decreases |fonts|
  {
    if |fonts| > 0 {
      var init := fonts[..|fonts| - 1];
      NamesWhereExact(init, p, name);
      if name in NamesWhere(init, p) {
        var i :| 0 <= i < |init| && p(init[i]) && BaseName(init[i]) == name;
        assert fonts[i] == init[i];
      }
      if exists i :: 0 <= i < |fonts| && p(fonts[i]) && BaseName(fonts[i]) == name {
        var i :| 0 <= i < |fonts| && p(fonts[i]) && BaseName(fonts[i]) == name;
        if i < |init| {
          assert init[i] == fonts[i];
        }
      }
    }
  }

  function Type3Names(fonts: seq<Font>): set<string> {
    NamesWhere(fonts, IsType3)
  }

  function NotEmbeddedNames(fonts: seq<Font>): set<string> {
    NamesWhere(fonts, (f: Font) => !IsEmbedded(f))
  }

  function SubsetNames(fonts: seq<Font>): set<string> {
    NamesWhere(fonts, (f: Font) => IsSubsetName(BaseName(f)))
  }

  /** The font classification the pass applies to one resource dictionary. */
  datatype FontClass = Type3Class | NotEmbeddedClass | SubsetClass

  function NamesOf(fonts: seq<Font>, c: FontClass): set<string> {
    match c
    case Type3Class => Type3Names(fonts)
    case NotEmbeddedClass => NotEmbeddedNames(fonts)
    case SubsetClass => SubsetNames(fonts)
  }

  /** The resources the font pass of page `i` (0-based) reads. The font code
      reuses a variable that the image code assigns at the end of every
      iteration, so only page 1 reads its own resources and page i >= 2
      reads those of page i-1. */
  function FontScope(pages: seq<Page>, i: nat): Resources
    requires i < |pages|
  {
    if i == 0 then pages[0].resources else pages[i - 1].resources
  }

  /** Names of class `c` collected by the font passes of pages 0 .. n-1. */
  function FontsSeen(pages: seq<Page>, n: nat, c: FontClass): set<string>
    requires n <= |pages|
  {
    if n == 0 then {} else FontsSeen(pages, n - 1, c) + NamesOf(FontScope(pages, n - 1).fonts, c)
  }

  /** Names of class `c` in the OWN resources of pages 0 .. m-1. */
  function FontsOnPages(pages: seq<Page>, m: nat, c: FontClass): set<string>
    requires m <= |pages|
  {
    if m == 0 then {} else FontsOnPages(pages, m - 1, c) + NamesOf(pages[m - 1].resources.fonts, c)
  }

  /** The pages whose own fonts are examined: all but the last, except
      that a one-page document has its single page examined. */
  function ExaminedPages(n: nat): (m: nat)
    ensures m <= n
  {
    if n <= 1 then n else n - 1
  }

  /** The font pass over n pages sees exactly the fonts of the first
      `ExaminedPages(n)` pages: the last page of a multi-page document is
      never examined. */
  lemma {:induction false} FontPassSkipsLastPage(pages: seq<Page>, n: nat, c: FontClass)
    requires n <= |pages|
    ensures FontsSeen(pages, n, c) == FontsOnPages(pages, ExaminedPages(n), c)
    decreases n
  {
    if n >= 2 {
      FontPassSkipsLastPage(pages, n - 1, c);
      if n == 2 {
        assert FontsSeen(pages, 1, c) == NamesOf(pages[0].resources.fonts, c);
      }
    }
  }

  /** A concrete two-page case: a font that only page 2 uses is missing from
      the non-embedded report although it is not embedded. */
  lemma SecondPageFontUnchecked(p1: Page, p2: Page)
    requires |p1.resources.fonts| == 0
    requires |p2.resources.fonts| > 0 && !IsEmbedded(p2.resources.fonts[0])
    ensures BaseName(p2.resources.fonts[0]) !in FontsSeen([p1, p2], 2, NotEmbeddedClass)
  {
    FontPassSkipsLastPage([p1, p2], 2, NotEmbeddedClass);
  }

  /** A name splits at its first '+': it is a subset name exactly when the
      part before is upper-case and at least six characters long. */
  lemma SubsetNameIff(prefix: string, rest: string)
    requires '+' !in prefix
    ensures IsSubsetName(prefix + "+" + rest) <==> Text.IsUpper(prefix) && |prefix| >= 6
  {
    var name := prefix + "+" + rest;
    assert name == prefix + ("+" + rest);
    BeforeFirst(prefix, "+" + rest, '+');
    assert name[|prefix|] == '+';
  }

  /** The library prints names with their leading slash, and the slash
      counts towards the six-character prefix: after the slash, five
      upper-case letters suffice and four do not. */
  lemma SlashCountsTowardsSubsetPrefix(letters: string, rest: string)
    requires forall i :: 0 <= i < |letters| ==> Text.IsAsciiUpper(letters[i])
    ensures IsSubsetName("/" + letters + "+" + rest) <==> |letters| >= 5
  {
    var prefix := "/" + letters;
    assert forall i :: 1 <= i < |prefix| ==> prefix[i] == letters[i - 1];
    SubsetNameIff(prefix, rest);
    if |letters| > 0 {
      assert Text.IsAsciiUpper(prefix[1]);
    }
  }

  /** A prefix holding a lower-case letter never makes a subset name. */
  lemma LowerCasePrefixIsNotSubset(prefix: string, rest: string, i: nat)
    requires '+' !in prefix && i < |prefix| && Text.IsAsciiLower(prefix[i])
    ensures !IsSubsetName(prefix + "+" + rest)
  {
    SubsetNameIff(prefix, rest);
  }

  lemma BeforeFirst(a: string, b: string, c: char)
    requires c !in a && |b| > 0 && b[0] == c
    ensures Text.Before(a + b, c) == a
  {
    assert (a + b)[|a|] == c;
  }

  // ---------------------------------------------------------------------
  // Issues, stage by stage

  /** The version is compared with (1, 7) as Python compares tuples. */
  predicate NewerThan17(major: int, minor: int) {
    major > 1 || (major == 1 && minor > 7)
  }

  function HeaderIssues(doc: Document): seq<Issue> {
    (if doc.encrypted then [Issue(Error, Encrypted)] else [])
    + match doc.version
      case None => []
      case Some((major, minor)) =>
        [Issue(Info, HeaderVersion(major, minor))]
        + (if NewerThan17(major, minor) then [Issue(Warning, VersionAbove17)] else [])
  }

  /** Encryption is the only error the header gives; a known version is
      reported as information and warned about when it is above 1.7. */
  lemma HeaderIssuesIff(doc: Document)
    ensures var r := HeaderIssues(doc);
      && (Issue(Error, Encrypted) in r <==> doc.encrypted)
      && (forall i :: 0 <= i < |r| && r[i].level == Error ==> r[i] == Issue(Error, Encrypted))
      && (Issue(Warning, VersionAbove17) in r <==> doc.version.Some? && NewerThan17(doc.version.value.0, doc.version.value.1))
  {
  }

  /** One error below 24 pages, one above 828, none in between. */
  function PageCountIssues(n: nat): seq<Issue> {
    (if n < MinPages then [Issue(Error, PageCountBelowMinimum(n))] else [])
    + (if n > MaxPages then [Issue(Error, PageCountAboveMaximum(n))] else [])
  }

  lemma PageCountIssuesIff(n: nat)
    ensures var r := PageCountIssues(n);
      && |r| == (if n < MinPages then 1 else 0) + (if n > MaxPages then 1 else 0)
      && (forall i :: 0 <= i < |r| ==> r[i].level == Error)
      && (Issue(Error, PageCountBelowMinimum(n)) in r <==> n < MinPages)
      && (Issue(Error, PageCountAboveMaximum(n)) in r <==> n > MaxPages)
  {
  }

  /** TrimBox / BleedBox sanity for a page numbered `num`. */
  function BoxIssues(p: Page, num: nat): seq<Issue> {
    (if p.trimBox.Some? && !RectInside(p.trimBox.value, p.mediaBox)
     then [Issue(Warning, TrimOutsideMedia(num))] else [])
    + (if p.bleedBox.Some? then
         (if p.trimBox.Some? && !RectInside(p.trimBox.value, p.bleedBox.value)
          then [Issue(Warning, TrimOutsideBleed(num))] else [])
         + (if !RectInside(p.bleedBox.value, p.mediaBox)
            then [Issue(Warning, BleedOutsideMedia(num))] else [])
       else [])
  }

  /** The box checks only warn, and each warning is given exactly when its
      containment fails; the trim-in-bleed check needs both boxes. */
  lemma BoxIssuesIff(p: Page, num: nat)
    ensures var r := BoxIssues(p, num);
      && (forall i :: 0 <= i < |r| ==> r[i].level == Warning)
      && (Issue(Warning, TrimOutsideMedia(num)) in r
          <==> p.trimBox.Some? && !RectInside(p.trimBox.value, p.mediaBox))
      && (Issue(Warning, BleedOutsideMedia(num)) in r
          <==> p.bleedBox.Some? && !RectInside(p.bleedBox.value, p.mediaBox))
      && (Issue(Warning, TrimOutsideBleed(num)) in r
          <==> p.trimBox.Some? && p.bleedBox.Some? && !RectInside(p.trimBox.value, p.bleedBox.value))
  {
  }

  /** The issues appended while visiting the page numbered `num`, where
      `first` is page 1's size once page 1 has been visited. */
  function CheckPage(page: Page, num: nat, first: Option<(real, real)>, key: string, tw: real, th: real): seq<Issue> {
    var w, h := page.mediaBox.Width(), page.mediaBox.Height();
    (if SizeMatches(w, h, tw, th) then [] else [Issue(Error, SizeMismatch(num, w, h, key, tw, th))])
    + (if first.Some? && !(AlmostEqual(w, first.value.0) && AlmostEqual(h, first.value.1))
       then [Issue(Error, DiffersFromFirst(num, first.value.0, first.value.1))] else [])
    + BoxIssues(page, num)
  }

  /** The size of page 1 as the loop knows it before visiting page i (0-based). */
  function FirstSeen(pages: seq<Page>, i: nat): (r: Option<(real, real)>)
    requires i <= |pages|
    ensures r.Some? <==> i > 0
  {
    if i == 0 then None else Some((pages[0].mediaBox.Width(), pages[0].mediaBox.Height()))
  }

  function PageChecks(pages: seq<Page>, i: nat, key: string, tw: real, th: real): seq<Issue>
    requires i < |pages|
  {
    CheckPage(pages[i], i + 1, FirstSeen(pages, i), key, tw, th)
  }

  /** The issues appended by the page loop over pages 0 .. n-1. */
  function PageIssues(pages: seq<Page>, n: nat, key: string, tw: real, th: real): seq<Issue>
    requires n <= |pages|
  {
    if n == 0 then [] else PageIssues(pages, n - 1, key, tw, th) + PageChecks(pages, n - 1, key, tw, th)
  }

  function CountPages(pages: seq<Page>, n: nat, prop: PageProperty): (r: nat)
    requires n <= |pages|
    ensures r <= n
  {
    if n == 0 then 0 else CountPages(pages, n - 1, prop) + (if Has(pages[n - 1], prop) then 1 else 0)
  }

  function CountImages(pages: seq<Page>, n: nat): nat
    requires n <= |pages|
  {
    if n == 0 then 0 else CountImages(pages, n - 1) + ImagesIn(pages[n - 1].resources.xobjects)
  }

  function CountLowRes(pages: seq<Page>, n: nat): (r: nat)
    requires n <= |pages|
    ensures r <= CountImages(pages, n)
  {
    if n == 0 then 0 else CountLowRes(pages, n - 1) + LowResIn(pages[n - 1].resources.xobjects)
  }

  /** A tag per message shape, to say that no shape repeats. */
  function Kind(m: Message): nat {
    match m
    case Encrypted => 0
    case HeaderVersion(_, _) => 1
    case VersionAbove17 => 2
    case PageCountBelowMinimum(_) => 3
    case PageCountAboveMaximum(_) => 4
    case SizeMismatch(_, _, _, _, _, _) => 5
    case DiffersFromFirst(_, _, _) => 6
    case TrimOutsideMedia(_) => 7
    case TrimOutsideBleed(_) => 8
    case BleedOutsideMedia(_) => 9
    case LandscapePages(_) => 10
    case RotatedPages(_) => 11
    case AnnotatedPages(_) => 12
    case ImageObjects(_) => 13
    case SmallImages(_) => 14
    case Type3Fonts(_) => 15
    case NonEmbeddedFonts(_) => 16
    case SubsetFonts(_) => 17
  }

  /** A summary line that is emitted only when its condition holds. */
  datatype Slot = Slot(present: bool, issue: Issue)

  /** The issues of the present slots, in slot order. */
  function Present(slots: seq<Slot>): (r: seq<Issue>)
    ensures |r| <= |slots|
  {
    if |slots| == 0 then []
    else (if slots[0].present then [slots[0].issue] else []) + Present(slots[1..])
  }

  /** Slot i carries the message shape `base + i`. */
  predicate ShapesFrom(slots: seq<Slot>, base: nat) {
    forall i :: 0 <= i < |slots| ==> Kind(slots[i].issue.message) == base + i
  }

  /** Message shapes strictly increase along `s`, so none repeats. */
  predicate KindsIncrease(s: seq<Issue>) {
    forall i, j :: 0 <= i < j < |s| ==> Kind(s[i].message) < Kind(s[j].message)
  }

  lemma {:induction false} PresentShapesAtLeast(slots: seq<Slot>, base: nat)
    requires ShapesFrom(slots, base)
    ensures forall i :: 0 <= i < |Present(slots)| ==> base <= Kind(Present(slots)[i].message)
    ensures KindsIncrease(Present(slots))
    decreases |slots|
  {
    if |slots| > 0 {
      assert ShapesFrom(slots[1..], base + 1) by {
        forall i | 0 <= i < |slots| - 1
          ensures Kind(slots[1..][i].issue.message) == base + 1 + i
        {
          assert slots[1..][i] == slots[i + 1];
        }
      }
      PresentShapesAtLeast(slots[1..], base + 1);
    }
  }

  /** With one shape per slot, slot i's issue is reported iff slot i is present. */
  lemma {:induction false} PresentIff(slots: seq<Slot>, base: nat, i: nat)
    requires ShapesFrom(slots, base)
    requires i < |slots|
    ensures slots[i].issue in Present(slots) <==> slots[i].present
    decreases |slots|
  {
    var rest := slots[1..];
    assert ShapesFrom(rest, base + 1) by {
      forall j | 0 <= j < |rest|
        ensures Kind(rest[j].issue.message) == base + 1 + j
      {
        assert rest[j] == slots[j + 1];
      }
    }
    var head: seq<Issue> := if slots[0].present then [slots[0].issue] else [];
    assert Present(slots) == head + Present(rest);
    if i == 0 {
      PresentShapesAtLeast(rest, base + 1);
      assert slots[0].issue !in Present(rest);
    } else {
      assert rest[i - 1] == slots[i];
      PresentIff(rest, base + 1, i - 1);
      assert slots[i].issue !in head by {
        assert Kind(slots[i].issue.message) != Kind(slots[0].issue.message);
      }
    }
  }

  /** The eight summary lines, in the order the source appends them. */
  function SummarySlots(landscape: nat, rotated: nat, annotated: nat, images: nat, lowRes: nat,
                        type3: set<string>, notEmbedded: set<string>, subset: set<string>): (r: seq<Slot>)
    ensures |r| == 8
    ensures ShapesFrom(r, 10)
  {
    [ Slot(landscape > 0, Issue(Warning, LandscapePages(landscape))),
      Slot(rotated > 0, Issue(Warning, RotatedPages(rotated))),
      Slot(annotated > 0, Issue(Error, AnnotatedPages(annotated))),
      Slot(images > 0, Issue(Info, ImageObjects(images))),
      Slot(lowRes > 0, Issue(Warning, SmallImages(lowRes))),
      Slot(type3 != {}, Issue(Warning, Type3Fonts(type3))),
      Slot(notEmbedded != {}, Issue(Error, NonEmbeddedFonts(notEmbedded))),
      Slot(subset != {}, Issue(Info, SubsetFonts(subset))) ]
  }

  function SummaryIssues(landscape: nat, rotated: nat, annotated: nat, images: nat, lowRes: nat,
                         type3: set<string>, notEmbedded: set<string>, subset: set<string>): seq<Issue>
  {
    Present(SummarySlots(landscape, rotated, annotated, images, lowRes, type3, notEmbedded, subset))
  }

  /** Each count and each font class gives at most one summary issue (no
      message shape repeats, and they come in the fixed order landscape,
      rotation, annotations, images, low resolution, Type 3, not embedded,
      subset), and gives one exactly when it is non-empty. */
  lemma SummaryReportsEachClassOnce(landscape: nat, rotated: nat, annotated: nat, images: nat, lowRes: nat,
                                     type3: set<string>, notEmbedded: set<string>, subset: set<string>)
    ensures var r := SummaryIssues(landscape, rotated, annotated, images, lowRes, type3, notEmbedded, subset);
      && KindsIncrease(r)
      && (Issue(Warning, LandscapePages(landscape)) in r <==> landscape > 0)
      && (Issue(Warning, RotatedPages(rotated)) in r <==> rotated > 0)
      && (Issue(Error, AnnotatedPages(annotated)) in r <==> annotated > 0)
      && (Issue(Info, ImageObjects(images)) in r <==> images > 0)
      && (Issue(Warning, SmallImages(lowRes)) in r <==> lowRes > 0)
      && (Issue(Warning, Type3Fonts(type3)) in r <==> type3 != {})
      && (Issue(Error, NonEmbeddedFonts(notEmbedded)) in r <==> notEmbedded != {})
      && (Issue(Info, SubsetFonts(subset)) in r <==> subset != {})
  {
    var slots := SummarySlots(landscape, rotated, annotated, images, lowRes, type3, notEmbedded, subset);
    PresentShapesAtLeast(slots, 10);
    PresentIff(slots, 10, 0);
    PresentIff(slots, 10, 1);
    PresentIff(slots, 10, 2);
    PresentIff(slots, 10, 3);
    PresentIff(slots, 10, 4);
    PresentIff(slots, 10, 5);
    PresentIff(slots, 10, 6);
    PresentIff(slots, 10, 7);
  }

  predicate HasError(issues: seq<Issue>) {
    exists i :: 0 <= i < |issues| && issues[i].level == Error
  }

  function FirstPageSize(doc: Document): (r: (real, real))
    ensures |doc.pages| > 0 ==> r == (doc.pages[0].mediaBox.Width(), doc.pages[0].mediaBox.Height())
    ensures |doc.pages| == 0 ==> r == (0.0, 0.0)
  {
    if |doc.pages| > 0 then (doc.pages[0].mediaBox.Width(), doc.pages[0].mediaBox.Height()) else (0.0, 0.0)
  }

  /** Everything appended before `ok` is computed. */
  function EarlyIssues(doc: Document, key: string, tw: real, th: real): seq<Issue> {
    HeaderIssues(doc) + PageCountIssues(|doc.pages|) + PageIssues(doc.pages, |doc.pages|, key, tw, th)
  }

  function LateIssues(doc: Document): seq<Issue> {
    var ps, n := doc.pages, |doc.pages|;
    SummaryIssues(CountPages(ps, n, Landscape), CountPages(ps, n, Rotated), CountPages(ps, n, Annotated),
                  CountImages(ps, n), CountLowRes(ps, n),
                  FontsSeen(ps, n, Type3Class), FontsSeen(ps, n, NotEmbeddedClass), FontsSeen(ps, n, SubsetClass))
  }

  /** The report of the pass, stated stage by stage. `ok` looks only at the
      early issues, so the annotation and non-embedded-font errors of the
      summary never make it false. */
  function ExpectedReport(doc: Document, key: string, tw: real, th: real): Report {
    var early := EarlyIssues(doc, key, tw, th);
    Report(!HasError(early), key, |doc.pages|, FirstPageSize(doc), early + LateIssues(doc))
  }

  // ---------------------------------------------------------------------
  // The pass

  /** What the page loop has accumulated so far. */
  datatype Tally = Tally(
    issues: seq<Issue>,
    landscape: nat, rotated: nat, annotated: nat, images: nat, lowRes: nat,
    type3: set<string>, notEmbedded: set<string>, subset: set<string>)

  /** One iteration of the page loop for page number `num`: `first` is the
      size of page 1 once it has been seen, and `scope` the resources the
      font checks read. */
  function Visit(t: Tally, page: Page, num: nat, first: Option<(real, real)>, scope: Resources,
                 key: string, tw: real, th: real): (r: Tally)
    ensures |t.issues| <= |r.issues|
    ensures r.landscape == t.landscape + (if IsLandscape(page) then 1 else 0)
    ensures r.annotated == t.annotated + (if IsAnnotated(page) then 1 else 0)
  {
    var w, h := page.mediaBox.Width(), page.mediaBox.Height();
    Tally(
      t.issues + CheckPage(page, num, first, key, tw, th),
      t.landscape + (if w > h then 1 else 0),
      t.rotated + (if page.rotation != 0 then 1 else 0),
      t.annotated + (if page.hasAnnots then 1 else 0),
      t.images + ImagesIn(page.resources.xobjects),
      t.lowRes + LowResIn(page.resources.xobjects),
      t.type3 + Type3Names(scope.fonts),
      t.notEmbedded + NotEmbeddedNames(scope.fonts),
      t.subset + SubsetNames(scope.fonts))
  }

  /** What the loop should have accumulated after visiting pages 0 .. n-1:
      the page-by-page checks, the counts of pages and images with each
      property, and the font names the font passes have seen. */
  function TallyUpTo(pages: seq<Page>, n: nat, key: string, tw: real, th: real): Tally
    requires n <= |pages|
  {
    Tally(PageIssues(pages, n, key, tw, th),
          CountPages(pages, n, Landscape), CountPages(pages, n, Rotated), CountPages(pages, n, Annotated),
          CountImages(pages, n), CountLowRes(pages, n),
          FontsSeen(pages, n, Type3Class), FontsSeen(pages, n, NotEmbeddedClass), FontsSeen(pages, n, SubsetClass))
  }

  /** Visiting page i, with page 1's size known from i = 1 on and the font
      checks reading `FontScope(pages, i)`, extends the tally of the pages
      before it to the tally of the pages up to it. */
  lemma VisitIsStep(pages: seq<Page>, i: nat, key: string, tw: real, th: real)
    requires i < |pages|
    ensures Visit(TallyUpTo(pages, i, key, tw, th), pages[i], i + 1, FirstSeen(pages, i), FontScope(pages, i), key, tw, th)
            == TallyUpTo(pages, i + 1, key, tw, th)
  {
  }

  /** The page loop of `validate_pdf`: pages
      are visited in order, page 1's size is remembered for the uniformity
      check, and the font checks read the `resources` variable, which still
      holds the previous page's resources from the image checks. */
  method PageLoop(pages: seq<Page>, key: string, tw: real, th: real) returns (tally: Tally)
    ensures tally == TallyUpTo(pages, |pages|, key, tw, th)
  {
    tally := Tally([], 0, 0, 0, 0, 0, {}, {}, {});
    var first: Option<(real, real)> := None;
    var carried: Option<Resources> := None;
    var i := 0;
    while i < |pages|
      invariant 0 <= i <= |pages|
      invariant tally == TallyUpTo(pages, i, key, tw, th)
      invariant first == FirstSeen(pages, i)
      invariant carried == if i == 0 then None else Some(pages[i - 1].resources)
    {
      var page := pages[i];
      var scope := if carried.Some? then carried.value else page.resources;
      var seen := first;
      if first.None? {
        first := Some((page.mediaBox.Width(), page.mediaBox.Height()));
      }
      carried := Some(page.resources);
      VisitIsStep(pages, i, key, tw, th);
      tally := Visit(tally, page, i + 1, seen, scope, key, tw, th);
      i := i + 1;
    }
  }

  /** `validate_pdf`: an unknown trim key fails before anything is looked at;
      otherwise one loop over the pages, as in the source, whose result is
      the stage-by-stage report above. */
  method ValidatePdf(doc: Document, trimKey: string) returns (r: Result<Report, UnknownTrimKey>)
    ensures r.Failure? <==> !Sizes.Known(trimKey)
    ensures r.Failure? ==> r.error == UnknownTrimKey(trimKey)
    ensures r.Success? ==>
              r.value == ExpectedReport(doc, trimKey, Sizes.Table()[trimKey].width, Sizes.Table()[trimKey].height)
  {
    if trimKey !in Sizes.Table() {
      return Failure(UnknownTrimKey(trimKey));
    }
    var tw, th := Sizes.Table()[trimKey].width, Sizes.Table()[trimKey].height;
    var pages := doc.pages;
    var n := |pages|;
    var head := HeaderIssues(doc) + PageCountIssues(n);

    var tally := PageLoop(pages, trimKey, tw, th);
    var issues := head + tally.issues;
    var ok := !HasError(issues);
    issues := issues + SummaryIssues(tally.landscape, tally.rotated, tally.annotated, tally.images, tally.lowRes,
                                     tally.type3, tally.notEmbedded, tally.subset);
    var size := if n > 0 then (pages[0].mediaBox.Width(), pages[0].mediaBox.Height()) else (0.0, 0.0);
    return Success(Report(ok, trimKey, n, size, issues));
  }

  // ---------------------------------------------------------------------
  // Properties of the report

  lemma HasErrorConcat(a: seq<Issue>, b: seq<Issue>)
    ensures HasError(a + b) <==> HasError(a) || HasError(b)
  {
    if HasError(a) {
      var i :| 0 <= i < |a| && a[i].level == Error;
      assert (a + b)[i] == a[i];
    }
    if HasError(b) {
      var i :| 0 <= i < |b| && b[i].level == Error;
      assert (a + b)[|a| + i] == b[i];
    }
    if HasError(a + b) {
      var i :| 0 <= i < |a + b| && (a + b)[i].level == Error;
      if i < |a| {
        assert a[i] == (a + b)[i];
      } else {
        assert b[i - |a|] == (a + b)[i];
      }
    }
  }

  /** Page j (0-based) fails the size check or, after page 1, the
      uniformity check. */
  predicate PageFails(pages: seq<Page>, j: nat, tw: real, th: real)
    requires j < |pages|
  {
    !SizeMatches(pages[j].mediaBox.Width(), pages[j].mediaBox.Height(), tw, th)
    || (j > 0 && !SameSize(pages[j], pages[0]))
  }

  lemma CheckPageErrorIff(pages: seq<Page>, j: nat, key: string, tw: real, th: real)
    requires j < |pages|
    ensures HasError(PageChecks(pages, j, key, tw, th)) <==> PageFails(pages, j, tw, th)
  {
    var page := pages[j];
    var w, h := page.mediaBox.Width(), page.mediaBox.Height();
    var first := FirstSeen(pages, j);
    var a := if SizeMatches(w, h, tw, th) then [] else [Issue(Error, SizeMismatch(j + 1, w, h, key, tw, th))];
    var b := if first.Some? && !(AlmostEqual(w, first.value.0) && AlmostEqual(h, first.value.1))
             then [Issue(Error, DiffersFromFirst(j + 1, first.value.0, first.value.1))] else [];
    assert PageChecks(pages, j, key, tw, th) == a + b + BoxIssues(page, j + 1);
    HasErrorConcat(a + b, BoxIssues(page, j + 1));
    HasErrorConcat(a, b);
    BoxIssuesIff(page, j + 1);
    if a != [] {
      assert a[0].level == Error;
    }
    if b != [] {
      assert b[0].level == Error;
    }
  }

  /** The page loop yields an error exactly when some page fails. */
  lemma {:induction false} PageIssuesErrorIff(pages: seq<Page>, m: nat, key: string, tw: real, th: real)
    requires m <= |pages|
    ensures HasError(PageIssues(pages, m, key, tw, th)) <==> exists j :: 0 <= j < m && PageFails(pages, j, tw, th)
    decreases m
  {
    if m > 0 {
      PageIssuesErrorIff(pages, m - 1, key, tw, th);
      HasErrorConcat(PageIssues(pages, m - 1, key, tw, th), PageChecks(pages, m - 1, key, tw, th));
      CheckPageErrorIff(pages, m - 1, key, tw, th);
    }
  }

  /** `ok` holds exactly when the document is not encrypted, has 24 to 828
      pages, and every page has the trim size (either orientation) and
      page 1's size. Annotations, fonts, images and the boxes play no part. */
  lemma OkIff(doc: Document, key: string, tw: real, th: real)
    ensures ExpectedReport(doc, key, tw, th).ok
            <==> !doc.encrypted && MinPages <= |doc.pages| <= MaxPages
                 && (forall j :: 0 <= j < |doc.pages| ==> !PageFails(doc.pages, j, tw, th))
  {
    var n := |doc.pages|;
    HasErrorConcat(HeaderIssues(doc) + PageCountIssues(n), PageIssues(doc.pages, n, key, tw, th));
    HasErrorConcat(HeaderIssues(doc), PageCountIssues(n));
    PageIssuesErrorIff(doc.pages, n, key, tw, th);
    HeaderIssuesIff(doc);
    PageCountIssuesIff(n);
    var hs := HeaderIssues(doc);
    if doc.encrypted {
      var i :| 0 <= i < |hs| && hs[i] == Issue(Error, Encrypted);
    }
    var ps := PageCountIssues(n);
    if n < MinPages || n > MaxPages {
      assert ps[0].level == Error;
    }
  }

  /** The annotation error is appended after `ok` is fixed: a document that
      passes every early check keeps `ok` although its report holds an
      error-level issue. */
  lemma AnnotationErrorKeepsOk(doc: Document, key: string, tw: real, th: real)
    requires !doc.encrypted && MinPages <= |doc.pages| <= MaxPages
    requires forall j :: 0 <= j < |doc.pages| ==> !PageFails(doc.pages, j, tw, th)
    requires exists j :: 0 <= j < |doc.pages| && doc.pages[j].hasAnnots
    ensures ExpectedReport(doc, key, tw, th).ok
    ensures Issue(Error, AnnotatedPages(CountPages(doc.pages, |doc.pages|, Annotated)))
            in ExpectedReport(doc, key, tw, th).issues
  {
    OkIff(doc, key, tw, th);
    var j :| 0 <= j < |doc.pages| && doc.pages[j].hasAnnots;
    CountPagesPositive(doc.pages, |doc.pages|, Annotated, j);
    var ps, n := doc.pages, |doc.pages|;
    SummaryReportsEachClassOnce(
      CountPages(ps, n, Landscape), CountPages(ps, n, Rotated), CountPages(ps, n, Annotated),
      CountImages(ps, n), CountLowRes(ps, n),
      FontsSeen(ps, n, Type3Class), FontsSeen(ps, n, NotEmbeddedClass), FontsSeen(ps, n, SubsetClass));
  }

  /** Likewise the non-embedded-font error never clears `ok`. */
  lemma NonEmbeddedErrorKeepsOk(doc: Document, key: string, tw: real, th: real)
    requires !doc.encrypted && MinPages <= |doc.pages| <= MaxPages
    requires forall j :: 0 <= j < |doc.pages| ==> !PageFails(doc.pages, j, tw, th)
    requires FontsSeen(doc.pages, |doc.pages|, NotEmbeddedClass) != {}
    ensures ExpectedReport(doc, key, tw, th).ok
    ensures Issue(Error, NonEmbeddedFonts(FontsSeen(doc.pages, |doc.pages|, NotEmbeddedClass)))
            in ExpectedReport(doc, key, tw, th).issues
  {
    OkIff(doc, key, tw, th);
    var ps, n := doc.pages, |doc.pages|;
    SummaryReportsEachClassOnce(
      CountPages(ps, n, Landscape), CountPages(ps, n, Rotated), CountPages(ps, n, Annotated),
      CountImages(ps, n), CountLowRes(ps, n),
      FontsSeen(ps, n, Type3Class), FontsSeen(ps, n, NotEmbeddedClass), FontsSeen(ps, n, SubsetClass));
  }

  lemma {:induction false} CountPagesPositive(pages: seq<Page>, n: nat, prop: PageProperty, j: nat)
    requires j < n <= |pages| && Has(pages[j], prop)
    ensures CountPages(pages, n, prop) > 0
    decreases n
  {
    if j < n - 1 {
      CountPagesPositive(pages, n - 1, prop, j);
    }
  }

  /** An issue is in the loop's list exactly when some page's checks give it. */
  lemma {:induction false} InPageIssues(pages: seq<Page>, m: nat, key: string, tw: real, th: real, x: Issue)
    requires m <= |pages|
    ensures x in PageIssues(pages, m, key, tw, th)
            <==> exists k :: 0 <= k < m && x in PageChecks(pages, k, key, tw, th)
    decreases m
  {
    if m > 0 {
      InPageIssues(pages, m - 1, key, tw, th, x);
      var before, here := PageIssues(pages, m - 1, key, tw, th), PageChecks(pages, m - 1, key, tw, th);
      assert PageIssues(pages, m, key, tw, th) == before + here;
      if x in here {
        assert 0 <= m - 1 < m && x in PageChecks(pages, m - 1, key, tw, th);
      }
      if exists k :: 0 <= k < m && x in PageChecks(pages, k, key, tw, th) {
        var k :| 0 <= k < m && x in PageChecks(pages, k, key, tw, th);
        if k < m - 1 {
          assert x in before;
        } else {
          assert x in here;
        }
      }
    }
  }

  /** An issue about page j + 1 can only come from the checks of page j. */
  lemma OnlyOwnChecks(pages: seq<Page>, m: nat, key: string, tw: real, th: real, x: Issue, j: nat)
    requires j < m <= |pages| && PageOf(x.message) == j + 1
    ensures x in PageIssues(pages, m, key, tw, th) <==> x in PageChecks(pages, j, key, tw, th)
  {
    InPageIssues(pages, m, key, tw, th, x);
    forall k | 0 <= k < m && x in PageChecks(pages, k, key, tw, th)
      ensures k == j
    {
      CheckPageMentions(pages, k, key, tw, th, x);
    }
  }

  /** Each page that fails the size check gives exactly one size error,
      naming it; a page that passes gives none. */
  lemma SizeMismatchReported(pages: seq<Page>, m: nat, key: string, tw: real, th: real, j: nat)
    requires j < m <= |pages|
    ensures var w, h := pages[j].mediaBox.Width(), pages[j].mediaBox.Height();
            Issue(Error, SizeMismatch(j + 1, w, h, key, tw, th)) in PageIssues(pages, m, key, tw, th)
            <==> !SizeMatches(w, h, tw, th)
  {
    var w, h := pages[j].mediaBox.Width(), pages[j].mediaBox.Height();
    OnlyOwnChecks(pages, m, key, tw, th, Issue(Error, SizeMismatch(j + 1, w, h, key, tw, th)), j);
    CheckPageSize(pages, j, key, tw, th);
  }

  /** Page 1 never gets a uniformity error; page i >= 2 gets one exactly when
      its size is not within tolerance of page 1's. */
  lemma DiffersReported(pages: seq<Page>, m: nat, key: string, tw: real, th: real, j: nat)
    requires j < m <= |pages|
    ensures var x := Issue(Error, DiffersFromFirst(j + 1, pages[0].mediaBox.Width(), pages[0].mediaBox.Height()));
            x in PageIssues(pages, m, key, tw, th) <==> j > 0 && !SameSize(pages[j], pages[0])
  {
    var x := Issue(Error, DiffersFromFirst(j + 1, pages[0].mediaBox.Width(), pages[0].mediaBox.Height()));
    OnlyOwnChecks(pages, m, key, tw, th, x, j);
    CheckPageDiffers(pages, j, key, tw, th);
  }

  /** The page number an issue is about, if it is about one page. */
  function PageOf(m: Message): int {
    match m
    case SizeMismatch(p, _, _, _, _, _) => p
    case DiffersFromFirst(p, _, _) => p
    case TrimOutsideMedia(p) => p
    case TrimOutsideBleed(p) => p
    case BleedOutsideMedia(p) => p
    case _ => -1
  }

  /** The box checks give only warnings about the boxes of page `num`. */
  lemma BoxIssuesShape(p: Page, num: nat)
    ensures var b := BoxIssues(p, num);
            forall i :: 0 <= i < |b| ==>
              && b[i].level == Warning && PageOf(b[i].message) == num
              && (b[i].message.TrimOutsideMedia? || b[i].message.TrimOutsideBleed? || b[i].message.BleedOutsideMedia?)
  {
  }

  /** The checks of page j (0-based) only mention page j + 1. */
  lemma CheckPageMentions(pages: seq<Page>, j: nat, key: string, tw: real, th: real, x: Issue)
    requires j < |pages|
    ensures x in PageChecks(pages, j, key, tw, th) ==> PageOf(x.message) == j + 1
  {
    BoxIssuesShape(pages[j], j + 1);
  }

  lemma CheckPageSize(pages: seq<Page>, j: nat, key: string, tw: real, th: real)
    requires j < |pages|
    ensures var w, h := pages[j].mediaBox.Width(), pages[j].mediaBox.Height();
            Issue(Error, SizeMismatch(j + 1, w, h, key, tw, th)) in PageChecks(pages, j, key, tw, th)
            <==> !SizeMatches(w, h, tw, th)
  {
    BoxIssuesShape(pages[j], j + 1);
  }

  lemma CheckPageDiffers(pages: seq<Page>, j: nat, key: string, tw: real, th: real)
    requires j < |pages|
    ensures var x := Issue(Error, DiffersFromFirst(j + 1, pages[0].mediaBox.Width(), pages[0].mediaBox.Height()));
            x in PageChecks(pages, j, key, tw, th) <==> j > 0 && !SameSize(pages[j], pages[0])
  {
    BoxIssuesShape(pages[j], j + 1);
  }
}

=== FILE: layout_generator.dfy ===
/** The gutter post-processing applied to a layout the language model
    produced. Elements keep every field; only `x` is rewritten. */
module LayoutGenerator {
  import opened Wrappers

  /** An element as the layout JSON has it; absent keys are `None`. */
  datatype LayoutElement = LayoutElement(kind: Option<string>, x: Option<real>, y: Option<real>,
                                         width: Option<real>, height: Option<real>)

  /** `page_number` may be missing; `elements` missing is the empty list. */
  datatype LayoutPage = LayoutPage(pageNumber: Option<int>, elements: seq<LayoutElement>)

  datatype Layout = Layout(pages: seq<LayoutPage>)

  /** A missing page number counts as page 1, which is odd. Dafny's `%`
      agrees with Python's for the modulus 2. */
  predicate IsOddPage(p: LayoutPage) {
    p.pageNumber.GetOr(1) % 2 == 1
  }

  /** Odd pages move right by the gutter; even pages move left by it but
      never past 0. A missing `x` counts as 0. */
  function ShiftElement(e: LayoutElement, odd: bool, gutter: real): (r: LayoutElement)
    ensures r.x.Some?
  {
    var x := e.x.GetOr(0.0);
    e.(x := Some(if odd then x + gutter else if x - gutter >= 0.0 then x - gutter else 0.0))
  }

  function ShiftPage(p: LayoutPage, gutter: real): (r: LayoutPage) {
    var odd := IsOddPage(p);
    p.(elements := seq(|p.elements|, i requires 0 <= i < |p.elements| => ShiftElement(p.elements[i], odd, gutter)))
  }

  /** `_apply_gutters` */
  function ApplyGutters(layout: Layout, gutter: real): (r: Layout)
    ensures |r.pages| == |layout.pages|
  {
    Layout(seq(|layout.pages|, i requires 0 <= i < |layout.pages| => ShiftPage(layout.pages[i], gutter)))
  }

  /** Pages and elements keep their number and order; each element keeps
      every field but `x`; `x` moves right by the gutter on odd pages and
      left, clamped at 0, on even ones. */
  lemma ApplyGuttersEffect(layout: Layout, gutter: real, i: nat, j: nat)
    requires i < |layout.pages| && j < |layout.pages[i].elements|
    ensures var r := ApplyGutters(layout, gutter);
            var p := layout.pages[i];
            var e := p.elements[j];
            var x := e.x.GetOr(0.0);
            && r.pages[i].pageNumber == p.pageNumber
            && |r.pages[i].elements| == |p.elements|
            && r.pages[i].elements[j].(x := e.x) == e
            && (IsOddPage(p) ==> r.pages[i].elements[j].x == Some(x + gutter))
            && (!IsOddPage(p) ==> r.pages[i].elements[j].x == Some(if x - gutter >= 0.0 then x - gutter else 0.0))
  {
  }

  /** On an even page no element ends left of 0, and one already at least
      a gutter from the edge moves by exactly the gutter. */
  lemma EvenPagesStayOnPage(e: LayoutElement, gutter: real)
    ensures ShiftElement(e, false, gutter).x.value >= 0.0
    ensures e.x.GetOr(0.0) >= gutter ==> ShiftElement(e, false, gutter).x.value == e.x.GetOr(0.0) - gutter
  {
  }

  /** Shifting an odd page and then treating it as even undoes the shift
      when the gutter is not negative. */
  lemma ShiftRoundTrip(e: LayoutElement, gutter: real)
    requires gutter >= 0.0 && e.x.Some? && e.x.value >= 0.0
    ensures ShiftElement(ShiftElement(e, true, gutter), false, gutter) == e
  {
  }

  /** Page 1 and pages without a number are odd; page 2 is even. */
  lemma PageParity(elements: seq<LayoutElement>)
    ensures IsOddPage(LayoutPage(None, elements))
    ensures IsOddPage(LayoutPage(Some(1), elements))
    ensures !IsOddPage(LayoutPage(Some(2), elements))
  {
  }
}

=== FILE: levels.dfy ===
/** The severity attached to every validation issue. */
module Levels {
  datatype Level = Error | Warning | Info
}

=== FILE: seqs.dfy ===
/** Generic sequence operations standing in for Python list idioms:
    list comprehensions with a condition, slices `xs[:n]`, and
    concatenation of nested lists. */
module Seqs {

  /** `[x for x in s if p(x)]`: the elements satisfying `p`, in order. */
  function Filter<T>(s: seq<T>, p: T -> bool): (r: seq<T>)
    ensures |r| <= |s|
    ensures forall i :: 0 <= i < |r| ==> p(r[i])
  {
    if |s| == 0 then []
    else
      assert s == s[..|s| - 1] + [s[|s| - 1]];
      Filter(s[..|s| - 1], p) + (if p(s[|s| - 1]) then [s[|s| - 1]] else [])
  }

  /** The positions in `s` of the elements satisfying `p`, in increasing
      order. The filter picks exactly these positions: it keeps the order of
      `s`, and an element is left out only when it fails `p`. */
  function Positions<T>(s: seq<T>, p: T -> bool): (ix: seq<nat>)
    ensures |ix| == |Filter(s, p)|
    ensures forall k :: 0 <= k < |ix| ==> ix[k] < |s| && Filter(s, p)[k] == s[ix[k]]
    ensures forall k, l :: 0 <= k < l < |ix| ==> ix[k] < ix[l]
    ensures forall i :: 0 <= i < |s| ==> (p(s[i]) <==> i in ix)
  {
    if |s| == 0 then []
    else
      var init := s[..|s| - 1];
      var ix := Positions(init, p);
      assert forall i :: 0 <= i < |init| ==> s[i] == init[i];
      ix + (if p(s[|s| - 1]) then [|s| - 1] else [])
  }

  /** Filtering never duplicates an element. */
  lemma {:induction false} FilterSubMultiset<T>(s: seq<T>, p: T -> bool)
    ensures multiset(Filter(s, p)) <= multiset(s)
    decreases |s|
  {
    if |s| > 0 {
      FilterSubMultiset(s[..|s| - 1], p);
      assert s == s[..|s| - 1] + [s[|s| - 1]];
    }
  }

  /** Exactly the elements of `s` that satisfy `p` survive the filter. */
  lemma {:induction false} FilterMembers<T>(s: seq<T>, p: T -> bool, x: T)
    ensures x in Filter(s, p) <==> x in s && p(x)
    decreases |s|
  {
    if |s| > 0 {
      FilterMembers(s[..|s| - 1], p, x);
      assert s == s[..|s| - 1] + [s[|s| - 1]];
    }
  }

  lemma {:induction false} FilterConcat<T>(a: seq<T>, b: seq<T>, p: T -> bool)
    ensures Filter(a + b, p) == Filter(a, p) + Filter(b, p)
    decreases |b|
  {
    if |b| == 0 {
      assert a + b == a;
    } else {
      var b' := b[..|b| - 1];
      assert (a + b)[..|a + b| - 1] == a + b';
      FilterConcat(a, b', p);
    }
  }

  lemma {:induction false} FilterNone<T>(s: seq<T>, p: T -> bool)
    requires forall i :: 0 <= i < |s| ==> !p(s[i])
    ensures Filter(s, p) == []
    decreases |s|
  {
    if |s| > 0 {
      FilterNone(s[..|s| - 1], p);
    }
  }

  lemma {:induction false} FilterAll<T>(s: seq<T>, p: T -> bool)
    requires forall i :: 0 <= i < |s| ==> p(s[i])
    ensures Filter(s, p) == s
    decreases |s|
  {
    if |s| > 0 {
      var init := s[..|s| - 1];
      assert forall i :: 0 <= i < |init| ==> init[i] == s[i];
      FilterAll(init, p);
      assert Filter(s, p) == init + [s[|s| - 1]];
    }
  }

  /** Two conditions that agree on every element of `s` filter it alike. */
  lemma {:induction false} FilterSamePredicate<T>(s: seq<T>, p: T -> bool, q: T -> bool)
    requires forall i :: 0 <= i < |s| ==> p(s[i]) == q(s[i])
    ensures Filter(s, p) == Filter(s, q)
    decreases |s|
  {
    if |s| > 0 {
      FilterSamePredicate(s[..|s| - 1], p, q);
    }
  }

  /** Python's `s[:n]` for any integer `n`: a negative bound counts from
      the end, and a bound past either end is clamped. */
  function SliceTo<T>(s: seq<T>, n: int): (r: seq<T>)
    ensures n >= 0 ==> |r| == if n < |s| then n else |s|
    ensures n < 0 ==> |r| == if |s| + n > 0 then |s| + n else 0
    ensures r <= s
  {
    if n >= 0 then (if n < |s| then s[..n] else s)
    else (if |s| + n > 0 then s[..|s| + n] else [])
  }

  /** `[x for xs in ss for x in xs]` */
  function Flatten<T>(ss: seq<seq<T>>): seq<T> {
    if |ss| == 0 then [] else ss[0] + Flatten(ss[1..])
  }

  /** Every inner list is wholly part of the flattening. */
  lemma {:induction false} FlattenHolds<T>(ss: seq<seq<T>>, k: nat)
    requires k < |ss|
    ensures multiset(ss[k]) <= multiset(Flatten(ss))
    decreases k
  {
    if k > 0 {
      FlattenHolds(ss[1..], k - 1);
    }
  }

  lemma {:induction false} FlattenConcat<T>(a: seq<seq<T>>, b: seq<seq<T>>)
    ensures Flatten(a + b) == Flatten(a) + Flatten(b)
    decreases |a|
  {
    if |a| == 0 {
      assert a + b == b;
    } else {
      assert (a + b)[1..] == a[1..] + b;
      FlattenConcat(a[1..], b);
    }
  }
}

=== FILE: sizes.dfy ===
/** The trim-size table shared by the interior validator, the cover and the
    block renderer. Points throughout: 72 points to the inch. */
module Sizes {
  import opened Wrappers

  const Inch: real := 72.0

  /** Safe margins on the four sides; `inner` is the binding side. */
  datatype Margins = Margins(top: real, bottom: real, inner: real, outer: real)

  datatype TrimSize = TrimSize(width: real, height: real, margin: Margins, bleed: bool)

  /** The table itself: only the 6" x 9" trim is defined. */
  function Table(): map<string, TrimSize> {
    map["6x9" := TrimSize(6.0 * Inch, 9.0 * Inch,
                          Margins(0.5 * Inch, 0.5 * Inch, 0.5 * Inch, 0.5 * Inch),
                          false)]
  }

  predicate Known(key: string) {
    key in Table()
  }

  /** `SIZES.get(key)`: present exactly for "6x9", which is 432 x 648 pt with
      36 pt margins on every side and no bleed. */
  function Lookup(key: string): (r: Option<TrimSize>)
    ensures r.Some? <==> key == "6x9"
    ensures r.Some? ==> r.value.width == 432.0 && r.value.height == 648.0
    ensures r.Some? ==> r.value.margin == Margins(36.0, 36.0, 36.0, 36.0)
    ensures r.Some? ==> !r.value.bleed
  {
    if key in Table() then Some(Table()[key]) else None
  }
}

=== FILE: stable_sort.dfy ===
/** Python's `sorted(xs, key=k)`: a stable sort. `sorted(..., reverse=True)`
    keeps equal elements in their original order too, so it is the same as
    an ascending sort by the negated key. */
module StableSort {
  import Seqs

  predicate SortedBy<T>(s: seq<T>, key: T -> real) {
    forall i, j :: 0 <= i < j < |s| ==> key(s[i]) <= key(s[j])
  }

  /** Number of leading elements of a sorted `s` whose key does not exceed
      `k`: the place where an element with key `k` goes after its equals. */
  function Position<T>(s: seq<T>, k: real, key: T -> real): (n: nat)
    requires SortedBy(s, key)
    ensures n <= |s|
    ensures forall i :: 0 <= i < n ==> key(s[i]) <= k
    ensures forall i :: n <= i < |s| ==> key(s[i]) > k
  {
    if |s| == 0 || key(s[0]) > k then 0
    else 1 + Position(s[1..], k, key)
  }

  function Insert<T>(s: seq<T>, x: T, key: T -> real): (r: seq<T>)
    requires SortedBy(s, key)
    ensures SortedBy(r, key)
    ensures multiset(r) == multiset(s) + multiset{x}
  {
    var n := Position(s, key(x), key);
    InsertSorted(s, x, key, n);
    assert s == s[..n] + s[n..];
    s[..n] + [x] + s[n..]
  }

  /** Putting `x` between the elements with keys up to its own and those
      with larger keys keeps the order. */
  lemma InsertSorted<T>(s: seq<T>, x: T, key: T -> real, n: nat)
    requires SortedBy(s, key) && n <= |s|
    requires forall i :: 0 <= i < n ==> key(s[i]) <= key(x)
    requires forall i :: n <= i < |s| ==> key(s[i]) > key(x)
    ensures SortedBy(s[..n] + [x] + s[n..], key)
  {
    var r := s[..n] + [x] + s[n..];
    forall i, j | 0 <= i < j < |r|
      ensures key(r[i]) <= key(r[j])
    {
      if j < n {
        assert r[i] == s[i] && r[j] == s[j];
      } else if j == n {
        assert r[i] == s[i] && r[j] == x;
      } else if i < n {
        assert r[i] == s[i] && r[j] == s[j - 1];
      } else if i == n {
        assert r[i] == x && r[j] == s[j - 1];
      } else {
        assert r[i] == s[i - 1] && r[j] == s[j - 1];
      }
    }
  }

  /** Insertion sort, inserting the elements in input order; each element
      goes after every element already placed with an equal key. */
  function SortBy<T>(s: seq<T>, key: T -> real): (r: seq<T>)
    ensures SortedBy(r, key)
    ensures multiset(r) == multiset(s)
    ensures |r| == |s|
  {
    if |s| == 0 then []
    else
      assert s == s[..|s| - 1] + [s[|s| - 1]];
      var r := Insert(SortBy(s[..|s| - 1], key), s[|s| - 1], key);
      assert |r| == |multiset(r)|;
      r
  }

  /** The elements of `s` whose key is `k`, in their order in `s`. */
  function WithKey<T>(s: seq<T>, key: T -> real, k: real): seq<T> {
    Seqs.Filter(s, KeyIs(key, k))
  }

  function KeyIs<T>(key: T -> real, k: real): T -> bool {
    x => key(x) == k
  }

  lemma FilterSingleton<T>(x: T, p: T -> bool)
    ensures Seqs.Filter([x], p) == if p(x) then [x] else []
  {
    assert [x][..0] == [];
  }

  lemma FilterAround<T>(a: seq<T>, x: T, b: seq<T>, p: T -> bool)
    ensures Seqs.Filter(a + [x] + b, p)
            == Seqs.Filter(a, p) + (if p(x) then [x] else []) + Seqs.Filter(b, p)
  {
    Seqs.FilterConcat(a + [x], b, p);
    Seqs.FilterConcat(a, [x], p);
    FilterSingleton(x, p);
  }

  lemma InsertSplits<T>(s: seq<T>, x: T, key: T -> real)
    requires SortedBy(s, key)
    ensures var n := Position(s, key(x), key);
            Insert(s, x, key) == s[..n] + [x] + s[n..]
  {
  }

  lemma TailHasNoTies<T>(s: seq<T>, x: T, key: T -> real)
    requires SortedBy(s, key)
    ensures Seqs.Filter(s[Position(s, key(x), key)..], KeyIs(key, key(x))) == []
  {
    var b := s[Position(s, key(x), key)..];
    assert forall i :: 0 <= i < |b| ==> !KeyIs(key, key(x))(b[i]);
    Seqs.FilterNone(b, KeyIs(key, key(x)));
  }

  lemma AppendNil<T>(a: seq<T>, c: seq<T>)
    ensures a + c + [] == (a + []) + c
  {
  }

  lemma InsertKeepsTies<T>(s: seq<T>, x: T, key: T -> real, k: real)
    requires SortedBy(s, key)
    ensures WithKey(Insert(s, x, key), key, k)
            == WithKey(s, key, k) + (if key(x) == k then [x] else [])
  {
    var p := KeyIs(key, k);
    var n := Position(s, key(x), key);
    var a, b := s[..n], s[n..];
    var fa, fb := Seqs.Filter(a, p), Seqs.Filter(b, p);
    var fx: seq<T> := if key(x) == k then [x] else [];
    assert Seqs.Filter(Insert(s, x, key), p) == fa + fx + fb by {
      assert p(x) == (key(x) == k);
      InsertSplits(s, x, key);
      FilterAround(a, x, b, p);
    }
    FilterSplit(s, n, p);
    TiesGoLast(fa, fx, fb, key(x) == k, s, x, key);
  }

  lemma FilterSplit<T>(s: seq<T>, n: nat, p: T -> bool)
    requires n <= |s|
    ensures Seqs.Filter(s, p) == Seqs.Filter(s[..n], p) + Seqs.Filter(s[n..], p)
  {
    assert s == s[..n] + s[n..];
    Seqs.FilterConcat(s[..n], s[n..], p);
  }

  /** The last step of `InsertKeepsTies`: either `x` has another key and
      adds nothing, or it has key `k` and no tie follows it. */
  lemma TiesGoLast<T>(fa: seq<T>, fx: seq<T>, fb: seq<T>, tie: bool, s: seq<T>, x: T, key: T -> real)
    requires SortedBy(s, key)
    requires tie ==> fb == Seqs.Filter(s[Position(s, key(x), key)..], KeyIs(key, key(x)))
    requires !tie ==> fx == []
    ensures fa + fx + fb == fa + fb + fx
  {
    if tie {
      TailHasNoTies(s, x, key);
      AppendNil(fa, fx);
    }
  }

  /** Stability: among elements with the same key, the sorted sequence
      keeps their input order. */
  lemma {:induction false} SortIsStable<T>(s: seq<T>, key: T -> real, k: real)
    ensures WithKey(SortBy(s, key), key, k) == WithKey(s, key, k)
    decreases |s|
  {
    if |s| > 0 {
      var init := s[..|s| - 1];
      var last := s[|s| - 1];
      SortIsStable(init, key, k);
      InsertKeepsTies(SortBy(init, key), last, key, k);
    }
  }

  /** No two elements of `s` share the same `f` image. */
  ghost predicate NoDupBy<T, K>(s: seq<T>, f: T -> K) {
    forall i, j :: 0 <= i < j < |s| ==> f(s[i]) != f(s[j])
  }

  lemma InsertKeepsNoDup<T, K>(s: seq<T>, x: T, key: T -> real, f: T -> K)
    requires SortedBy(s, key)
    requires NoDupBy(s, f)
    requires forall i :: 0 <= i < |s| ==> f(s[i]) != f(x)
    ensures NoDupBy(Insert(s, x, key), f)
  {
    var n := Position(s, key(x), key);
    InsertSplits(s, x, key);
    var r := s[..n] + [x] + s[n..];
    forall i, j | 0 <= i < j < |r|
      ensures f(r[i]) != f(r[j])
    {
      var si := if i < n then i else i - 1;
      var sj := if j < n then j else j - 1;
      if i != n && j != n {
        assert r[i] == s[si] && r[j] == s[sj];
      } else if i == n {
        assert r[j] == s[sj];
      } else {
        assert r[i] == s[si];
      }
    }
  }

  /** Sorting never introduces two elements with the same `f` image. */
  lemma {:induction false} SortKeepsNoDup<T, K>(s: seq<T>, key: T -> real, f: T -> K)
    requires NoDupBy(s, f)
    ensures NoDupBy(SortBy(s, key), f)
    decreases |s|
  {
    if |s| > 0 {
      var init, last := s[..|s| - 1], s[|s| - 1];
      SortKeepsNoDup(init, key, f);
      var sorted := SortBy(init, key);
      forall i | 0 <= i < |sorted|
        ensures f(sorted[i]) != f(last)
      {
        assert sorted[i] in multiset(init);
        var k :| 0 <= k < |init| && init[k] == sorted[i];
        assert s[k] == init[k];
      }
      InsertKeepsNoDup(sorted, last, key, f);
    }
  }
}

=== FILE: text.dfy ===
/** The few Python `str` operations the modelled code relies on.
    Characters are treated as ASCII: `lower`, `isupper`, `isdigit` and
    `strip` only know the ASCII letters, digits and whitespace. */
module Text {

  predicate IsAsciiUpper(c: char) { 'A' <= c <= 'Z' }

  predicate IsAsciiLower(c: char) { 'a' <= c <= 'z' }

  predicate IsDigit(c: char) { '0' <= c <= '9' }

  /** Python's `isspace` on ASCII: space, tab, line feed, vertical tab,
      form feed, carriage return and the four separators 0x1C to 0x1F. */
  predicate IsSpace(c: char) {
    c == ' ' || '\t' <= c <= '\r' || '\U{1C}' <= c <= '\U{1F}'
  }

  function LowerChar(c: char): (r: char)
    ensures !IsAsciiUpper(r)
    ensures !IsAsciiUpper(c) ==> r == c
  {
    if IsAsciiUpper(c) then (c as int + 32) as char else c
  }

  /** `s.lower()` */
  function Lower(s: string): (r: string)
    ensures |r| == |s|
    ensures forall i :: 0 <= i < |s| ==> r[i] == LowerChar(s[i])
  {
    if |s| == 0 then [] else [LowerChar(s[0])] + Lower(s[1..])
  }

  lemma LowerIdempotent(s: string)
    ensures Lower(Lower(s)) == Lower(s)
  {
  }

  /** A string without upper-case letters is its own lower-case form. */
  lemma LowerOfLowerCase(s: string)
    requires forall i :: 0 <= i < |s| ==> !IsAsciiUpper(s[i])
    ensures Lower(s) == s
  {
  }

  /** `s.isupper()`: every cased character is upper-case and there is at
      least one cased character. */
  predicate IsUpper(s: string) {
    (forall i :: 0 <= i < |s| ==> !IsAsciiLower(s[i]))
    && (exists i :: 0 <= i < |s| && IsAsciiUpper(s[i]))
  }

  /** `sub in s` for strings: `sub` occurs at some offset of `s`. */
  predicate Contains(s: string, sub: string) {
    exists i :: 0 <= i <= |s| - |sub| && OccursAt(s, sub, i)
  }

  predicate OccursAt(s: string, sub: string, i: int)
    requires 0 <= i <= |s| - |sub|
  {
    s[i..i + |sub|] == sub
  }

  /** `c in s` for a single character. */
  predicate HasChar(s: string, c: char) {
    c in s
  }

  /** The part of `s` before the first `c` (Python's `s.split(c, 1)[0]`). */
  function Before(s: string, c: char): (r: string)
    ensures c !in r
    ensures r <= s
    ensures c in s ==> |r| < |s| && s[|r|] == c
    ensures c !in s ==> r == s
  {
    if |s| == 0 then []
    else if s[0] == c then []
    else [s[0]] + Before(s[1..], c)
  }

  function TrimLeft(s: string): (r: string)
    ensures |r| <= |s|
    ensures r == s[|s| - |r|..]
    ensures |r| > 0 ==> !IsSpace(r[0])
    ensures forall i :: 0 <= i < |s| - |r| ==> IsSpace(s[i])
  {
    if |s| > 0 && IsSpace(s[0]) then TrimLeft(s[1..]) else s
  }

  function TrimRight(s: string): (r: string)
    ensures |r| <= |s|
    ensures r == s[..|r|]
    ensures |r| > 0 ==> !IsSpace(r[|r| - 1])
    ensures forall i :: |r| <= i < |s| ==> IsSpace(s[i])
  {
    if |s| > 0 && IsSpace(s[|s| - 1]) then TrimRight(s[..|s| - 1]) else s
  }

  /** `s.strip()`: no leading or trailing whitespace is left. */
  function Strip(s: string): (r: string)
    ensures |r| <= |s|
    ensures |r| > 0 ==> !IsSpace(r[0]) && !IsSpace(r[|r| - 1])
  {
    TrimRight(TrimLeft(s))
  }

  /** `s.split(sep)` for a one-character separator: the pieces between the
      separators, so there is always one more piece than separators. */
  function Split(s: string, sep: char): (r: seq<string>)
    ensures |r| >= 1
    ensures forall i :: 0 <= i < |r| ==> sep !in r[i]
  {
    if sep !in s then [s]
    else
      var head := Before(s, sep);
      [head] + Split(s[|head| + 1..], sep)
  }

  /** `sep.join(pieces)` */
  function Join(pieces: seq<string>, sep: char): string {
    if |pieces| == 0 then ""
    else if |pieces| == 1 then pieces[0]
    else pieces[0] + [sep] + Join(pieces[1..], sep)
  }

  /** Joining the pieces with the separator gives the string back, so the
      split loses nothing but the separators. */
  lemma {:induction false} SplitJoin(s: string, sep: char)
    ensures Join(Split(s, sep), sep) == s
    decreases |s|
  {
    if sep in s {
      var head := Before(s, sep);
      var tail := s[|head| + 1..];
      var rest := Split(tail, sep);
      SplitJoin(tail, sep);
      assert Split(s, sep) == [head] + rest;
      assert ([head] + rest)[1..] == rest;
      assert Join([head] + rest, sep) == head + [sep] + Join(rest, sep);
      assert s == s[..|head|] + [s[|head|]] + tail;
    }
  }

  /** `s.replace(a, b)` for single characters. */
  function ReplaceChar(s: string, a: char, b: char): (r: string)
    ensures |r| == |s|
    ensures forall i :: 0 <= i < |s| ==> r[i] == (if s[i] == a then b else s[i])
  {
    if |s| == 0 then [] else [if s[0] == a then b else s[0]] + ReplaceChar(s[1..], a, b)
  }
}

=== FILE: thumbnail.dfy ===
/** The page-extent estimate used before drawing a thumbnail: the far
    corner of everything placed on the page, but never smaller than a
    6" x 9" page. */
module Thumbnail {
  import opened Wrappers

  /** An `{x, y, width, height}` record; a missing key reads as 0. */
  datatype Box = Box(x: Option<real>, y: Option<real>, width: Option<real>, height: Option<real>)

  function Right(b: Box): real { b.x.GetOr(0.0) + b.width.GetOr(0.0) }

  function Top(b: Box): real { b.y.GetOr(0.0) + b.height.GetOr(0.0) }

  /** A drawn element: its `type` and its own box. */
  datatype Element = Element(kind: Option<string>, box: Box)

  /** An extracted block as stored: its `type` and the geometry keys the
      estimate looks at.  A missing `line` or `bounds` is the empty box, a
      missing list is empty, a checkbox item without a rect is the empty
      box, and `rect` is `None` when it is missing or an empty record. */
  datatype SavedBlock = SavedBlock(
    kind: Option<string>,
    line: Box,
    bounds: Box,
    rects: seq<Box>,
    items: seq<Box>,
    stars: seq<Box>,
    rect: Option<Box>)

  /** Element types whose box is counted. */
  predicate Counted(kind: Option<string>) {
    kind == Some("rectangle") || kind == Some("text") || kind == Some("line")
  }

  /** Block types with their own geometry key. */
  predicate Recognised(kind: Option<string>) {
    kind == Some("labeled_line") || kind == Some("grid") || kind == Some("weekly_row")
    || kind == Some("checkbox_list") || kind == Some("star_row")
  }

  /** The boxes one block contributes, in the order they are visited.  A
      labeled line counts with height 0. */
  function BlockBoxes(b: SavedBlock): seq<Box> {
    if b.kind == Some("labeled_line") then [b.line.(height := Some(0.0))]
    else if b.kind == Some("grid") then [b.bounds]
    else if b.kind == Some("weekly_row") then b.rects
    else if b.kind == Some("checkbox_list") then b.items
    else if b.kind == Some("star_row") then b.stars
    else if b.rect.Some? then [b.rect.value]
    else []
  }

  /** The box one element contributes, if its type is counted. */
  function ElementBox(e: Element): seq<Box> {
    if Counted(e.kind) then [e.box] else []
  }

  function ElementBoxes(els: seq<Element>): seq<Box> {
    if |els| == 0 then [] else ElementBox(els[0]) + ElementBoxes(els[1..])
  }

  function BlocksBoxes(blocks: seq<SavedBlock>): seq<Box> {
    if |blocks| == 0 then [] else BlockBoxes(blocks[0]) + BlocksBoxes(blocks[1..])
  }

  /** Every box the estimate folds over: elements first, then blocks. */
  function AllBoxes(els: seq<Element>, blocks: seq<SavedBlock>): seq<Box> {
    ElementBoxes(els) + BlocksBoxes(blocks)
  }

  function Max(a: real, b: real): real { if a >= b then a else b }

  function Rights(bs: seq<Box>): seq<real> {
    seq(|bs|, i requires 0 <= i < |bs| => Right(bs[i]))
  }

  function Tops(bs: seq<Box>): seq<real> {
    seq(|bs|, i requires 0 <= i < |bs| => Top(bs[i]))
  }

  /** The running maximum that starts at 0 and takes `max` with each value
      in turn. */
  function Peak(vals: seq<real>): (r: real)
    ensures r >= 0.0
    ensures forall i :: 0 <= i < |vals| ==> vals[i] <= r
  {
    if |vals| == 0 then 0.0 else Max(Peak(vals[..|vals| - 1]), vals[|vals| - 1])
  }

  /** `_estimate_page_size`: at least 432 x 648, and at least as far as the
      right and top edge of every counted box; with nothing to measure it
      is exactly the 6" x 9" page. */
  function EstimatePageSize(els: seq<Element>, blocks: seq<SavedBlock>): (r: (real, real))
    ensures r.0 >= 432.0 && r.1 >= 648.0
    ensures els == [] && blocks == [] ==> r == (432.0, 648.0)
  {
    var all := AllBoxes(els, blocks);
    (Max(432.0, Peak(Rights(all))), Max(648.0, Peak(Tops(all))))
  }

  // ---------------------------------------------------------------- lemmas

  /** The running maximum is 0 or one of the values. */
  lemma {:induction false} PeakAttained(vals: seq<real>)
    ensures Peak(vals) == 0.0 || exists i :: 0 <= i < |vals| && vals[i] == Peak(vals)
    decreases |vals|
  {
    if |vals| > 0 {
      var init := vals[..|vals| - 1];
      PeakAttained(init);
      if Peak(vals) != vals[|vals| - 1] && Peak(init) != 0.0 {
        var i :| 0 <= i < |init| && init[i] == Peak(init);
        assert vals[i] == Peak(vals);
      }
    }
  }

  lemma {:induction false} ElementBoxesConcat(a: seq<Element>, b: seq<Element>)
    ensures ElementBoxes(a + b) == ElementBoxes(a) + ElementBoxes(b)
    decreases |a|
  {
    if |a| == 0 {
      assert a + b == b;
    } else {
      assert (a + b)[1..] == a[1..] + b;
      ElementBoxesConcat(a[1..], b);
    }
  }

  lemma {:induction false} BlocksBoxesConcat(a: seq<SavedBlock>, b: seq<SavedBlock>)
    ensures BlocksBoxes(a + b) == BlocksBoxes(a) + BlocksBoxes(b)
    decreases |a|
  {
    if |a| == 0 {
      assert a + b == b;
    } else {
      assert (a + b)[1..] == a[1..] + b;
      BlocksBoxesConcat(a[1..], b);
    }
  }

  lemma {:induction false} CountedElementIsMeasured(els: seq<Element>, i: nat)
    requires i < |els| && Counted(els[i].kind)
    ensures els[i].box in ElementBoxes(els)
    decreases i
  {
    if i > 0 {
      CountedElementIsMeasured(els[1..], i - 1);
    } else {
      assert ElementBox(els[0]) == [els[0].box];
    }
  }

  lemma {:induction false} BlockBoxIsMeasured(blocks: seq<SavedBlock>, k: nat, b: Box)
    requires k < |blocks| && b in BlockBoxes(blocks[k])
    ensures b in BlocksBoxes(blocks)
    decreases k
  {
    if k > 0 {
      BlockBoxIsMeasured(blocks[1..], k - 1, b);
    }
  }

  /** Any measured box lies within the estimate. */
  lemma MeasuredBoxIsCovered(els: seq<Element>, blocks: seq<SavedBlock>, b: Box)
    requires b in AllBoxes(els, blocks)
    ensures Right(b) <= EstimatePageSize(els, blocks).0
    ensures Top(b) <= EstimatePageSize(els, blocks).1
  {
    var all := AllBoxes(els, blocks);
    var j :| 0 <= j < |all| && all[j] == b;
    assert Rights(all)[j] == Right(b);
    assert Tops(all)[j] == Top(b);
  }

  /** Every rectangle, text or line element ends inside the estimate. */
  lemma CountedElementsAreCovered(els: seq<Element>, blocks: seq<SavedBlock>, i: nat)
    requires i < |els| && Counted(els[i].kind)
    ensures Right(els[i].box) <= EstimatePageSize(els, blocks).0
    ensures Top(els[i].box) <= EstimatePageSize(els, blocks).1
  {
    CountedElementIsMeasured(els, i);
    MeasuredBoxIsCovered(els, blocks, els[i].box);
  }

  /** Every box a block contributes ends inside the estimate. */
  lemma BlockBoxesAreCovered(els: seq<Element>, blocks: seq<SavedBlock>, k: nat, b: Box)
    requires k < |blocks| && b in BlockBoxes(blocks[k])
    ensures Right(b) <= EstimatePageSize(els, blocks).0
    ensures Top(b) <= EstimatePageSize(els, blocks).1
  {
    BlockBoxIsMeasured(blocks, k, b);
    MeasuredBoxIsCovered(els, blocks, b);
  }

  /** What each recognised block type contributes: the line of a labeled
      line (whose own height is ignored), the grid's bounds, and every
      rect of a weekly row, checkbox list or star row; any other block
      only its `rect`. */
  lemma RecognisedBlocksAreCovered(els: seq<Element>, blocks: seq<SavedBlock>, k: nat)
    requires k < |blocks|
    ensures var r := EstimatePageSize(els, blocks); var b := blocks[k];
      && (b.kind == Some("labeled_line") ==>
            Right(b.line) <= r.0 && b.line.y.GetOr(0.0) <= r.1)
      && (b.kind == Some("grid") ==> Right(b.bounds) <= r.0 && Top(b.bounds) <= r.1)
      && (b.kind == Some("weekly_row") ==>
            forall j :: 0 <= j < |b.rects| ==> Right(b.rects[j]) <= r.0 && Top(b.rects[j]) <= r.1)
      && (b.kind == Some("checkbox_list") ==>
            forall j :: 0 <= j < |b.items| ==> Right(b.items[j]) <= r.0 && Top(b.items[j]) <= r.1)
      && (b.kind == Some("star_row") ==>
            forall j :: 0 <= j < |b.stars| ==> Right(b.stars[j]) <= r.0 && Top(b.stars[j]) <= r.1)
      && (!Recognised(b.kind) && b.rect.Some? ==>
            Right(b.rect.value) <= r.0 && Top(b.rect.value) <= r.1)
  {
    var b := blocks[k];
    var bs := BlockBoxes(b);
    forall j | 0 <= j < |bs| {
      BlockBoxesAreCovered(els, blocks, k, bs[j]);
    }
    if b.kind == Some("labeled_line") {
      assert bs[0] == b.line.(height := Some(0.0));
    } else if b.kind == Some("grid") {
      assert bs[0] == b.bounds;
    } else if !Recognised(b.kind) && b.rect.Some? {
      assert bs[0] == b.rect.value;
    }
  }

  /** The estimate is tight: each side is the 6" x 9" floor or the edge of
      some measured box. */
  lemma EstimateIsAttained(els: seq<Element>, blocks: seq<SavedBlock>)
    ensures var r := EstimatePageSize(els, blocks); var all := AllBoxes(els, blocks);
      && (r.0 == 432.0 || exists j :: 0 <= j < |all| && Right(all[j]) == r.0)
      && (r.1 == 648.0 || exists j :: 0 <= j < |all| && Top(all[j]) == r.1)
  {
    var all := AllBoxes(els, blocks);
    PeakAttained(Rights(all));
    PeakAttained(Tops(all));
  }

  /** Appending an element of any other type changes nothing. */
  lemma IgnoredElementsDoNotCount(els: seq<Element>, e: Element, blocks: seq<SavedBlock>)
    requires !Counted(e.kind)
    ensures EstimatePageSize(els + [e], blocks) == EstimatePageSize(els, blocks)
  {
    ElementBoxesConcat(els, [e]);
    assert ElementBoxes([e]) == ElementBox(e) + ElementBoxes([]);
    assert ElementBoxes(els + [e]) == ElementBoxes(els);
  }

  /** A block of an unrecognised type counts only through its `rect`:
      two such blocks with the same rect give the same estimate, and one
      without a rect changes nothing. */
  lemma OtherBlocksCountOnlyTheirRect(els: seq<Element>, blocks: seq<SavedBlock>, b: SavedBlock, c: SavedBlock)
    requires !Recognised(b.kind) && !Recognised(c.kind) && b.rect == c.rect
    ensures EstimatePageSize(els, blocks + [b]) == EstimatePageSize(els, blocks + [c])
    ensures b.rect.None? ==> EstimatePageSize(els, blocks + [b]) == EstimatePageSize(els, blocks)
  {
    BlocksBoxesConcat(blocks, [b]);
    BlocksBoxesConcat(blocks, [c]);
    assert BlocksBoxes([b]) == BlockBoxes(b) + BlocksBoxes([]);
    assert BlocksBoxes([c]) == BlockBoxes(c) + BlocksBoxes([]);
    if b.rect.None? {
      assert BlocksBoxes(blocks + [b]) == BlocksBoxes(blocks);
    }
  }
}

=== FILE: wrappers.dfy ===
/** Optional values and results with an error, standing in for Python's
    `None` and for exceptions raised by the modelled functions. */
module Wrappers {

  datatype Option<+T> = None | Some(value: T) {

    /** The value, or `default` when absent (Python's `d.get(k, default)`). */
    function GetOr(default: T): T {
      match this
      case Some(v) => v
      case None => default
    }
  }

  datatype Result<+R, +E> = Success(value: R) | Failure(error: E)
}
